=== FILE: README.md ===
# Task manager and admission calculator — a Dafny model of the core

This project models the logic at the heart of a Django study-planner with an
admission-score calculator, and proves properties of it.

**Work-remaining ledger.** Each task board keeps one `EstimateHistory` row per
day. A row holds `time_remaining`, the estimated work still open on that
board. The `Task.save` and `Task.delete` hooks adjust today's row of the
task's board. The row is fetched by an overridden `get`, which creates the
row when it is missing. A new row carries forward the value of the board's
most recently inserted row.

The model gives each hook as a pure transition on a store (a task table plus
the ledger rows in insertion order). It proves exactly when the hooks keep
the ledger consistent. Consistent means three things: task keys are unique;
each board's rows are in strictly increasing date order (`Chronological`);
and every board's latest row equals the sum of the estimates of its tasks
that are not `"DONE"`. The ledger proofs also assume that no row is dated
after today (see "## Left out").

**Burndown chart helpers.** The model covers these parts of the chart script:
- the date range;
- the gap-filling, carry-last-value resampler (`fillDates`);
- the slope;
- the choice of the velocity start sample;
- the nearest-deadline trend line.

Dates are integer day numbers, and "today" is a parameter.

**Small helpers and views:**
- the due-date predicates and estimate parsing of the task page;
- the exam-score upsert and the weighted-sum score calculator;
- the parent dashboard's per-child counters and its access gate;
- the task API's list precedence, range filter and 404/400 answers;
- the profile page's parent/child link and permission transitions;
- the score-history list precedence;
- the demo import script's filter, order-preserving deduplication and
  get-or-create idempotence.

Modules follow the source files:

| file | module | source |
|---|---|---|
| basics.dfy | `Basics` | Django's `get()` (none / one / several), `filter`, `count`, query parameters |
| estimate_history.dfy | `EstimateHistory` | manager/models/estimate_history.py |
| task.dfy | `TaskModel` | manager/models/task.py |
| ledger_invariant.dfy | `LedgerInvariant` | what the two files above keep, and where they do not |
| burndown.dfy | `Burndown` | manager/static/manager/burndown.js |
| utils.dfy | `Utils` | manager/static/manager/utils.js |
| student_exam_score.dfy | `StudentExamScore` | calculator/views/student_exam_score.py |
| dashboard.dfy | `Dashboard` | manager/views/dashboard.py |
| tasks_view.dfy | `TasksView` | manager/views/tasks.py |
| profile.dfy | `Profile` | manager/views/profile.py |
| score_history.dfy | `ScoreHistory` | calculator/views/score_history.py |
| import_data.dfy | `ImportData` | calculator/import_data.py |

Errors are modelled as values:
- a `get()` that finds several rows gives `None` or status 500, standing for
  Django's uncaught `MultipleObjectsReturned`;
- a missing row gives 404;
- an invalid body gives 400.

## Where the code departs from the ledger invariant

The ledger is meant to hold the work still open on each board: every
board's latest row equals the sum of the estimates of its tasks that are not
`"DONE"` (`Consistent`). The model follows the code, and proves where the
code keeps that invariant and where it departs from it.

- **Deleting a DONE task.** A DONE task no longer counts towards the open
  work, yet the delete hook subtracts its estimate whatever the status
  (manager/models/task.py:97). `LedgerInvariant.DeleteDoneBreaks` shows the
  ledger falling below the open work by that estimate.
- **Re-estimating a DONE task.** The save hook adds the estimate difference
  whatever the status (manager/models/task.py:80), although the task's
  estimate is not part of the open work. `LedgerInvariant.DoneReestimateBreaks`
  shows the row moving off by exactly that difference.
- **Carry-forward source.** The manager's docstring says a new row starts
  from "the previous day" (manager/models/estimate_history.py:14). The code
  copies the board's last *inserted* row (`.last()` on an unordered
  queryset, estimate_history.py:17). The two agree while rows are inserted
  in date order (`Chronological`). `EstimateHistory.CarryFollowsInsertionNotDate`
  gives an instance where they differ.
- **Moving a task to another board.** The code adjusts only the new board's
  row, so the old board keeps counting the task. `LedgerInvariant.BoardMoveBreaks`
  exhibits this.
- **The dashboard's "today" counter.** It compares only the day of the month
  (`end_date__day`). A task due on the 10th of another month counts as due
  today (`Dashboard.TodayIgnoresMonth`).

## Model

| member | source | states |
|---|---|---|
| TaskModel.ChangedToDone | manager/models/task.py:39-52 | true exactly when the new status is "DONE" and the stored task (if any) was not DONE; a task created as DONE counts |
| TaskModel.ChangedFromDone | manager/models/task.py:54-66 | true exactly when a stored DONE task is saved with another status; never for a new task |
| TaskModel.SaveDelta | manager/models/task.py:80-84 | the amount a save adds, per case: new task +estimate (0 when created DONE); open→open new−old; open→DONE −old; DONE→open 2·new−old; DONE→DONE new−old |
| TaskModel.Adjust | manager/models/task.py:77-85 | fails iff two rows share (board, today); otherwise adds the delta to the one (board, today) row, or appends one carrying the recorded value plus the delta, and leaves every other row as it was |
| TaskModel.TimeDiff | manager/models/task.py:31-37 | the new estimate minus the stored one; a task not yet stored counts from 0 |
| TaskModel.Persist | manager/models/task.py:87 | a new key is appended; for a stored key the new version replaces the row at that key and every other row is kept |
| TaskModel.Remove | manager/models/task.py:100 | an unknown key leaves the table as is; a known key drops the row at that key and keeps every other row in order |
| TaskModel.Save | manager/models/task.py:68-87 | fails iff today's row of the board is duplicated; otherwise persists the task and adjusts only that row by `SaveDelta` of the stored version |
| TaskModel.Delete | manager/models/task.py:89-100 | fails iff today's row is duplicated; otherwise removes the task and lowers only that row by the estimate, whatever the status |
| EstimateHistory.LastOfBoard | manager/models/estimate_history.py:17 | the index of the board's last-inserted row: on the board, with no later row of the board; none iff the board has no row |
| EstimateHistory.Create | manager/models/estimate_history.py:11-22 | appends one (board, date) row; it copies the board's last row when the board has one, otherwise it takes the supplied value or 0 |
| EstimateHistory.Get | manager/models/estimate_history.py:24-33 | fails iff two rows match; an existing row is returned with the rows unchanged; with no match exactly one new row is created |
| EstimateHistory.GetExisting | manager/models/estimate_history.py:29-30 | with unique (board, date) rows, `get` returns the matching row and creates nothing |
| EstimateHistory.GetMissingKeepsUnique | manager/models/estimate_history.py:31-33 | a missing row is created exactly once, and rows stay unique per (board, date) |
| EstimateHistory.CarryIsLastBoardRow | manager/models/estimate_history.py:17-20 | the carried value is the last of the board's own rows, or the supplied value when the board has none |
| EstimateHistory.OtherBoardsIrrelevant | manager/models/estimate_history.py:17 | two ledgers with the same rows for a board carry forward the same value for it |
| EstimateHistory.CarryFollowsInsertionNotDate | manager/models/estimate_history.py:17-20 | a back-dated row inserted last is the one carried, not the latest-dated one |
| EstimateHistory.FirstRowDefault | manager/models/estimate_history.py:41 | a board's first row starts at 0 when no value is supplied |
| EstimateHistory.NewDayCarriesRecorded | manager/models/estimate_history.py:24-33 | fetching a day with no row appends one holding the board's currently recorded value |
| LedgerInvariant.LookalikeStatusIsOutstanding | manager/models/task.py:50-52 | a task created as "Finished" or "INPROGRESS" adds its whole estimate and counts as outstanding: only "DONE" is terminal |
| LedgerInvariant.AdjustedShifts | manager/models/task.py:77-85 | adding d to today's row shifts that board's recorded value by d, keeps every other board's, and keeps the ledger chronological |
| LedgerInvariant.Drift | manager/models/task.py:80-84 | how far a save leaves the row from the outstanding work: zero for a new or open stored task, new−old for a DONE stored task |
| LedgerInvariant.SaveConsistency | manager/models/task.py:68-87 | on a consistent ledger a save (task staying on its board) succeeds; every other board stays exact, and the result is consistent iff `Drift` is 0 |
| LedgerInvariant.DeleteConsistency | manager/models/task.py:89-100 | on a consistent ledger a delete succeeds, and the result is consistent iff the task was not DONE or had estimate 0 |
| LedgerInvariant.CreatePreserves | manager/models/task.py:80-82 | creating a task, DONE or not, keeps the ledger consistent |
| LedgerInvariant.UpdateFromOutstandingPreserves | manager/models/task.py:80-82 | any same-board update of a task that was not DONE keeps the ledger consistent |
| LedgerInvariant.ReopenPreserves | manager/models/task.py:83-84 | reopening a DONE task with an unchanged estimate keeps the ledger consistent |
| LedgerInvariant.DoneReestimateBreaks | manager/models/task.py:80 | re-estimating a DONE task breaks consistency; the row is off by exactly new−old |
| LedgerInvariant.DeleteDoneBreaks | manager/models/task.py:97 | deleting a DONE task with a nonzero estimate breaks consistency |
| LedgerInvariant.BoardMoveBreaks | manager/models/task.py:77-80 | a concrete save that moves a task to another board leaves the old board's row counting it |
| LedgerInvariant.SaveInPlace | manager/models/task.py:77-87 | with exactly one row for (board, today), a save changes that row in place by the delta and persists the task |
| LedgerInvariant.ToggleOnce | manager/models/task.py:80-84 | marking an open task DONE and saving it back leaves the table as it was and the ledger consistent, with today's row present |
| LedgerInvariant.RoundFixed | manager/models/task.py:80-84 | once today's row exists, a DONE-then-back round leaves the store exactly as it was |
| LedgerInvariant.ToggleRestores | manager/models/task.py:80-84 | TODO→DONE→TODO with a fixed estimate, any number of times, restores the table and every board's recorded value; later rounds are no-ops |
| LedgerInvariant.CreateThenDeleteRestores | manager/models/task.py:94-98 | creating an open task and deleting it restores the table and every board's recorded value |
| LedgerInvariant.LaterDayCreate | manager/models/task.py:77-82 | a task created on a day after every row lands on a new row: the previous value plus its estimate |
| Burndown.Slope | manager/static/manager/burndown.js:34-46 | −t1 when the days coincide; otherwise slope × (d2−d1) = t2−t1 |
| Burndown.SlopeTowardsZero | manager/static/manager/burndown.js:42-45 | towards zero work over later days the slope is negative and removes exactly t1 |
| Burndown.DateRange | manager/static/manager/burndown.js:52-64 | e−s+1 days (none when s > e), the i-th being s+i |
| Burndown.DateRangeMembers | manager/static/manager/burndown.js:52-64 | a day is in the range iff s ≤ d ≤ e |
| Burndown.Gap | manager/static/manager/burndown.js:84-87 | the days strictly between, each with the carried value |
| Burndown.Resample | manager/static/manager/burndown.js:78-91 | empty iff the input is; ends with the last sample |
| Burndown.ResampleCarries | manager/static/manager/burndown.js:78-91 | for ascending samples: every day from the first sample to the last, each with the latest sample on or before it |
| Burndown.Extended | manager/static/manager/burndown.js:92-99 | the resampled series, then one bar per day after the last sample through today, each with the last sample's value |
| Burndown.ExtendedCarries | manager/static/manager/burndown.js:92-99 | the series continues through today with the last known value |
| Burndown.WindowCarries | manager/static/manager/burndown.js:100 | the preview filter keeps exactly the carried days from the later start on |
| Burndown.FillDates | manager/static/manager/burndown.js:66-101 | no day before today−15; empty input gives empty output |
| Burndown.FillDatesReference | manager/static/manager/burndown.js:66-101 | for ascending samples: the length, and every day carries the latest sample on or before it |
| Burndown.FillDatesContiguous | manager/static/manager/burndown.js:66-101 | the filled days are exactly the window's date range, neighbours one day apart, ending at today or the last sample |
| Burndown.Peak | manager/static/manager/burndown.js:319 | the index of a maximum, strictly above every earlier sample |
| Burndown.PeakUnique | manager/static/manager/burndown.js:319 | the earliest maximum is the only index with that property |
| Burndown.Earliest | manager/static/manager/burndown.js:154-159 | none iff nothing is displayed; otherwise a displayed annotation's day, no later than any displayed one |
| Burndown.NearestTrend | manager/static/manager/burndown.js:148-165 | fails iff no bar is dated today; otherwise from today's bar to the earliest displayed deadline, aiming at 0 |
| Burndown.UpdateTrendLine | manager/static/manager/burndown.js:218-227 | shown iff there is a deadline, y1 > 0 and the deadline is no later than the velocity end; only `display` changes when hidden |
| Burndown.TrendShownIff | manager/static/manager/burndown.js:218-227 | shown exactly when work remains today and a displayed deadline falls no later than the velocity end |
| Burndown.RequiredVelocity | manager/static/manager/burndown.js:239-244 | 0 when the line is hidden or has no deadline; −y1 when the deadline is the start day; otherwise velocity × (x2−x1) = y2−y1 |
| Burndown.RequiredVelocityBurnsDown | manager/static/manager/burndown.js:239-244 | a shown line to a later deadline gives a negative velocity that burns today's work to 0 by the deadline |
| Utils.NearDue | manager/static/manager/utils.js:35-41 | true iff 0 < due−now ≤ 3 days |
| Utils.PassedDue | manager/static/manager/utils.js:43-49 | true iff due ≤ now |
| Utils.DueClassification | manager/static/manager/utils.js:35-49 | near and passed exclude each other; neither holds iff more than 3 days remain; at the due instant a task is passed, not near |
| Utils.EstimatedTime | manager/static/manager/utils.js:51-56 | "" is 0; a digit string is a number; anything else is outside the modelled grammar |
| Utils.EstimatedTimeRoundTrip | manager/static/manager/utils.js:51-56 | the decimal spelling of n reads back as n |
| Utils.LeadingZeros | manager/static/manager/utils.js:55 | leading zeros do not change the value read |
| Utils.ValidDateInstant | manager/static/manager/utils.js:16-26 | a typed date is used as parsed; "" gives a midnight within the next day |
| Utils.DefaultIsNextMidnight | manager/static/manager/utils.js:22-25 | the default is the first midnight after now |
| StudentExamScore.PayloadValid | calculator/models/student_exam_score.py:12-14 | the serializer's checks: existing student and exam, a score of at least 0, every field on a full save |
| StudentExamScore.FullPayloadValid | calculator/views/student_exam_score.py:43-47 | a full save accepts exactly the partially valid payloads that post every field |
| StudentExamScore.Merge | calculator/views/student_exam_score.py:43-45 | the key is kept; an empty payload changes nothing; a full payload replaces every field; an absent field keeps its stored value |
| StudentExamScore.Create | calculator/views/student_exam_score.py:36-53 | 200 iff a row for (user, exam) exists and the partial payload is valid, updated in place; 201 iff there is none and the full payload is valid, one row appended; 400 or 500 change nothing |
| StudentExamScore.CreateKeepsUnique | calculator/views/student_exam_score.py:38-48 | an upsert for the requesting user keeps one row per (student, exam) |
| StudentExamScore.CreateIdempotent | calculator/views/student_exam_score.py:38-45 | posting the same complete score twice changes nothing the second time |
| StudentExamScore.CreateForOtherStudentDuplicates | calculator/views/student_exam_score.py:40-47 | a payload naming another student who already has the exam creates a duplicate pair |
| StudentExamScore.Validate | calculator/views/student_exam_score.py:63-72 | none iff some criterion lacks an existing exam or a weight, or has a weight above 100; otherwise the criteria in order, with `min_score` defaulting to 0 |
| StudentExamScore.LookupAgreesWithScores | calculator/views/student_exam_score.py:76-81 | the per-criterion lookup raises exactly when the user has two rows for the exam, finds nothing exactly when the user has no score for it, and otherwise finds the score the user's score map holds; other students' rows play no part |
| StudentExamScore.LookupManyIff | calculator/views/student_exam_score.py:76-79 | the `get` for a criterion's exam raises `MultipleObjectsReturned` exactly when the requesting user has two rows for that exam |
| StudentExamScore.Missing | calculator/views/student_exam_score.py:81-83 | every warning is an unscored exam, and every criterion without a score is warned about |
| StudentExamScore.MissingIsUnscoredExams | calculator/views/student_exam_score.py:76-83 | the warnings are the exams of the criteria without a score, one per such criterion, in criteria order |
| StudentExamScore.Tally | calculator/views/student_exam_score.py:74-83 | fails exactly when the user has two rows for some criterion's exam; otherwise the sum of score × weight / 100 over the criteria and the missing-exam warnings, whatever other students' rows hold |
| StudentExamScore.CalculateScore | calculator/views/student_exam_score.py:56-86 | a request without a `criteria` field gives 500; invalid criteria give 404; two rows of the user for a criterion's exam give 500; otherwise the session's "score" is the weighted sum, with one warning per missing exam |
| StudentExamScore.MinScoreIrrelevant | calculator/views/student_exam_score.py:74-80 | the result does not depend on any criterion's minimum score |
| StudentExamScore.OtherUpsertIrrelevant | calculator/views/student_exam_score.py:40-48 | another student's upsert never changes a user's scores |
| Dashboard.Children | manager/views/dashboard.py:16-18 | exactly the student profiles that list the parent |
| Dashboard.Context | manager/views/dashboard.py:20-49 | no counters iff no children; otherwise one entry per child, each the count of its filter; late + fin ≤ the child's tasks |
| Dashboard.Get | manager/views/dashboard.py:51-63 | anonymous users go to login; users without `is_parent` go to the index; parents get their children and, for them, exactly the counters of `Context` |
| Dashboard.LateAndFinishedBounded | manager/views/dashboard.py:34-45 | late and finished are disjoint, so together they never exceed the child's tasks |
| Dashboard.AllDoneNothingLate | manager/views/dashboard.py:34-45 | when every task is DONE, nothing is late and every task is finished |
| Dashboard.TodayIgnoresMonth | manager/views/dashboard.py:29-33 | a task due on the same day of another month counts as due today |
| TasksView.InsertByEnd | manager/views/tasks.py:36 | the result is sorted by end date and is a permutation of the input plus the new task |
| TasksView.SortByEnd | manager/views/tasks.py:36 | the result is sorted by end date and is a permutation of the input |
| TasksView.List | manager/views/tasks.py:29-57 | per precedence branch (full range; exclude with board; board; exclude alone; nothing), a task is listed iff it passes that branch's filter; the default is all tasks by end date |
| TasksView.RangeOverridesExclude | manager/views/tasks.py:41-42 | with both range bounds, `exclude` is ignored |
| TasksView.HalfRangeIgnored | manager/views/tasks.py:36-41 | a single range bound is ignored: all tasks by end date |
| TasksView.ExcludeDoneIsOutstanding | manager/views/tasks.py:44-47 | excluding DONE on a board lists exactly the board's outstanding tasks |
| TasksView.Trim | manager/models/task.py:20-25 | the string fields' `strip()`: the input is leading white space (`str.isspace`), the result, then trailing white space, and the result neither starts nor ends with white space |
| TasksView.TrimUnique | manager/models/task.py:20-25 | any split into white space, a core without white space at its ends, and white space trims to exactly that core |
| TasksView.TrimBlank | manager/models/task.py:20-25 | a value is blank once trimmed exactly when it is all white space |
| TasksView.TrimIdempotent | manager/models/task.py:20-25 | trimming a stored value again changes nothing |
| TasksView.PaddingIgnored | manager/models/task.py:20-21 | white space around a value is not stored and does not count towards the column's `max_length` |
| TasksView.Patch | manager/views/tasks.py:130 | each given field replaces the stored one, strings trimmed and null details kept null; the key is kept |
| TasksView.DataValid | manager/models/task.py:20-28 | after trimming, a present title or status must be non-blank, fit its column and hold no NUL; present details may be null or blank; a present board must exist; creating needs a title and a board |
| TasksView.CreateNeedsTitleAndBoard | manager/models/task.py:20-28 | a create body is valid exactly when it is a valid update body carrying a title and a board |
| TasksView.Create | manager/views/tasks.py:87-99 | 400 iff the body is invalid; 500 iff it is valid and today's row of its board is duplicated; neither changes the store; 201 saves the new task, with its strings trimmed and defaults for missing columns, through the model hook |
| TasksView.Retrieve | manager/views/tasks.py:101-114 | 404 iff no task has the key; otherwise 200 with that task; the store is unchanged |
| TasksView.Update | manager/views/tasks.py:116-134 | 404 iff the key is unknown; 400 iff the body is invalid; 500 iff the key is known, the body valid and today's row of the patched task's board duplicated; none of these changes anything; 200 saves the patched task through the hook |
| TasksView.BlankTitleRejected | manager/models/task.py:20 | a title of white space alone answers 400 on create and update and changes nothing |
| TasksView.PaddedDoneIsDone | manager/models/task.py:81-82 | a status of `"DONE"` with white space around it is stored as `"DONE"`, so the save hook treats the task as done |
| TasksView.Destroy | manager/views/tasks.py:136-151 | 404 iff the key is unknown; 500 iff the key is known and today's row of the task's board is duplicated; neither changes anything; 204 runs the delete hook and removes one task |
| TasksView.OrderedLedgerSucceeds | manager/models/task.py:77-79 | with each board's ledger rows in date order, a valid create answers 201, a valid update of a known key 200, and a destroy of a known key 204 |
| TasksView.CreateThenRetrieve | manager/views/tasks.py:94-114 | a created task reads back under its new key as created |
| TasksView.UpdateThenRetrieve | manager/views/tasks.py:130-133 | an updated task reads back as patched |
| TasksView.DestroyThenRetrieve | manager/views/tasks.py:144-151 | after a destroy the key answers 404 and every other key reads as before |
| TasksView.MissingBoardRejected | manager/views/tasks.py:95-99 | a body without an existing board answers 400 and changes nothing |
| Profile.AddParent | manager/views/profile.py:59-83 | non-POST changes nothing; success iff the e-mail's user exists, is a parent and is not yet linked, and then exactly that user is added; every other outcome changes nothing |
| Profile.RemoveParent | manager/views/profile.py:86-104 | non-POST changes nothing; an unknown e-mail is an error with no change; a unique user for the e-mail and a unique student profile always succeed, removing that user from the parents; the request fails iff the e-mail field is missing, several users share it, or the profile is not unique |
| Profile.RemoveParentIdempotent | manager/views/profile.py:95-103 | removing the same parent twice equals removing it once |
| Profile.AddThenRemoveParent | manager/views/profile.py:59-104 | adding a parent and removing the same e-mail restores the student's parents |
| Profile.RemoveChild | manager/views/profile.py:107-124 | an unknown e-mail is an error with no change; exactly one matching student profile always succeeds; on success the parent leaves the parent set of the student profile with that e-mail and of no other |
| Profile.UpdateALevel | manager/views/profile.py:127-144 | "Yes" grants the A-level permission, "No" revokes it, any other choice changes nothing |
| Profile.GrantTouchesOnlyThatPermission | manager/views/profile.py:136-143 | no other permission of the user changes |
| Profile.UpdateDisplayedName | manager/views/profile.py:40-56 | a POST with a name and a unique profile always succeeds; it writes the name into the parent profile of a parent, or the student profile otherwise, and changes nothing else |
| ScoreHistory.List | calculator/views/score_history.py:15-47 | a falsy criteria set with a major filters by major (and year); a criteria set filters by it (and year); otherwise all rows; blank numbers fail |
| ScoreHistory.CriteriaSetIgnoresMajor | calculator/views/score_history.py:35-45 | with a criteria set given, `major` makes no difference |
| ScoreHistory.YearAloneListsAll | calculator/views/score_history.py:47 | a year alone lists every row |
| ScoreHistory.UnknownIdIsEmpty | calculator/views/score_history.py:25-45 | ids or years no row carries give an empty list |
| ScoreHistory.YearNarrows | calculator/views/score_history.py:25-45 | adding a year lists a subset, all of that year |
| ImportData.Dedup | calculator/import_data.py:36-38 | no duplicates, and the same elements as the input |
| ImportData.DedupKeepsFirstOrder | calculator/import_data.py:36-38 | kept elements appear in the order of their first occurrences |
| ImportData.DedupDistinct | calculator/import_data.py:36-38 | a duplicate-free list is its own deduplication |
| ImportData.DedupIdempotent | calculator/import_data.py:36-38 | deduplicating twice equals deduplicating once |
| ImportData.GetOrCreateUniversity | calculator/import_data.py:41 | fails iff several universities share the name; otherwise one match afterwards, reused or appended |
| ImportData.GetOrCreateFaculty | calculator/import_data.py:42-44 | as above, keyed by (name, university) |
| ImportData.GetOrCreateMajor | calculator/import_data.py:45-47 | as above, keyed by (name, code, faculty); also fails when a new major's code is taken |
| ImportData.ImportRow | calculator/import_data.py:40-47 | the row completes iff it is held afterwards; a failing step stops with what the earlier steps wrote; each table grows by at most one |
| ImportData.CoveredImportIsNoop | calculator/import_data.py:40-47 | importing a held row changes nothing |
| ImportData.NewUniversityIsKept | calculator/import_data.py:41-47 | a new university stays created even when the row's faculty or major then fails |
| ImportData.TakenCodeStops | calculator/import_data.py:45-47 | a new major whose code is taken stops the row |
| ImportData.ImportKeepsCovered | calculator/import_data.py:40-47 | importing a row, completed or stopped, keeps every held row held |
| ImportData.ImportAll | calculator/import_data.py:40-47 | the loop stops at the first failing row, and no table shrinks along it |
| ImportData.Run | calculator/import_data.py:13-50 | a completed run holds every demo row of the file; a stopped run holds every row before the first one it could not store; no table shrinks |
| ImportData.ImportAllCovers | calculator/import_data.py:40-50 | after a completed loop every imported row is held |
| ImportData.ImportAllStopsAtFirstFailure | calculator/import_data.py:40-47 | a stopped loop stopped at a row it does not hold, and every earlier row stays held: nothing is rolled back |
| ImportData.ImportAllHeldIsNoop | calculator/import_data.py:40-50 | a loop over held rows changes nothing |
| ImportData.RunIdempotent | calculator/import_data.py:13-50 | a second run after a completed one creates nothing |
| ImportData.NonDemoRowsIgnored | calculator/import_data.py:22-34 | a row outside the demo universities or faculties does not change the result |

## Left out

- The wall clock and time zones: `timezone.localdate()`, `timezone.now()`, `new Date()` and `today_midnight` become parameters (`today`, `now`). `formatLocalISO` and the UTC/local conversions are not modelled.
- The time of day in `fillDates`' preview start. The model filters by whole days from today − 15. In the browser, a bar at midnight of day today − 15 compares with a start that still carries the current time of day, so that day is usually dropped as well.
- Floating point. Scores, weights and slopes are Dafny `real`. IEEE rounding, `Number()` beyond plain decimal digits, and `toFixed` are not modelled.
- Utils.EstimatedTime: only "" and strings of decimal digits are given a value; every other string (signs, decimals, exponents, spaces) is marked as outside the model rather than given `Number`'s reading.
- The 32-bit range of `IntegerField` columns. Estimates and `time_remaining` are unbounded integers.
- The NULL `end_date` default in `Task.save`. A task's end date is always present in the model.
- Parsing of query strings: range bounds arrive as instants, ids as numbers. Non-numeric values (other than blank) and ISO-date parse errors are not modelled.
- The velocity endpoint and its time bucketing, whose implementation is not part of this model.
- Concurrency and transactions. Each hook is one sequential step. The import has no surrounding transaction, and the model keeps what a failing row's earlier steps wrote, as the database would.
- A clock that runs backwards. Every ledger lemma assumes that no row is dated after `today` (`NotAfter`), and consistency includes `Chronological`: each board's rows are inserted in date order. `localdate()` follows the configured `TIME_ZONE`, so a changed time zone or a clock set back can insert a row dated before an existing one. The model promises nothing about the hooks in that case.
- DOM, Chart.js, `fetch`, message texts, template rendering and URL reversing. Outcomes are enums.
- CSV reading in the import. The file is a sequence of already-renamed rows.
- The `save()` calls after get-or-create in the import. They write back unchanged objects, so they are left out as no-ops.
- Superuser `has_perm`. A permission is held iff it is in the user's permission set.
- The 50-character limit of `displayed_name`. It is not enforced here, as the view does not enforce it either (the database would reject a longer name).
- The serializer library (`rest_framework`) is not part of this model. Its `CharField` behaviour is modelled as the library documents it: the value is trimmed first, a blank value is refused unless the column allows blanks, `max_length` applies to the trimmed value, and a NUL character is refused. Request values of other JSON types (numbers turned into strings, booleans refused) are not modelled: `TaskData` carries strings.
- TasksView.List: the filtered branches return tasks in table order; the database's unspecified order without `order_by` is not modelled.
- `Task.save` when a task moves to another board. Only the counterexample `BoardMoveBreaks` is proved; `SaveConsistency` assumes the task stays on its board.

=== FILE: basics.dfy ===
/**
 * Small building blocks shared by every module of the model: an optional
 * value, a query-string parameter, and the three-way outcome of a
 * database `get()` that may find no row, exactly one row, or several.
 */
module Basics {

  /** The conventional optional value. */
  datatype Option<T> = None | Some(value: T) {
    function GetOr(default: T): T {
      match this
      case Some(v) => v
      case None => default
    }
  }

  /**
   * A query-string parameter as a view reads it with `query_params.get`:
   * missing (`None`), present but empty (`""`, which is falsy), or a value.
   */
  datatype Param<T> = Absent | Blank | Given(value: T) {
    /** Python truthiness of the raw string. */
    predicate Truthy() {
      Given?
    }
  }

  /** The HTTP status codes the views answer with. */
  const HTTP_200_OK: int := 200
  const HTTP_201_CREATED: int := 201
  const HTTP_204_NO_CONTENT: int := 204
  const HTTP_400_BAD_REQUEST: int := 400
  const HTTP_404_NOT_FOUND: int := 404
  /** What an uncaught exception in a view turns into. */
  const HTTP_500_SERVER_ERROR: int := 500

  /** What a `Model.objects.get(...)` finds: nothing, one row, or several. */
  datatype Match = NoMatch | One(index: nat) | Many

  /** The first index at or after `lo` whose element satisfies `p`. */
  function FirstFrom<T>(s: seq<T>, p: T -> bool, lo: nat): (r: Option<nat>)
    requires lo <= |s|
    ensures r.Some? ==> lo <= r.value < |s| && p(s[r.value])
    ensures r.Some? ==> forall k :: lo <= k < r.value ==> !p(s[k])
    ensures r.None? ==> forall k :: lo <= k < |s| ==> !p(s[k])
    decreases |s| - lo
  {
    if lo == |s| then None
    else if p(s[lo]) then Some(lo)
    else FirstFrom(s, p, lo + 1)
  }

  /**
   * The outcome of a single-row query over `s` with filter `p`: `NoMatch`
   * is Django's `DoesNotExist`, `Many` its `MultipleObjectsReturned`.
   */
  function Lookup<T>(s: seq<T>, p: T -> bool): (r: Match)
    ensures r.NoMatch? <==> forall k :: 0 <= k < |s| ==> !p(s[k])
    ensures r.One? ==> r.index < |s| && p(s[r.index])
    ensures r.One? ==> forall k :: 0 <= k < |s| && k != r.index ==> !p(s[k])
    ensures r.Many? ==> exists i, j :: 0 <= i < j < |s| && p(s[i]) && p(s[j])
  {
    match FirstFrom(s, p, 0)
    case None => NoMatch
    case Some(i) =>
      match FirstFrom(s, p, i + 1)
      case None => One(i)
      case Some(j) => Many
  }

  /** `Lookup` finds the one matching row whenever exactly one matches. */
  lemma LookupUnique<T>(s: seq<T>, p: T -> bool, i: nat)
    requires i < |s| && p(s[i])
    requires forall k :: 0 <= k < |s| && k != i ==> !p(s[k])
    ensures Lookup(s, p) == One(i)
  {
  }

  /** Keeps the elements satisfying `p`, in order (a Django `filter`). */
  function Filter<T>(s: seq<T>, p: T -> bool): (r: seq<T>)
    ensures |r| <= |s|
    ensures forall k :: 0 <= k < |r| ==> r[k] in s && p(r[k])
    ensures forall k :: 0 <= k < |s| && p(s[k]) ==> s[k] in r
  {
    if |s| == 0 then []
    else if p(s[0]) then [s[0]] + Filter(s[1..], p)
    else Filter(s[1..], p)
  }

  /** Nothing survives a filter no element satisfies. */
  lemma {:induction false} FilterNone<T>(s: seq<T>, p: T -> bool)
    requires forall k :: 0 <= k < |s| ==> !p(s[k])
    ensures Filter(s, p) == []
  {
    if |s| > 0 {
      FilterNone(s[1..], p);
    }
  }

  /** A non-empty sequence is its prefix followed by its last element. */
  lemma SplitLast<T>(s: seq<T>)
    requires |s| > 0
    ensures s == s[..|s| - 1] + [s[|s| - 1]]
  {
  }

  /** Filtering a sequence with one more element at the end keeps it exactly when it passes. */
  lemma {:induction false} FilterAppend<T>(s: seq<T>, p: T -> bool, x: T)
    ensures p(x) ==> Filter(s + [x], p) == Filter(s, p) + [x]
    ensures !p(x) ==> Filter(s + [x], p) == Filter(s, p)
  {
    var t := s + [x];
    if |s| == 0 {
      assert t == [x] && t[1..] == [];
    } else {
      FilterAppend(s[1..], p, x);
      assert t[0] == s[0] && t[1..] == s[1..] + [x];
    }
  }

  /** Number of elements satisfying `p` (a Django `count()` after `filter`). */
  function Count<T>(s: seq<T>, p: T -> bool): (n: nat)
    ensures n <= |s|
  {
    if |s| == 0 then 0
    else (if p(s[0]) then 1 else 0) + Count(s[1..], p)
  }

  /** Nothing is counted exactly when no element satisfies the filter. */
  lemma {:induction false} CountZero<T>(s: seq<T>, p: T -> bool)
    ensures Count(s, p) == 0 <==> forall k :: 0 <= k < |s| ==> !p(s[k])
  {
    if |s| > 0 {
      CountZero(s[1..], p);
      assert forall k :: 1 <= k < |s| ==> s[k] == s[1..][k - 1];
    }
  }

  /** Counting agrees with the length of the filtered sequence. */
  lemma {:induction false} CountIsFilterLength<T>(s: seq<T>, p: T -> bool)
    ensures Count(s, p) == |Filter(s, p)|
  {
    if |s| > 0 {
      CountIsFilterLength(s[1..], p);
    }
  }
}

=== FILE: burndown.dfy ===
/**
 * The client-side helpers of the burndown chart page: a day range, a
 * resampler that fills missing days with the last known value and keeps a
 * preview window ending today, the guarded slope of a trend line, the peak
 * sample the velocity line starts from, and the nearest-deadline trend line.
 * Dates are day numbers; the current day is a parameter.
 */
module Burndown {
  import opened Basics

  type Day = int

  /** One estimate-history entry as the chart receives it. */
  datatype Sample = Sample(date: Day, remaining: int)

  /** One bar of the chart: a day and the work remaining on it. */
  datatype Point = Point(x: Day, y: int)

  /** Number of days of history the chart previews before today. */
  const PREVIEW_COUNT: int := 14

  /** The first day that may appear in the filled series. */
  function PreviewStart(today: Day): Day {
    today - PREVIEW_COUNT - 1
  }

  function Max(a: int, b: int): int {
    if a < b then b else a
  }

  // ---------------------------------------------------------------------
  // calculateSlope

  /**
   * `calculateSlope`: the slope between (d1, t1) and (d2, t2), with the
   * difference of the two days as the divisor; when the days coincide the
   * result is `-t1` instead of a division by zero.
   */
  function Slope(d1: Day, d2: Day, t1: real, t2: real): (r: real)
    ensures d1 == d2 ==> r == -t1
    ensures d1 != d2 ==> r * ((d2 - d1) as real) == t2 - t1
  {
    var daysBetween := d2 - d1;
    if daysBetween == 0 then -t1 else (t2 - t1) / (daysBetween as real)
  }

  /**
   * A line towards zero work that starts with work left and ends on a later
   * day falls: its slope is negative, and it takes exactly the remaining
   * work away over the days in between.
   */
  lemma SlopeTowardsZero(d1: Day, d2: Day, t1: real)
    requires d1 < d2 && t1 > 0.0
    ensures Slope(d1, d2, t1, 0.0) < 0.0
    ensures Slope(d1, d2, t1, 0.0) * ((d2 - d1) as real) == -t1
  {
  }

  // ---------------------------------------------------------------------
  // generateDateRange

  /** `generateDateRange`: every day from `s` to `e` inclusive, ascending. */
  function DateRange(s: Day, e: Day): (r: seq<Day>)
    ensures |r| == if s <= e then e - s + 1 else 0
    ensures forall i :: 0 <= i < |r| ==> r[i] == s + i
    decreases e - s
  {
    if s > e then [] else [s] + DateRange(s + 1, e)
  }

  /** A day is in the range exactly when it lies between the two ends. */
  lemma DateRangeMembers(s: Day, e: Day, d: Day)
    ensures d in DateRange(s, e) <==> s <= d <= e
  {
    if s <= d <= e {
      assert DateRange(s, e)[d - s] == d;
    }
  }

  // ---------------------------------------------------------------------
  // fillDates

  /** The days `from` .. `until - 1`, each carrying `y`. */
  function Gap(from: Day, until: Day, y: int): (r: seq<Point>)
    ensures |r| == if from < until then until - from else 0
    ensures forall i :: 0 <= i < |r| ==> r[i] == Point(from + i, y)
    decreases until - from
  {
    if from >= until then [] else [Point(from, y)] + Gap(from + 1, until, y)
  }

  /**
   * The loop of `fillDates` over the samples. Before each sample after the
   * first, the days after the last pushed one and before the sample's day are
   * filled with the previous sample's value (the last known value); then the
   * sample itself is pushed.
   */
  function Resample(data: seq<Sample>): (r: seq<Point>)
    ensures |r| == 0 <==> |data| == 0
    ensures |data| > 0 ==> r[|r| - 1] == Point(data[|data| - 1].date, data[|data| - 1].remaining)
    decreases |data|
  {
    if |data| == 0 then []
    else
      var prev := Resample(data[..|data| - 1]);
      var cur := data[|data| - 1];
      if |prev| == 0 then [Point(cur.date, cur.remaining)]
      else prev + Gap(prev[|prev| - 1].x + 1, cur.date, data[|data| - 2].remaining) + [Point(cur.date, cur.remaining)]
  }

  /** The resampled series extended with the last known value through `today`. */
  function Extended(data: seq<Sample>, today: Day): (r: seq<Point>)
    ensures |data| == 0 ==> r == []
    ensures |data| > 0 ==>
              var f := Resample(data);
              var last := data[|data| - 1];
              && |r| == |f| + (if last.date < today then today - last.date else 0)
              && r[..|f|] == f
              && forall k :: |f| <= k < |r| ==> r[k] == Point(last.date + 1 + (k - |f|), last.remaining)
  {
    var filled := Resample(data);
    if |data| == 0 then filled
    else filled + Gap(filled[|filled| - 1].x + 1, today + 1, data[|data| - 1].remaining)
  }

  /** The filter keeping the bars dated `start` or later. */
  function OnOrAfter(start: Day): Point -> bool {
    (p: Point) => p.x >= start
  }

  /**
   * `fillDates`: the resampled, extended series, keeping only the days from
   * the preview start on.
   */
  function FillDates(data: seq<Sample>, today: Day): (r: seq<Point>)
    ensures forall i :: 0 <= i < |r| ==> r[i].x >= PreviewStart(today)
    ensures |data| == 0 ==> r == []
  {
    Filter(Extended(data, today), OnOrAfter(PreviewStart(today)))
  }

  /** The series the chart receives is ordered by date, one entry per day. */
  ghost predicate Ascending(data: seq<Sample>) {
    forall i, j :: 0 <= i < j < |data| ==> data[i].date < data[j].date
  }

  /** The value of the last sample dated on or before `d`. */
  function Latest(data: seq<Sample>, d: Day): (r: Option<int>)
    ensures r.None? <==> forall k :: 0 <= k < |data| ==> data[k].date > d
    decreases |data|
  {
    if |data| == 0 then None
    else if data[|data| - 1].date <= d then Some(data[|data| - 1].remaining)
    else Latest(data[..|data| - 1], d)
  }

  /** On ascending data the last sample on or before `d` is the latest-dated one. */
  lemma {:induction false} LatestIsLatestDated(data: seq<Sample>, d: Day, k: nat)
    requires Ascending(data)
    requires k < |data| && data[k].date <= d
    requires k + 1 == |data| || data[k + 1].date > d
    ensures Latest(data, d) == Some(data[k].remaining)
    decreases |data|
  {
    if k + 1 < |data| {
      LatestIsLatestDated(data[..|data| - 1], d, k);
    }
  }

  /**
   * `r` lists consecutive days starting at `from`, each with the value of
   * the latest sample on or before it.
   */
  ghost predicate Carries(r: seq<Point>, from: Day, data: seq<Sample>) {
    forall i :: 0 <= i < |r| ==> r[i].x == from + i && Latest(data, from + i) == Some(r[i].y)
  }

  /** A newest sample dated after `d` does not change the latest value on or before `d`. */
  lemma LatestSkipsLater(data: seq<Sample>, d: Day)
    requires |data| > 0 && data[|data| - 1].date > d
    ensures Latest(data, d) == Latest(data[..|data| - 1], d)
  {
  }

  /**
   * Appending a later sample to a carried series: the days strictly between
   * the two samples carry the earlier one's value, and the new day its own.
   */
  lemma CarriesStep(prev: seq<Point>, from: Day, data: seq<Sample>)
    requires |data| > 1
    requires data[|data| - 2].date < data[|data| - 1].date
    requires |prev| == data[|data| - 2].date - from + 1
    requires Carries(prev, from, data[..|data| - 1])
    ensures var last := data[|data| - 2];
            var cur := data[|data| - 1];
            Carries(prev + Gap(last.date + 1, cur.date, last.remaining) + [Point(cur.date, cur.remaining)], from, data)
  {
    var pre := data[..|data| - 1];
    var last := data[|data| - 2];
    var cur := data[|data| - 1];
    var gap := Gap(last.date + 1, cur.date, last.remaining);
    var r := prev + gap + [Point(cur.date, cur.remaining)];
    forall i | 0 <= i < |r|
      ensures r[i].x == from + i && Latest(data, from + i) == Some(r[i].y)
    {
      var d := from + i;
      if i < |prev| {
        assert r[i] == prev[i];
        LatestSkipsLater(data, d);
      } else if i < |prev| + |gap| {
        assert r[i] == gap[i - |prev|];
        LatestSkipsLater(data, d);
        assert pre[|pre| - 1] == last;
      } else {
        assert r[i] == Point(cur.date, cur.remaining);
      }
    }
  }

  /**
   * On ascending samples the resampler yields every day from the first
   * sample's to the last one's, each carrying the latest sample on or before it.
   */
  lemma {:induction false} ResampleCarries(data: seq<Sample>)
    requires Ascending(data) && |data| > 0
    ensures |Resample(data)| == data[|data| - 1].date - data[0].date + 1
    ensures Carries(Resample(data), data[0].date, data)
    decreases |data|
  {
    if |data| > 1 {
      var pre := data[..|data| - 1];
      AscendingPrefix(data);
      ResampleCarries(pre);
      CarriesStep(Resample(pre), data[0].date, data);
      ResampleUnfold(data);
    }
  }

  /** Dropping the newest sample keeps the samples ascending, all before it. */
  lemma AscendingPrefix(data: seq<Sample>)
    requires Ascending(data) && |data| > 1
    ensures var pre := data[..|data| - 1];
            Ascending(pre) && pre[0] == data[0] && pre[|pre| - 1].date < data[|data| - 1].date
  {
  }

  /** One step of the resampler: the gap and the newest sample after the earlier ones' series. */
  lemma ResampleUnfold(data: seq<Sample>)
    requires |data| > 1
    ensures var pre := data[..|data| - 1];
            var last := pre[|pre| - 1];
            var cur := data[|data| - 1];
            Resample(data) == Resample(pre) + Gap(last.date + 1, cur.date, last.remaining) + [Point(cur.date, cur.remaining)]
  {
  }

  /**
   * Extending through `today` continues the carried series up to the later of
   * today and the last sample's day, with the last sample's value.
   */
  lemma ExtendedCarries(data: seq<Sample>, today: Day)
    requires Ascending(data) && |data| > 0
    ensures |Extended(data, today)| == Max(today, data[|data| - 1].date) - data[0].date + 1
    ensures Carries(Extended(data, today), data[0].date, data)
  {
    ResampleCarries(data);
    ExtendedUnfold(data, today);
    CarriesGap(Resample(data), data[0].date, data, today);
  }

  /** The extension appends the gap after the resampled series. */
  lemma ExtendedUnfold(data: seq<Sample>, today: Day)
    requires |data| > 0
    ensures var last := data[|data| - 1];
            Extended(data, today) == Resample(data) + Gap(last.date + 1, today + 1, last.remaining)
  {
  }

  /** A carried series reaching the last sample's day carries on through the gap to `today`. */
  lemma CarriesGap(filled: seq<Point>, from: Day, data: seq<Sample>, today: Day)
    requires |data| > 0 && |filled| == data[|data| - 1].date - from + 1
    requires Carries(filled, from, data)
    ensures var last := data[|data| - 1];
            var e := filled + Gap(last.date + 1, today + 1, last.remaining);
            |e| == Max(today, last.date) - from + 1 && Carries(e, from, data)
  {
    var last := data[|data| - 1];
    var gap := Gap(last.date + 1, today + 1, last.remaining);
    var e := filled + gap;
    forall i | 0 <= i < |e|
      ensures e[i].x == from + i && Latest(data, from + i) == Some(e[i].y)
    {
      if i < |filled| {
        assert e[i] == filled[i];
      } else {
        assert e[i] == gap[i - |filled|];
      }
    }
  }

  /** Keeping the days from `start` on of a run of consecutive days drops a prefix. */
  lemma {:induction false} FilterConsecutive(r: seq<Point>, from: Day, start: Day)
    requires forall i :: 0 <= i < |r| ==> r[i].x == from + i
    ensures var k := if start <= from then 0 else if start - from <= |r| then start - from else |r|;
            Filter(r, OnOrAfter(start)) == r[k..]
    decreases |r|
  {
    if |r| > 0 {
      FilterConsecutive(r[1..], from + 1, start);
      if start <= from {
        assert r == [r[0]] + r[1..];
      }
    }
  }

  /** A suffix of a carried series is carried from its own first day. */
  lemma CarriesSuffix(e: seq<Point>, from: Day, data: seq<Sample>, k: nat)
    requires Carries(e, from, data) && k <= |e|
    ensures Carries(e[k..], from + k, data)
  {
    var r := e[k..];
    forall i | 0 <= i < |r|
      ensures r[i].x == from + k + i && Latest(data, from + k + i) == Some(r[i].y)
    {
      assert r[i] == e[k + i];
    }
  }

  /** The window of a carried series is the carried series from the later start. */
  lemma WindowCarries(e: seq<Point>, from: Day, data: seq<Sample>, start0: Day)
    requires Carries(e, from, data) && start0 < from + |e|
    ensures |Filter(e, OnOrAfter(start0))| == from + |e| - Max(from, start0)
    ensures Carries(Filter(e, OnOrAfter(start0)), Max(from, start0), data)
  {
    var start := Max(from, start0);
    var k := start - from;
    WindowIsSuffix(e, from, data, start0);
    CarriesSuffix(e, from, data, k);
    assert from + k == start;
  }

  /** The window of a carried series drops the days before the later start. */
  lemma WindowIsSuffix(e: seq<Point>, from: Day, data: seq<Sample>, start0: Day)
    requires Carries(e, from, data) && start0 < from + |e|
    ensures Filter(e, OnOrAfter(start0)) == e[Max(from, start0) - from..]
  {
    assert forall i :: 0 <= i < |e| ==> e[i].x == from + i;
    FilterConsecutive(e, from, start0);
  }

  /**
   * For samples ordered by date, `fillDates` lists every day from the later
   * of the first sample and the preview start through the later of today and
   * the last sample, with no gap or repetition, and each day carries the value
   * of the latest sample on or before it.
   */
  lemma FillDatesReference(data: seq<Sample>, today: Day)
    requires Ascending(data) && |data| > 0
    ensures |FillDates(data, today)| == Max(today, data[|data| - 1].date) - Max(data[0].date, PreviewStart(today)) + 1
    ensures Carries(FillDates(data, today), Max(data[0].date, PreviewStart(today)), data)
  {
    ExtendedCarries(data, today);
    WindowCarries(Extended(data, today), data[0].date, data, PreviewStart(today));
  }

  /**
   * For ordered samples the filled days are exactly the date range of the
   * window, the last filled day is today (or a later sample's day), and every
   * two neighbouring bars are one day apart.
   */
  lemma FillDatesContiguous(data: seq<Sample>, today: Day)
    requires Ascending(data) && |data| > 0
    ensures var r := FillDates(data, today);
            var range := DateRange(Max(data[0].date, PreviewStart(today)), Max(today, data[|data| - 1].date));
            && |r| == |range| && (forall i :: 0 <= i < |r| ==> r[i].x == range[i])
            && r[|r| - 1].x == Max(today, data[|data| - 1].date)
            && forall i :: 0 <= i < |r| - 1 ==> r[i + 1].x == r[i].x + 1
  {
    FillDatesReference(data, today);
  }

  // ---------------------------------------------------------------------
  // The peak sample

  /**
   * The `reduce` in `main` keeping the current maximum unless a later sample
   * is strictly greater: the index of the first sample with the largest
   * remaining work.
   */
  function Peak(data: seq<Sample>): (r: nat)
    requires |data| > 0
    ensures r < |data|
    ensures forall k :: 0 <= k < |data| ==> data[k].remaining <= data[r].remaining
    ensures forall k :: 0 <= k < r ==> data[k].remaining < data[r].remaining
    decreases |data|
  {
    if |data| == 1 then 0
    else
      var m := Peak(data[..|data| - 1]);
      if data[|data| - 1].remaining > data[m].remaining then |data| - 1 else m
  }

  /** The peak is the only index that is both a maximum and earlier than every other maximum. */
  lemma PeakUnique(data: seq<Sample>, j: nat)
    requires j < |data|
    requires forall k :: 0 <= k < |data| ==> data[k].remaining <= data[j].remaining
    requires forall k :: 0 <= k < j ==> data[k].remaining < data[j].remaining
    ensures Peak(data) == j
  {
  }

  // ---------------------------------------------------------------------
  // The nearest-deadline trend line

  /** A task or event line on the chart: its day and whether its checkbox is ticked. */
  datatype Annotation = Annotation(date: Day, display: bool)

  /** The earliest day among the displayed annotations (the first after sorting). */
  function Earliest(anns: seq<Annotation>): (r: Option<Day>)
    ensures r.None? <==> forall k :: 0 <= k < |anns| ==> !anns[k].display
    ensures r.Some? ==> exists k :: 0 <= k < |anns| && anns[k].display && anns[k].date == r.value
    ensures r.Some? ==> forall k :: 0 <= k < |anns| && anns[k].display ==> r.value <= anns[k].date
    decreases |anns|
  {
    if |anns| == 0 then None
    else
      var rest := Earliest(anns[..|anns| - 1]);
      var a := anns[|anns| - 1];
      if !a.display then rest
      else if rest.Some? && rest.value <= a.date then rest
      else Some(a.date)
  }

  /** The trend from today's bar to the nearest deadline, at zero work. */
  datatype Trend = Trend(x1: Day, x2: Option<Day>, y1: int, y2: int)

  /**
   * `getNearestTrendData`: starts at today's bar and ends at the earliest
   * displayed task or event, aiming at zero. `None` is the failure of reading
   * the value of a bar for today that the series does not contain.
   */
  function NearestTrend(display: seq<Point>, tasks: seq<Annotation>, events: seq<Annotation>, today: Day): (r: Option<Trend>)
    ensures r.None? <==> forall k :: 0 <= k < |display| ==> display[k].x != today
    ensures r.Some? ==> r.value.x1 == today && r.value.y2 == 0
    ensures r.Some? ==> exists k :: 0 <= k < |display| && display[k] == Point(today, r.value.y1)
    ensures r.Some? ==> r.value.x2 == Earliest(tasks + events)
  {
    match FirstFrom(display, (p: Point) => p.x == today, 0)
    case None => None
    case Some(k) => Some(Trend(today, Earliest(tasks + events), display[k].y, 0))
  }

  /** The dashed red line the chart shows for the nearest deadline. */
  datatype TrendLine = TrendLine(xMin: Day, xMax: Option<Day>, yMin: int, yMax: int, display: bool)

  /**
   * `updateTrendLine`: the line is shown, ending at `x2` and `y2`, when there
   * is a deadline, work remains today and the deadline is no later than the
   * velocity estimate's end day; otherwise it is hidden and left as it was.
   */
  function UpdateTrendLine(line: TrendLine, x2: Option<Day>, y1: int, y2: int, velocityEnd: Day): (r: TrendLine)
    ensures r.display <==> x2.Some? && y1 > 0 && x2.value <= velocityEnd
    ensures r.display ==> r == line.(xMax := x2, yMax := y2, display := true)
    ensures !r.display ==> r == line.(display := false)
  {
    if x2.Some? && y1 > 0 && x2.value <= velocityEnd then
      line.(xMax := x2, yMax := y2, display := true)
    else
      line.(display := false)
  }

  /**
   * The nearest-deadline line is shown exactly when work remains today and
   * some displayed task or event falls no later than the velocity end day,
   * and then it aims at zero work.
   */
  lemma TrendShownIff(display: seq<Point>, tasks: seq<Annotation>, events: seq<Annotation>, today: Day,
                      line: TrendLine, velocityEnd: Day)
    requires NearestTrend(display, tasks, events, today).Some?
    ensures var t := NearestTrend(display, tasks, events, today).value;
            var anns := tasks + events;
            var shown := UpdateTrendLine(line, t.x2, t.y1, t.y2, velocityEnd);
            && (shown.display <==>
                  t.y1 > 0 && exists k :: 0 <= k < |anns| && anns[k].display && anns[k].date <= velocityEnd)
            && (shown.display ==> shown.yMax == 0)
  {
    var t := NearestTrend(display, tasks, events, today).value;
    var anns := tasks + events;
    if t.y1 > 0 && exists k :: 0 <= k < |anns| && anns[k].display && anns[k].date <= velocityEnd {
      var k :| 0 <= k < |anns| && anns[k].display && anns[k].date <= velocityEnd;
      assert t.x2.Some? && t.x2.value <= anns[k].date;
    }
  }

  /**
   * The velocity the warning reports: the slope of the shown trend line, or
   * 0 ("N/A") when it is hidden. A shown line always has a deadline (see
   * `UpdateTrendLine`); a line without one reports 0 as a hidden one does.
   */
  function RequiredVelocity(line: TrendLine, t: Trend): (r: real)
    ensures !line.display || t.x2.None? ==> r == 0.0
    ensures line.display && t.x2 == Some(t.x1) ==> r == -(t.y1 as real)
    ensures line.display && t.x2.Some? && t.x2.value != t.x1 ==>
              r * ((t.x2.value - t.x1) as real) == (t.y2 - t.y1) as real
  {
    if line.display && t.x2.Some? then Slope(t.x1, t.x2.value, t.y1 as real, t.y2 as real) else 0.0
  }

  /**
   * Whenever the trend line is shown for a deadline after today, the required
   * velocity is negative and burns today's work down to zero by the deadline.
   */
  lemma RequiredVelocityBurnsDown(display: seq<Point>, tasks: seq<Annotation>, events: seq<Annotation>, today: Day,
                                  line: TrendLine, velocityEnd: Day)
    requires NearestTrend(display, tasks, events, today).Some?
    requires var t := NearestTrend(display, tasks, events, today).value;
             t.x2.Some? && t.x2.value > today
    ensures var t := NearestTrend(display, tasks, events, today).value;
            var shown := UpdateTrendLine(line, t.x2, t.y1, t.y2, velocityEnd);
            var v := RequiredVelocity(shown, t);
            shown.display ==> v < 0.0 && v * ((t.x2.value - today) as real) == -(t.y1 as real)
  {
    var t := NearestTrend(display, tasks, events, today).value;
    var shown := UpdateTrendLine(line, t.x2, t.y1, t.y2, velocityEnd);
    if shown.display {
      SlopeTowardsZero(today, t.x2.value, t.y1 as real);
    }
  }
}

=== FILE: dashboard.dfy ===
/**
 * The parent dashboard: for each student linked to the signed-in parent,
 * three task counters (due "today", late, finished), shown only to
 * signed-in users holding the parent permission.
 */
module Dashboard {
  import opened Basics
  import opened EstimateHistory
  import opened TaskModel
  import opened Profile

  /** Who asks for the page. */
  datatype Viewer = Anonymous | SignedIn(user: User)

  /** The three per-child counter lists, aligned with the child list. */
  datatype Counters = Counters(today: seq<nat>, late: seq<nat>, fin: seq<nat>)

  datatype Page =
    | RedirectLogin
    | RedirectIndex
    | Render(children: seq<StudentInfo>, counters: Option<Counters>)

  /** Which user owns each task board. */
  type Owners = map<BoardId, UserId>

  /** The student profiles whose parent set holds `parent` (`user.student_set`). */
  function ChildOf(parent: UserId): StudentInfo -> bool {
    (s: StudentInfo) => parent in s.parents
  }

  function Children(acc: Accounts, parent: UserId): (r: seq<StudentInfo>)
    ensures forall k :: 0 <= k < |r| ==> r[k] in acc.students && parent in r[k].parents
    ensures forall k :: 0 <= k < |acc.students| && parent in acc.students[k].parents ==> acc.students[k] in r
  {
    Filter(acc.students, ChildOf(parent))
  }

  /** A task on one of the user's boards (`taskboard__user=`). */
  predicate Owned(owners: Owners, user: UserId, t: Task) {
    t.board in owners && owners[t.board] == user
  }

  /** `end_date__day=now.day`: only the day of the month is compared. */
  function TodayOf(owners: Owners, user: UserId, now: Stamp): Task -> bool {
    (t: Task) => Owned(owners, user, t) && t.end.day == now.day
  }

  /** Not DONE and `end_date__lte=now`. */
  function LateOf(owners: Owners, user: UserId, now: Stamp): Task -> bool {
    (t: Task) => Owned(owners, user, t) && !IsDone(t.status) && t.end.instant <= now.instant
  }

  /** `status="DONE"`. */
  function FinOf(owners: Owners, user: UserId): Task -> bool {
    (t: Task) => Owned(owners, user, t) && IsDone(t.status)
  }

  /** Every task of the user's boards. */
  function AllOf(owners: Owners, user: UserId): Task -> bool {
    (t: Task) => Owned(owners, user, t)
  }

  /**
   * `get_context_data`: the three counters for each child, in child order;
   * no counters at all when the parent has no children.
   */
  function Context(children: seq<StudentInfo>, tasks: seq<Task>, owners: Owners, now: Stamp): (r: Option<Counters>)
    ensures r.None? <==> |children| == 0
    ensures r.Some? ==> |r.value.today| == |r.value.late| == |r.value.fin| == |children|
    ensures r.Some? ==> forall i :: 0 <= i < |children| ==>
              r.value.late[i] + r.value.fin[i] <= Count(tasks, AllOf(owners, children[i].user))
    ensures r.Some? ==> forall i :: 0 <= i < |children| ==>
              && r.value.today[i] == Count(tasks, TodayOf(owners, children[i].user, now))
              && r.value.late[i] == Count(tasks, LateOf(owners, children[i].user, now))
              && r.value.fin[i] == Count(tasks, FinOf(owners, children[i].user))
  {
    if |children| == 0 then None
    else
      var n := |children|;
      var r := Counters(
        seq(n, i requires 0 <= i < n => Count(tasks, TodayOf(owners, children[i].user, now))),
        seq(n, i requires 0 <= i < n => Count(tasks, LateOf(owners, children[i].user, now))),
        seq(n, i requires 0 <= i < n => Count(tasks, FinOf(owners, children[i].user))));
      assert forall i :: 0 <= i < n ==> r.late[i] + r.fin[i] <= Count(tasks, AllOf(owners, children[i].user)) by {
        forall i | 0 <= i < n ensures r.late[i] + r.fin[i] <= Count(tasks, AllOf(owners, children[i].user)) {
          LateAndFinishedBounded(tasks, owners, children[i].user, now);
        }
      }
      Some(r)
  }

  /**
   * `get`: anonymous visitors go to the login page, signed-in users without
   * the parent permission go to the board index, parents get the page.
   */
  method Get(viewer: Viewer, acc: Accounts, tasks: seq<Task>, owners: Owners, now: Stamp) returns (r: Page)
    ensures viewer.Anonymous? <==> r.RedirectLogin?
    ensures r.RedirectIndex? <==> viewer.SignedIn? && IS_PARENT !in viewer.user.perms
    ensures r.Render? <==> viewer.SignedIn? && IS_PARENT in viewer.user.perms
    ensures r.Render? ==> r.children == Children(acc, viewer.user.id)
    ensures r.Render? ==> r.counters == Context(r.children, tasks, owners, now)
    ensures r.Render? ==> (r.counters.None? <==> forall k :: 0 <= k < |acc.students| ==> viewer.user.id !in acc.students[k].parents)
    ensures r.Render? && r.counters.Some? ==>
              |r.counters.value.today| == |r.counters.value.late| == |r.counters.value.fin| == |r.children|
    ensures r.Render? && r.counters.Some? ==> forall i :: 0 <= i < |r.children| ==>
              r.counters.value.late[i] + r.counters.value.fin[i] <= Count(tasks, AllOf(owners, r.children[i].user))
  {
    match viewer
    case Anonymous =>
      return RedirectLogin;
    case SignedIn(user) =>
      if IS_PARENT !in user.perms {
        return RedirectIndex;
      }
      var children := Children(acc, user.id);
      var counters := Context(children, tasks, owners, now);
      if counters.Some? {
        assert children[0] in acc.students && user.id in children[0].parents;
      }
      return Render(children, counters);
  }

  /** Two disjoint filters that both imply a third count no more than it does. */
  lemma {:induction false} CountDisjoint<T>(s: seq<T>, p: T -> bool, q: T -> bool, all: T -> bool)
    requires forall x :: p(x) ==> all(x)
    requires forall x :: q(x) ==> all(x)
    requires forall x :: !(p(x) && q(x))
    ensures Count(s, p) + Count(s, q) <= Count(s, all)
  {
    if |s| > 0 {
      CountDisjoint(s[1..], p, q, all);
    }
  }

  /** A child's late and finished tasks never outnumber the child's tasks. */
  lemma LateAndFinishedBounded(tasks: seq<Task>, owners: Owners, user: UserId, now: Stamp)
    ensures Count(tasks, LateOf(owners, user, now)) + Count(tasks, FinOf(owners, user)) <= Count(tasks, AllOf(owners, user))
  {
    CountDisjoint(tasks, LateOf(owners, user, now), FinOf(owners, user), AllOf(owners, user));
  }

  /** Filters that agree on every element of `s` count the same. */
  lemma {:induction false} CountAgrees<T>(s: seq<T>, p: T -> bool, q: T -> bool)
    requires forall k :: 0 <= k < |s| ==> (p(s[k]) <==> q(s[k]))
    ensures Count(s, p) == Count(s, q)
  {
    if |s| > 0 {
      CountAgrees(s[1..], p, q);
    }
  }

  /** When every task of the child is DONE, nothing is late and everything is finished. */
  lemma AllDoneNothingLate(tasks: seq<Task>, owners: Owners, user: UserId, now: Stamp)
    requires forall k :: 0 <= k < |tasks| && Owned(owners, user, tasks[k]) ==> IsDone(tasks[k].status)
    ensures Count(tasks, LateOf(owners, user, now)) == 0
    ensures Count(tasks, FinOf(owners, user)) == Count(tasks, AllOf(owners, user))
  {
    CountAgrees(tasks, FinOf(owners, user), AllOf(owners, user));
  }

  /**
   * The "today" counter compares only the day of the month: a task due on
   * the same day of a different month is counted as due today.
   */
  lemma TodayIgnoresMonth()
    ensures var now := Stamp(0, 2024, 3, 10);
            var t := Task(1, "essay", DEFAULT_STATUS, Stamp(1, 2024, 5, 10), None, 7, 0);
            Count([t], TodayOf(map[7 := 3], 3, now)) == 1 && t.end.month != now.month
  {
    var now := Stamp(0, 2024, 3, 10);
    var t := Task(1, "essay", DEFAULT_STATUS, Stamp(1, 2024, 5, 10), None, 7, 0);
    assert TodayOf(map[7 := 3], 3, now)(t);
    assert [t][1..] == [];
  }
}

=== FILE: estimate_history.dfy ===
/**
 * The estimate-history ledger: one row per (taskboard, calendar day) holding
 * the work that remained on that board on that day. Rows are kept in
 * insertion (primary-key) order, which is what the manager's `.last()`
 * consults when it carries a value forward into a new day.
 */
module EstimateHistory {
  import opened Basics

  type BoardId = int

  /** A calendar day, as a day number. */
  type Day = int

  datatype Row = Row(board: BoardId, date: Day, remaining: int)

  /** The default of the `time_remaining` column. */
  const DEFAULT_REMAINING: int := 0

  predicate Keyed(r: Row, board: BoardId, date: Day) {
    r.board == board && r.date == date
  }

  /** Two rows share the key (board, date): a `get` on that key raises `MultipleObjectsReturned`. */
  ghost predicate Duplicated(rows: seq<Row>, board: BoardId, date: Day) {
    exists i, j :: 0 <= i < j < |rows| && Keyed(rows[i], board, date) && Keyed(rows[j], board, date)
  }

  /** Rows in date order per board never share a key. */
  lemma ChronologicalNotDuplicated(rows: seq<Row>, board: BoardId, date: Day)
    requires Chronological(rows)
    ensures !Duplicated(rows, board, date)
  {
  }

  /** Index of the board's most recently inserted row, if it has any. */
  function LastOfBoard(rows: seq<Row>, board: BoardId): (r: Option<nat>)
    ensures r.Some? ==> r.value < |rows| && rows[r.value].board == board
    ensures r.Some? ==> forall j :: r.value < j < |rows| ==> rows[j].board != board
    ensures r.None? <==> forall j :: 0 <= j < |rows| ==> rows[j].board != board
  {
    if |rows| == 0 then None
    else if rows[|rows| - 1].board == board then Some(|rows| - 1)
    else LastOfBoard(rows[..|rows| - 1], board)
  }

  /**
   * The value the ledger currently records for a board: that of its last
   * inserted row, or the column default when the board has no row yet.
   */
  function Recorded(rows: seq<Row>, board: BoardId): int {
    match LastOfBoard(rows, board)
    case Some(i) => rows[i].remaining
    case None => DEFAULT_REMAINING
  }

  /**
   * `EstimateHistoryManager.create`: appends one row. When the board already
   * has rows, the caller's value is overwritten by that of the board's
   * last-inserted row; otherwise the caller's value, or the default, is kept.
   */
  function Create(rows: seq<Row>, board: BoardId, date: Day, supplied: Option<int>): (r: seq<Row>)
    ensures |r| == |rows| + 1 && r[..|rows|] == rows
    ensures Keyed(r[|rows|], board, date)
    ensures (exists j :: 0 <= j < |rows| && rows[j].board == board) ==>
              r[|rows|].remaining == rows[LastOfBoard(rows, board).value].remaining
    ensures (forall j :: 0 <= j < |rows| ==> rows[j].board != board) ==>
              r[|rows|].remaining == supplied.GetOr(DEFAULT_REMAINING)
  {
    var carried := match LastOfBoard(rows, board)
      case Some(i) => rows[i].remaining
      case None => supplied.GetOr(DEFAULT_REMAINING);
    rows + [Row(board, date, carried)]
  }

  /** The result of the overridden `get`: the rows afterwards and the row's index. */
  datatype Fetched = Fetched(rows: seq<Row>, index: nat) | MultipleObjects

  /**
   * `EstimateHistoryManager.get(date=..., taskboard=...)`: the existing row
   * when exactly one matches; a freshly created (carried-forward) row when
   * none does; Django's `MultipleObjectsReturned` when several do.
   */
  function Get(rows: seq<Row>, board: BoardId, date: Day): (r: Fetched)
    ensures r.Fetched? ==> r.index < |r.rows| && Keyed(r.rows[r.index], board, date)
    ensures r.MultipleObjects? <==>
              exists i, j :: 0 <= i < j < |rows| && Keyed(rows[i], board, date) && Keyed(rows[j], board, date)
    ensures (exists i :: 0 <= i < |rows| && Keyed(rows[i], board, date)) && r.Fetched? ==>
              r.rows == rows && r.index < |rows|
    ensures (forall i :: 0 <= i < |rows| ==> !Keyed(rows[i], board, date)) ==>
              r == Fetched(Create(rows, board, date, None), |rows|)
  {
    match Lookup(rows, (x: Row) => Keyed(x, board, date))
    case One(i) => Fetched(rows, i)
    case NoMatch => Fetched(Create(rows, board, date, None), |rows|)
    case Many => MultipleObjects
  }

  /** At most one row per (board, day). */
  ghost predicate UniqueDays(rows: seq<Row>) {
    forall i, j :: 0 <= i < j < |rows| && rows[i].board == rows[j].board ==> rows[i].date != rows[j].date
  }

  /** Each board's rows were inserted in strictly increasing date order. */
  ghost predicate Chronological(rows: seq<Row>) {
    forall i, j :: 0 <= i < j < |rows| && rows[i].board == rows[j].board ==> rows[i].date < rows[j].date
  }

  /** No row is dated after `today`: the clock never runs backwards. */
  ghost predicate NotAfter(rows: seq<Row>, today: Day) {
    forall i :: 0 <= i < |rows| ==> rows[i].date <= today
  }

  /** When a (board, date) row exists and rows are unique, `get` returns it and creates nothing. */
  lemma GetExisting(rows: seq<Row>, board: BoardId, date: Day, i: nat)
    requires UniqueDays(rows)
    requires i < |rows| && Keyed(rows[i], board, date)
    ensures Get(rows, board, date) == Fetched(rows, i)
  {
    LookupUnique(rows, (x: Row) => Keyed(x, board, date), i);
  }

  /**
   * When no (board, date) row exists, `get` appends exactly one row with
   * that key, and the ledger keeps at most one row per (board, day).
   */
  lemma GetMissingKeepsUnique(rows: seq<Row>, board: BoardId, date: Day)
    requires UniqueDays(rows)
    requires forall i :: 0 <= i < |rows| ==> !Keyed(rows[i], board, date)
    ensures Get(rows, board, date).Fetched?
    ensures |Get(rows, board, date).rows| == |rows| + 1
    ensures UniqueDays(Get(rows, board, date).rows)
  {
  }

  /** The rows that belong to one board, in insertion order. */
  function BoardRows(rows: seq<Row>, board: BoardId): (r: seq<Row>)
    ensures forall k :: 0 <= k < |r| ==> r[k].board == board
  {
    if |rows| == 0 then []
    else if rows[|rows| - 1].board == board then BoardRows(rows[..|rows| - 1], board) + [rows[|rows| - 1]]
    else BoardRows(rows[..|rows| - 1], board)
  }

  /** The value a new row starts with: the board's last row's, or the supplied one. */
  function Carried(rows: seq<Row>, board: BoardId, supplied: Option<int>): int {
    Create(rows, board, 0, supplied)[|rows|].remaining
  }

  /**
   * Carry-forward reads only the board's own rows: the new row copies the
   * last of them, and the supplied value survives only when there is none.
   */
  lemma {:induction false} CarryIsLastBoardRow(rows: seq<Row>, board: BoardId, supplied: Option<int>)
    ensures var own := BoardRows(rows, board);
            Carried(rows, board, supplied) ==
              if |own| > 0 then own[|own| - 1].remaining else supplied.GetOr(DEFAULT_REMAINING)
  {
    if |rows| > 0 && rows[|rows| - 1].board != board {
      CarryIsLastBoardRow(rows[..|rows| - 1], board, supplied);
    }
  }

  /** Rows of other taskboards never influence the carried-forward value. */
  lemma OtherBoardsIrrelevant(rows1: seq<Row>, rows2: seq<Row>, board: BoardId, supplied: Option<int>)
    requires BoardRows(rows1, board) == BoardRows(rows2, board)
    ensures Carried(rows1, board, supplied) == Carried(rows2, board, supplied)
  {
    CarryIsLastBoardRow(rows1, board, supplied);
    CarryIsLastBoardRow(rows2, board, supplied);
  }

  /**
   * `.last()` means last inserted, not latest dated: a row back-dated after a
   * later day was recorded is the one carried forward.
   */
  lemma CarryFollowsInsertionNotDate()
    ensures var rows := [Row(1, 5, 10), Row(1, 3, 20)];
            Create(rows, 1, 6, None)[2] == Row(1, 6, 20)
  {
  }

  /** A board's first row starts at the default 0 unless a value is supplied. */
  lemma FirstRowDefault(rows: seq<Row>, board: BoardId, date: Day)
    requires forall j :: 0 <= j < |rows| ==> rows[j].board != board
    ensures Create(rows, board, date, None)[|rows|].remaining == 0
  {
  }

  /** On a chronological ledger a new later day carries the recorded value forward. */
  lemma {:induction false} NewDayCarriesRecorded(rows: seq<Row>, board: BoardId, date: Day)
    requires forall j :: 0 <= j < |rows| ==> !Keyed(rows[j], board, date)
    ensures Get(rows, board, date).Fetched?
    ensures Get(rows, board, date).rows == rows + [Row(board, date, Recorded(rows, board))]
  {
  }
}

=== FILE: import_data.dfy ===
/**
 * The admission-data import: CSV rows (already read and renamed) are
 * narrowed to the demo universities and faculties, duplicates are dropped
 * keeping first occurrences, and each remaining row is stored with
 * get-or-create for its university, faculty and major.
 */
module ImportData {
  import opened Basics

  /** One CSV row after renaming its columns. */
  datatype CsvRow = CsvRow(university: string, faculty: string, major: string, code: string)

  datatype University = University(id: nat, name: string)
  datatype Faculty = Faculty(id: nat, university: nat, name: string)
  datatype Major = Major(id: nat, faculty: nat, name: string, code: string)

  datatype Catalogue = Catalogue(universities: seq<University>, faculties: seq<Faculty>, majors: seq<Major>)

  /** The universities kept by the import. */
  const DEMO_UNIVERSITIES: set<string> := {
    "จุฬาลงกรณ์มหาวิทยาลัย",
    "มหาวิทยาลัยเกษตรศาสตร์",
    "สถาบันเทคโนโลยีพระจอมเกล้าเจ้าคุณทหารลาดกระบัง"
  }

  /** The faculties kept by the import. */
  const DEMO_FACULTIES: set<string> := {"คณะวิศวกรรมศาสตร์", "คณะอักษรศาสตร์", "คณะบริหารธุรกิจ"}

  function IsDemo(): CsvRow -> bool {
    (r: CsvRow) => r.university in DEMO_UNIVERSITIES && r.faculty in DEMO_FACULTIES
  }

  // ---------------------------------------------------------------------
  // Order-preserving deduplication

  ghost predicate NoDuplicates<T>(s: seq<T>) {
    forall i, j :: 0 <= i < j < |s| ==> s[i] != s[j]
  }

  /**
   * The `reduce` that appends each row unless it is already collected:
   * the distinct rows, each where it first occurs.
   */
  function Dedup<T(==,!new)>(s: seq<T>): (r: seq<T>)
    ensures NoDuplicates(r)
    ensures forall x :: x in r <==> x in s
    ensures |r| <= |s|
  {
    if |s| == 0 then []
    else
      var d := Dedup(s[..|s| - 1]);
      assert s == s[..|s| - 1] + [s[|s| - 1]];
      if s[|s| - 1] in d then d else d + [s[|s| - 1]]
  }

  /** `x` occurs in `s` at a position before which `y` does not occur. */
  ghost predicate FirstBefore<T>(s: seq<T>, x: T, y: T) {
    exists a :: 0 <= a < |s| && s[a] == x && y !in s[..a]
  }

  /** Each kept element first occurs in `s` before the next kept one occurs at all. */
  lemma {:induction false} DedupKeepsFirstOrder<T(!new)>(s: seq<T>)
    ensures forall i, j :: 0 <= i < j < |Dedup(s)| ==> FirstBefore(s, Dedup(s)[i], Dedup(s)[j])
  {
    if |s| > 0 {
      var init := s[..|s| - 1];
      var x := s[|s| - 1];
      var d := Dedup(init);
      DedupKeepsFirstOrder(init);
      var r := Dedup(s);
      forall i, j | 0 <= i < j < |r|
        ensures FirstBefore(s, r[i], r[j])
      {
        if j < |d| {
          assert r[i] == d[i] && r[j] == d[j];
          assert FirstBefore(init, d[i], d[j]);
          var a :| 0 <= a < |init| && init[a] == d[i] && d[j] !in init[..a];
          assert s[..a] == init[..a];
          assert s[a] == r[i] && r[j] !in s[..a];
        } else {
          assert r[j] == x && x !in d && x !in init;
          assert r[i] in init;
          var a :| 0 <= a < |init| && init[a] == r[i];
          assert s[a] == r[i];
          assert s[..a] == init[..a];
        }
      }
    }
  }

  /** A sequence without duplicates is its own deduplication. */
  lemma {:induction false} DedupDistinct<T(!new)>(s: seq<T>)
    requires NoDuplicates(s)
    ensures Dedup(s) == s
  {
    if |s| > 0 {
      var init := s[..|s| - 1];
      DedupDistinct(init);
      assert s[|s| - 1] !in init;
      assert s == init + [s[|s| - 1]];
    }
  }

  /** Deduplicating twice is deduplicating once. */
  lemma DedupIdempotent<T(!new)>(s: seq<T>)
    ensures Dedup(Dedup(s)) == Dedup(s)
  {
    DedupDistinct(Dedup(s));
  }

  // ---------------------------------------------------------------------
  // get_or_create

  /** A key above every existing one. */
  function NextKey(ids: seq<nat>): (r: nat)
    ensures forall k :: 0 <= k < |ids| ==> ids[k] < r
  {
    if |ids| == 0 then 1
    else
      var rest := NextKey(ids[1..]);
      if ids[0] < rest then rest else ids[0] + 1
  }

  function UniversityNamed(name: string): University -> bool {
    (u: University) => u.name == name
  }

  function FacultyKeyed(name: string, university: nat): Faculty -> bool {
    (f: Faculty) => f.name == name && f.university == university
  }

  function MajorKeyed(name: string, code: string, faculty: nat): Major -> bool {
    (m: Major) => m.name == name && m.code == code && m.faculty == faculty
  }

  function MajorCoded(code: string): Major -> bool {
    (m: Major) => m.code == code
  }

  /**
   * `get_or_create`: the one matching row, or a new one appended; `None`
   * when several rows match (`MultipleObjectsReturned`).
   */
  function GetOrCreateUniversity(c: Catalogue, name: string): (r: Option<(Catalogue, nat)>)
    ensures r.Some? ==> r.value.0.faculties == c.faculties && r.value.0.majors == c.majors
    ensures r.Some? ==> Lookup(r.value.0.universities, UniversityNamed(name)) == One(r.value.1)
    ensures r.Some? ==> r.value.0.universities == c.universities ||
                        (Lookup(c.universities, UniversityNamed(name)).NoMatch? &&
                         r.value.0.universities == c.universities + [University(NextKey(UniversityIds(c)), name)])
    ensures r.None? <==> Lookup(c.universities, UniversityNamed(name)).Many?
  {
    match Lookup(c.universities, UniversityNamed(name))
    case Many => None
    case One(i) => Some((c, i))
    case NoMatch =>
      var u := University(NextKey(UniversityIds(c)), name);
      LookupAppendHit(c.universities, UniversityNamed(name), u);
      Some((c.(universities := c.universities + [u]), |c.universities|))
  }

  function UniversityIds(c: Catalogue): (r: seq<nat>)
    ensures |r| == |c.universities| && forall k :: 0 <= k < |r| ==> r[k] == c.universities[k].id
  {
    seq(|c.universities|, k requires 0 <= k < |c.universities| => c.universities[k].id)
  }

  function FacultyIds(c: Catalogue): (r: seq<nat>)
    ensures |r| == |c.faculties| && forall k :: 0 <= k < |r| ==> r[k] == c.faculties[k].id
  {
    seq(|c.faculties|, k requires 0 <= k < |c.faculties| => c.faculties[k].id)
  }

  function MajorIds(c: Catalogue): (r: seq<nat>)
    ensures |r| == |c.majors| && forall k :: 0 <= k < |r| ==> r[k] == c.majors[k].id
  {
    seq(|c.majors|, k requires 0 <= k < |c.majors| => c.majors[k].id)
  }

  function GetOrCreateFaculty(c: Catalogue, name: string, university: nat): (r: Option<(Catalogue, nat)>)
    ensures r.Some? ==> r.value.0.universities == c.universities && r.value.0.majors == c.majors
    ensures r.Some? ==> Lookup(r.value.0.faculties, FacultyKeyed(name, university)) == One(r.value.1)
    ensures r.Some? ==> r.value.0.faculties == c.faculties ||
                        (Lookup(c.faculties, FacultyKeyed(name, university)).NoMatch? &&
                         r.value.0.faculties == c.faculties + [Faculty(NextKey(FacultyIds(c)), university, name)])
    ensures r.None? <==> Lookup(c.faculties, FacultyKeyed(name, university)).Many?
  {
    match Lookup(c.faculties, FacultyKeyed(name, university))
    case Many => None
    case One(i) => Some((c, i))
    case NoMatch =>
      var f := Faculty(NextKey(FacultyIds(c)), university, name);
      LookupAppendHit(c.faculties, FacultyKeyed(name, university), f);
      Some((c.(faculties := c.faculties + [f]), |c.faculties|))
  }

  /**
   * As above for majors; creating a major whose code is already taken
   * breaks the column's uniqueness constraint (`None`).
   */
  function GetOrCreateMajor(c: Catalogue, name: string, code: string, faculty: nat): (r: Option<(Catalogue, nat)>)
    ensures r.Some? ==> r.value.0.universities == c.universities && r.value.0.faculties == c.faculties
    ensures r.Some? ==> Lookup(r.value.0.majors, MajorKeyed(name, code, faculty)) == One(r.value.1)
    ensures r.Some? ==> r.value.0.majors == c.majors ||
                        (Lookup(c.majors, MajorKeyed(name, code, faculty)).NoMatch? &&
                         r.value.0.majors == c.majors + [Major(NextKey(MajorIds(c)), faculty, name, code)])
    ensures r.None? <==> Lookup(c.majors, MajorKeyed(name, code, faculty)).Many? ||
                         (Lookup(c.majors, MajorKeyed(name, code, faculty)).NoMatch? &&
                          exists k :: 0 <= k < |c.majors| && c.majors[k].code == code)
  {
    match Lookup(c.majors, MajorKeyed(name, code, faculty))
    case Many => None
    case One(i) => Some((c, i))
    case NoMatch =>
      if Lookup(c.majors, MajorCoded(code)).NoMatch? then
        var m := Major(NextKey(MajorIds(c)), faculty, name, code);
        LookupAppendHit(c.majors, MajorKeyed(name, code, faculty), m);
        Some((c.(majors := c.majors + [m]), |c.majors|))
      else None
  }

  /** Appending the first match of a query makes it the one match. */
  lemma LookupAppendHit<T>(s: seq<T>, p: T -> bool, x: T)
    requires Lookup(s, p).NoMatch? && p(x)
    ensures Lookup(s + [x], p) == One(|s|)
  {
    LookupUnique(s + [x], p, |s|);
  }

  /** Appending a non-match leaves a query's answer unchanged. */
  lemma LookupAppendMiss<T>(s: seq<T>, p: T -> bool, x: T)
    requires !p(x)
    ensures Lookup(s + [x], p) == Lookup(s, p)
  {
    var t := s + [x];
    match Lookup(s, p)
    case NoMatch =>
    case One(i) =>
      LookupUnique(t, p, i);
    case Many =>
      var i, j :| 0 <= i < j < |s| && p(s[i]) && p(s[j]);
      assert t[i] == s[i] && t[j] == s[j];
  }

  /**
   * The catalogue after importing: `Completed` when every row was stored,
   * `Stopped` when a `get_or_create` raised. Each `get_or_create` commits
   * on its own and nothing rolls back, so a stopped import keeps every
   * record written before the error.
   */
  datatype Import = Completed(cat: Catalogue) | Stopped(cat: Catalogue)

  /**
   * The three get-or-creates for one row; the later ones use the earlier
   * rows' keys. A failing step stops with what the earlier steps created.
   */
  function ImportRow(c: Catalogue, row: CsvRow): (r: Import)
    ensures r.Completed? <==> Covered(r.cat, row)
    ensures |c.universities| <= |r.cat.universities| <= |c.universities| + 1
    ensures |c.faculties| <= |r.cat.faculties| <= |c.faculties| + 1
    ensures |c.majors| <= |r.cat.majors| <= |c.majors| + 1
  {
    match GetOrCreateUniversity(c, row.university)
    case None => Stopped(c)
    case Some((c1, u)) =>
      match GetOrCreateFaculty(c1, row.faculty, c1.universities[u].id)
      case None => Stopped(c1)
      case Some((c2, f)) =>
        match GetOrCreateMajor(c2, row.major, row.code, c2.faculties[f].id)
        case None => Stopped(c2)
        case Some((c3, m)) => Completed(c3)
  }

  /**
   * The catalogue already holds the row: each of its three lookups finds
   * exactly one record.
   */
  predicate Covered(c: Catalogue, row: CsvRow) {
    var u := Lookup(c.universities, UniversityNamed(row.university));
    && u.One?
    && var f := Lookup(c.faculties, FacultyKeyed(row.faculty, c.universities[u.index].id));
       && f.One?
       && Lookup(c.majors, MajorKeyed(row.major, row.code, c.faculties[f.index].id)).One?
  }

  /** Importing a row the catalogue already holds changes nothing. */
  lemma CoveredImportIsNoop(c: Catalogue, row: CsvRow)
    requires Covered(c, row)
    ensures ImportRow(c, row) == Completed(c)
  {
  }

  /**
   * A row naming a new university leaves that university in the catalogue
   * whether or not its faculty and major can be stored afterwards.
   */
  lemma NewUniversityIsKept(c: Catalogue, row: CsvRow)
    requires forall k :: 0 <= k < |c.universities| ==> c.universities[k].name != row.university
    ensures ImportRow(c, row).cat.universities == c.universities + [University(NextKey(UniversityIds(c)), row.university)]
  {
    assert Lookup(c.universities, UniversityNamed(row.university)).NoMatch?;
  }

  /**
   * A new major whose code another major already has stops the row after
   * its university and faculty lookups, keeping what they wrote.
   */
  lemma TakenCodeStops(c: Catalogue, row: CsvRow, k: nat)
    requires Lookup(c.universities, UniversityNamed(row.university)).One?
    requires var u := Lookup(c.universities, UniversityNamed(row.university)).index;
             Lookup(c.faculties, FacultyKeyed(row.faculty, c.universities[u].id)).One?
    requires forall j :: 0 <= j < |c.majors| ==> !(c.majors[j].name == row.major && c.majors[j].code == row.code)
    requires k < |c.majors| && c.majors[k].code == row.code
    ensures ImportRow(c, row) == Stopped(c)
  {
    var u := Lookup(c.universities, UniversityNamed(row.university)).index;
    var f := Lookup(c.faculties, FacultyKeyed(row.faculty, c.universities[u].id)).index;
    assert Lookup(c.majors, MajorKeyed(row.major, row.code, c.faculties[f].id)).NoMatch?;
  }

  /** A get-or-create of a university keeps every held row held. */
  lemma UniversityStepKeepsCovered(c: Catalogue, name: string, other: CsvRow)
    requires Covered(c, other) && GetOrCreateUniversity(c, name).Some?
    ensures Covered(GetOrCreateUniversity(c, name).value.0, other)
  {
    var c1 := GetOrCreateUniversity(c, name).value.0;
    var u := Lookup(c.universities, UniversityNamed(other.university)).index;
    if c1.universities != c.universities {
      var nu := University(NextKey(UniversityIds(c)), name);
      assert !UniversityNamed(other.university)(nu);
      LookupAppendMiss(c.universities, UniversityNamed(other.university), nu);
    }
    assert c1.universities[u] == c.universities[u];
  }

  /** A get-or-create of a faculty keeps every held row held. */
  lemma FacultyStepKeepsCovered(c: Catalogue, name: string, university: nat, other: CsvRow)
    requires Covered(c, other) && GetOrCreateFaculty(c, name, university).Some?
    ensures Covered(GetOrCreateFaculty(c, name, university).value.0, other)
  {
    var c2 := GetOrCreateFaculty(c, name, university).value.0;
    var u := Lookup(c.universities, UniversityNamed(other.university)).index;
    var uid := c.universities[u].id;
    var f := Lookup(c.faculties, FacultyKeyed(other.faculty, uid)).index;
    if c2.faculties != c.faculties {
      var nf := Faculty(NextKey(FacultyIds(c)), university, name);
      assert !FacultyKeyed(other.faculty, uid)(nf);
      LookupAppendMiss(c.faculties, FacultyKeyed(other.faculty, uid), nf);
    }
    assert c2.faculties[f] == c.faculties[f];
  }

  /** A get-or-create of a major keeps every held row held. */
  lemma MajorStepKeepsCovered(c: Catalogue, name: string, code: string, faculty: nat, other: CsvRow)
    requires Covered(c, other) && GetOrCreateMajor(c, name, code, faculty).Some?
    ensures Covered(GetOrCreateMajor(c, name, code, faculty).value.0, other)
  {
    var c3 := GetOrCreateMajor(c, name, code, faculty).value.0;
    var u := Lookup(c.universities, UniversityNamed(other.university)).index;
    var f := Lookup(c.faculties, FacultyKeyed(other.faculty, c.universities[u].id)).index;
    var fid := c.faculties[f].id;
    if c3.majors != c.majors {
      var nm := Major(NextKey(MajorIds(c)), faculty, name, code);
      assert !MajorKeyed(other.major, other.code, fid)(nm);
      LookupAppendMiss(c.majors, MajorKeyed(other.major, other.code, fid), nm);
    }
  }

  /** Importing one row, completed or stopped, keeps every row the catalogue already held. */
  lemma ImportKeepsCovered(c: Catalogue, row: CsvRow, other: CsvRow)
    requires Covered(c, other)
    ensures Covered(ImportRow(c, row).cat, other)
  {
    match GetOrCreateUniversity(c, row.university)
    case None =>
    case Some((c1, u)) =>
      UniversityStepKeepsCovered(c, row.university, other);
      match GetOrCreateFaculty(c1, row.faculty, c1.universities[u].id)
      case None =>
      case Some((c2, f)) =>
        FacultyStepKeepsCovered(c1, row.faculty, c1.universities[u].id, other);
        match GetOrCreateMajor(c2, row.major, row.code, c2.faculties[f].id)
        case None =>
        case Some((c3, m)) =>
          MajorStepKeepsCovered(c2, row.major, row.code, c2.faculties[f].id, other);
  }

  // ---------------------------------------------------------------------
  // run

  /** The loop over the deduplicated rows; it stops at the first row that fails. */
  function ImportAll(c: Catalogue, rows: seq<CsvRow>): (r: Import)
    ensures |c.universities| <= |r.cat.universities| && |c.faculties| <= |r.cat.faculties| &&
            |c.majors| <= |r.cat.majors|
    decreases |rows|
  {
    if |rows| == 0 then Completed(c)
    else
      match ImportRow(c, rows[0])
      case Stopped(c1) => Stopped(c1)
      case Completed(c1) => ImportAll(c1, rows[1..])
  }

  /**
   * `run`: filter to the demo rows, deduplicate, import. A completed run
   * holds every demo row; a stopped one holds every row before the first
   * it could not store.
   */
  function Run(c: Catalogue, csv: seq<CsvRow>): (r: Import)
    ensures r.Completed? ==> forall row :: row in csv && IsDemo()(row) ==> Covered(r.cat, row)
    ensures r.Stopped? ==> exists n :: StoppedAt(r.cat, Dedup(Filter(csv, IsDemo())), n)
    ensures |c.universities| <= |r.cat.universities| && |c.faculties| <= |r.cat.faculties| &&
            |c.majors| <= |r.cat.majors|
  {
    var rows := Dedup(Filter(csv, IsDemo()));
    var r := ImportAll(c, rows);
    if r.Completed? then
      ImportAllCovers(c, rows);
      r
    else
      ImportAllStopsAtFirstFailure(c, rows);
      r
  }

  /** A held row stays held along the whole import loop, however it ends. */
  lemma {:induction false} ImportAllKeepsCovered(c: Catalogue, rows: seq<CsvRow>, other: CsvRow)
    requires Covered(c, other)
    ensures Covered(ImportAll(c, rows).cat, other)
    decreases |rows|
  {
    if |rows| > 0 {
      ImportKeepsCovered(c, rows[0], other);
      if ImportRow(c, rows[0]).Completed? {
        ImportAllKeepsCovered(ImportRow(c, rows[0]).cat, rows[1..], other);
      }
    }
  }

  /** After a completed import loop every imported row is held. */
  lemma {:induction false} ImportAllCovers(c: Catalogue, rows: seq<CsvRow>)
    requires ImportAll(c, rows).Completed?
    ensures forall row :: row in rows ==> Covered(ImportAll(c, rows).cat, row)
    decreases |rows|
  {
    if |rows| > 0 {
      var c1 := ImportRow(c, rows[0]).cat;
      ImportAllCovers(c1, rows[1..]);
      ImportAllKeepsCovered(c1, rows[1..], rows[0]);
      forall row | row in rows ensures Covered(ImportAll(c, rows).cat, row) {
        if row != rows[0] {
          assert row in rows[1..];
        }
      }
    }
  }

  /** `rows[n]` is not held, and every row before it is. */
  ghost predicate StoppedAt(d: Catalogue, rows: seq<CsvRow>, n: int) {
    0 <= n < |rows| && !Covered(d, rows[n]) && forall k :: 0 <= k < n ==> Covered(d, rows[k])
  }

  /**
   * A stopped import loop stopped at some row it does not hold, and holds
   * every row before it: nothing written earlier is undone.
   */
  lemma {:induction false} ImportAllStopsAtFirstFailure(c: Catalogue, rows: seq<CsvRow>)
    requires ImportAll(c, rows).Stopped?
    ensures exists n :: StoppedAt(ImportAll(c, rows).cat, rows, n)
    decreases |rows|
  {
    assert |rows| > 0;
    var d := ImportAll(c, rows).cat;
    var first := ImportRow(c, rows[0]);
    if first.Stopped? {
      assert StoppedAt(d, rows, 0);
    } else {
      var tail := rows[1..];
      assert ImportAll(c, rows) == ImportAll(first.cat, tail);
      ImportAllStopsAtFirstFailure(first.cat, tail);
      var n :| StoppedAt(d, tail, n);
      ImportAllKeepsCovered(first.cat, tail, rows[0]);
      forall k | 0 <= k < n + 1
        ensures Covered(d, rows[k])
      {
        if k > 0 {
          assert rows[k] == tail[k - 1];
        }
      }
      assert rows[n + 1] == tail[n];
      assert StoppedAt(d, rows, n + 1);
    }
  }

  /** Importing rows that are all held changes nothing. */
  lemma {:induction false} ImportAllHeldIsNoop(c: Catalogue, rows: seq<CsvRow>)
    requires forall row :: row in rows ==> Covered(c, row)
    ensures ImportAll(c, rows) == Completed(c)
    decreases |rows|
  {
    if |rows| > 0 {
      CoveredImportIsNoop(c, rows[0]);
      assert forall row :: row in rows[1..] ==> row in rows;
      ImportAllHeldIsNoop(c, rows[1..]);
    }
  }

  /** Running the import a second time over the same file creates nothing. */
  lemma RunIdempotent(c: Catalogue, csv: seq<CsvRow>)
    requires Run(c, csv).Completed?
    ensures Run(Run(c, csv).cat, csv) == Run(c, csv)
  {
    var d := Run(c, csv).cat;
    var rows := Dedup(Filter(csv, IsDemo()));
    assert forall row :: row in rows ==> row in csv && IsDemo()(row);
    ImportAllHeldIsNoop(d, rows);
  }

  /** Rows outside the demo universities and faculties are never imported. */
  lemma NonDemoRowsIgnored(c: Catalogue, csv: seq<CsvRow>, extra: CsvRow)
    requires !IsDemo()(extra)
    ensures Run(c, csv + [extra]) == Run(c, csv)
  {
    var kept := Filter(csv, IsDemo());
    FilterAppend(csv, IsDemo(), extra);
  }
}

=== FILE: ledger_invariant.dfy ===
/**
 * What the estimate-history ledger is meant to record, and when the task
 * hooks keep it so. The reference is `Outstanding`: the sum of the estimates
 * of a board's tasks that are not DONE. The ledger is `Consistent` when every
 * board's last row holds exactly that sum (0 for a board with no row yet).
 *
 * `save` keeps the ledger consistent exactly when the stored task was not
 * DONE or its estimate is unchanged; `delete` exactly when the task is not
 * DONE or has estimate 0. Moving a task to another board also breaks it.
 */
module LedgerInvariant {
  import opened Basics
  import opened EstimateHistory
  import opened TaskModel

  /** What one task adds to a board's remaining work. */
  function Contribution(t: Task, b: BoardId): int {
    if t.board == b && !IsDone(t.status) then t.estimate else 0
  }

  /** Sum of the estimates of the board's tasks that are not DONE. */
  function Outstanding(tasks: seq<Task>, b: BoardId): int {
    if |tasks| == 0 then 0 else Contribution(tasks[0], b) + Outstanding(tasks[1..], b)
  }

  /**
   * Only the exact string "DONE" is terminal: a task created as "Finished"
   * (or "INPROGRESS") adds its whole estimate to the row and counts as outstanding.
   */
  lemma LookalikeStatusIsOutstanding(t: Task)
    requires t.status == "Finished" || t.status == "INPROGRESS"
    ensures SaveDelta(None, t) == t.estimate && Contribution(t, t.board) == t.estimate
  {
    assert t.status[0] != DONE[0];
  }

  ghost predicate UniqueIds(tasks: seq<Task>) {
    forall i, j :: 0 <= i < j < |tasks| ==> tasks[i].id != tasks[j].id
  }

  /** Every board's recorded value is its outstanding work. */
  ghost predicate Consistent(s: Store) {
    && UniqueIds(s.tasks)
    && Chronological(s.ledger)
    && forall b :: Recorded(s.ledger, b) == Outstanding(s.tasks, b)
  }

  // ---------------------------------------------------------------------
  // Sums over the task table

  lemma {:induction false} OutstandingConcat(a: seq<Task>, c: seq<Task>, b: BoardId)
    ensures Outstanding(a + c, b) == Outstanding(a, b) + Outstanding(c, b)
  {
    if |a| == 0 {
      assert a + c == c;
    } else {
      assert (a + c)[1..] == a[1..] + c;
      OutstandingConcat(a[1..], c, b);
    }
  }

  lemma OutstandingSplit(tasks: seq<Task>, i: nat, b: BoardId)
    requires i < |tasks|
    ensures Outstanding(tasks, b) ==
              Outstanding(tasks[..i], b) + Contribution(tasks[i], b) + Outstanding(tasks[i + 1..], b)
  {
    assert tasks == tasks[..i] + ([tasks[i]] + tasks[i + 1..]);
    OutstandingConcat(tasks[..i], [tasks[i]] + tasks[i + 1..], b);
    OutstandingConcat([tasks[i]], tasks[i + 1..], b);
  }

  /** Replacing one task changes the sum by the difference of the two contributions. */
  lemma OutstandingReplace(tasks: seq<Task>, i: nat, t: Task, b: BoardId)
    requires i < |tasks|
    ensures Outstanding(tasks[i := t], b) == Outstanding(tasks, b) - Contribution(tasks[i], b) + Contribution(t, b)
  {
    OutstandingSplit(tasks, i, b);
    OutstandingSplit(tasks[i := t], i, b);
    assert tasks[i := t][..i] == tasks[..i];
    assert tasks[i := t][i + 1..] == tasks[i + 1..];
  }

  lemma OutstandingRemoveAt(tasks: seq<Task>, i: nat, b: BoardId)
    requires i < |tasks|
    ensures Outstanding(tasks[..i] + tasks[i + 1..], b) == Outstanding(tasks, b) - Contribution(tasks[i], b)
  {
    OutstandingSplit(tasks, i, b);
    OutstandingConcat(tasks[..i], tasks[i + 1..], b);
  }

  lemma OutstandingAppend(tasks: seq<Task>, t: Task, b: BoardId)
    ensures Outstanding(tasks + [t], b) == Outstanding(tasks, b) + Contribution(t, b)
  {
    OutstandingConcat(tasks, [t], b);
    assert [t][1..] == [];
  }

  // ---------------------------------------------------------------------
  // The ledger side: one adjusted row shifts one board's recorded value

  lemma {:induction false} LastOfBoardSameBoards(before: seq<Row>, after: seq<Row>, b: BoardId)
    requires |before| == |after|
    requires forall i :: 0 <= i < |before| ==> before[i].board == after[i].board
    ensures LastOfBoard(after, b) == LastOfBoard(before, b)
  {
    if |before| > 0 {
      LastOfBoardSameBoards(before[..|before| - 1], after[..|after| - 1], b);
    }
  }

  /**
   * On a chronological ledger whose rows are not later than `today`, adding
   * `d` to the (board, today) row shifts that board's recorded value by `d`,
   * leaves every other board's unchanged, and keeps the ledger chronological.
   */
  lemma AdjustedShifts(before: seq<Row>, after: seq<Row>, board: BoardId, today: Day, d: int)
    requires Chronological(before) && NotAfter(before, today)
    requires Adjusted(before, after, board, today, d)
    ensures Chronological(after) && NotAfter(after, today)
    ensures Recorded(after, board) == Recorded(before, board) + d
    ensures forall c :: c != board ==> Recorded(after, c) == Recorded(before, c)
  {
    if |after| == |before| {
      var i :| 0 <= i < |before| && Keyed(before[i], board, today) &&
               after[i] == before[i].(remaining := before[i].remaining + d);
      AdjustedInPlace(before, after, board, today, d, i);
    } else {
      assert after[..|before|] == before;
      AdjustedAppended(before, after, board, today, d);
    }
  }

  /** The (board, today) row existed: its value moves by `d`, every row keeps its board and day. */
  lemma AdjustedInPlace(before: seq<Row>, after: seq<Row>, board: BoardId, today: Day, d: int, i: nat)
    requires Chronological(before) && NotAfter(before, today)
    requires |after| == |before| && i < |before| && Keyed(before[i], board, today)
    requires after[i] == before[i].(remaining := before[i].remaining + d)
    requires forall j :: 0 <= j < |before| && !Keyed(before[j], board, today) ==> after[j] == before[j]
    ensures Chronological(after) && NotAfter(after, today)
    ensures Recorded(after, board) == Recorded(before, board) + d
    ensures forall c :: c != board ==> Recorded(after, c) == Recorded(before, c)
  {
    forall j | 0 <= j < |before|
      ensures after[j].board == before[j].board && after[j].date == before[j].date
    {
    }
    forall c {
      LastOfBoardSameBoards(before, after, c);
    }
    var k := LastOfBoard(before, board);
    assert k.Some?;
    assert k == Some(i);
  }

  /** No (board, today) row existed: one is appended carrying the board's value moved by `d`. */
  lemma AdjustedAppended(before: seq<Row>, after: seq<Row>, board: BoardId, today: Day, d: int)
    requires Chronological(before) && NotAfter(before, today)
    requires |after| == |before| + 1 && after[..|before|] == before
    requires forall j :: 0 <= j < |before| ==> !Keyed(before[j], board, today)
    requires after[|before|] == Row(board, today, Recorded(before, board) + d)
    ensures Chronological(after) && NotAfter(after, today)
    ensures Recorded(after, board) == Recorded(before, board) + d
    ensures forall c :: c != board ==> Recorded(after, c) == Recorded(before, c)
  {
    forall c | c != board
      ensures LastOfBoard(after, c) == LastOfBoard(before, c)
    {
      assert after[..|after| - 1] == before;
    }
    assert LastOfBoard(after, board) == Some(|before|);
  }

  // ---------------------------------------------------------------------
  // The task side

  lemma IndexOfReplace(tasks: seq<Task>, i: nat, t: Task)
    requires IndexOf(tasks, t.id) == Some(i)
    ensures IndexOf(tasks[i := t], t.id) == Some(i)
  {
    var r := IndexOf(tasks[i := t], t.id);
    assert tasks[i := t][i].id == t.id;
    assert forall k :: 0 <= k < i ==> tasks[i := t][k] == tasks[k];
  }

  lemma PersistUnique(tasks: seq<Task>, t: Task)
    requires UniqueIds(tasks)
    ensures UniqueIds(Persist(tasks, t))
    ensures Stored(Persist(tasks, t), t.id) == Some(t)
  {
    match IndexOf(tasks, t.id)
    case Some(i) =>
      IndexOfReplace(tasks, i, t);
    case None =>
      var r := tasks + [t];
      assert IndexOf(r, t.id) == Some(|tasks|) by {
        assert r[|tasks|].id == t.id;
        assert forall k :: 0 <= k < |tasks| ==> r[k] == tasks[k];
      }
  }

  lemma RemoveUnique(tasks: seq<Task>, i: nat)
    requires UniqueIds(tasks) && i < |tasks|
    ensures UniqueIds(tasks[..i] + tasks[i + 1..])
  {
    var r := tasks[..i] + tasks[i + 1..];
    forall a, c | 0 <= a < c < |r|
      ensures r[a].id != r[c].id
    {
      var a' := if a < i then a else a + 1;
      var c' := if c < i then c else c + 1;
      assert r[a] == tasks[a'] && r[c] == tasks[c'];
    }
  }

  /**
   * How far `save` leaves today's row from the outstanding work of the
   * task's board: the delta the hook applies minus the change in the task's
   * contribution. It is zero exactly when the stored task was not DONE or
   * keeps its estimate.
   */
  function Drift(stored: Option<Task>, t: Task): (r: int)
    ensures (stored.None? || stored.value.board == t.board) ==>
              (r == 0 <==> stored.None? || !IsDone(stored.value.status) || stored.value.estimate == t.estimate)
    ensures stored.Some? && stored.value.board == t.board && IsDone(stored.value.status) ==>
              r == t.estimate - stored.value.estimate
  {
    var before := match stored case Some(p) => Contribution(p, t.board) case None => 0;
    SaveDelta(stored, t) - (Contribution(t, t.board) - before)
  }

  /**
   * The headline property for `save`. On a consistent ledger, with a clock not
   * before any row and the task staying on its board, `save` succeeds and
   * leaves every board except the task's exactly consistent. The task's board
   * is off by `Drift`, so the ledger stays consistent iff `Drift` is zero.
   */
  lemma SaveConsistency(s: Store, t: Task, today: Day)
    requires Consistent(s) && NotAfter(s.ledger, today)
    requires Stored(s.tasks, t.id).Some? ==> Stored(s.tasks, t.id).value.board == t.board
    ensures Save(s, t, today).Some?
    ensures NotAfter(Save(s, t, today).value.ledger, today)
    ensures UniqueIds(Save(s, t, today).value.tasks) && Chronological(Save(s, t, today).value.ledger)
    ensures forall b :: Recorded(Save(s, t, today).value.ledger, b) - Outstanding(Save(s, t, today).value.tasks, b) ==
                          if b == t.board then Drift(Stored(s.tasks, t.id), t) else 0
    ensures Consistent(Save(s, t, today).value) <==> Drift(Stored(s.tasks, t.id), t) == 0
  {
    var stored := Stored(s.tasks, t.id);
    var r := Save(s, t, today);
    assert r.Some?;
    var after := r.value;
    AdjustedShifts(s.ledger, after.ledger, t.board, today, SaveDelta(stored, t));
    PersistUnique(s.tasks, t);
    forall b
      ensures Outstanding(after.tasks, b) ==
                Outstanding(s.tasks, b) + Contribution(t, b) -
                (match stored case Some(p) => Contribution(p, b) case None => 0)
    {
      match IndexOf(s.tasks, t.id)
      case Some(i) => OutstandingReplace(s.tasks, i, t, b);
      case None => OutstandingAppend(s.tasks, t, b);
    }
    GapConsistent(after, t.board, Drift(stored, t));
  }

  /**
   * A store whose ledger is off from the reference by `g` on one board and
   * exact elsewhere is consistent exactly when `g` is 0.
   */
  lemma GapConsistent(s: Store, board: BoardId, g: int)
    requires UniqueIds(s.tasks) && Chronological(s.ledger)
    requires forall b :: Recorded(s.ledger, b) - Outstanding(s.tasks, b) == if b == board then g else 0
    ensures Consistent(s) <==> g == 0
  {
    if g != 0 {
      assert Recorded(s.ledger, board) - Outstanding(s.tasks, board) == g;
    }
  }

  /**
   * The headline property for `delete`: on a consistent ledger, deleting a
   * stored task keeps it consistent iff the task was not DONE or had
   * estimate 0, because the hook subtracts the estimate whatever the status.
   */
  lemma DeleteConsistency(s: Store, t: Task, today: Day)
    requires Consistent(s) && NotAfter(s.ledger, today)
    requires Stored(s.tasks, t.id) == Some(t)
    ensures Delete(s, t, today).Some?
    ensures NotAfter(Delete(s, t, today).value.ledger, today)
    ensures Consistent(Delete(s, t, today).value) <==> !IsDone(t.status) || t.estimate == 0
  {
    var r := Delete(s, t, today);
    assert r.Some?;
    var after := r.value;
    AdjustedShifts(s.ledger, after.ledger, t.board, today, -t.estimate);
    var i := IndexOf(s.tasks, t.id).value;
    RemoveUnique(s.tasks, i);
    var g := if IsDone(t.status) then -t.estimate else 0;
    forall b
      ensures Recorded(after.ledger, b) - Outstanding(after.tasks, b) == if b == t.board then g else 0
    {
      OutstandingRemoveAt(s.tasks, i, b);
    }
    GapConsistent(after, t.board, g);
  }

  // ---------------------------------------------------------------------
  // The cases that hold

  /** Creating a task (DONE or not) keeps the ledger consistent. */
  lemma CreatePreserves(s: Store, t: Task, today: Day)
    requires Consistent(s) && NotAfter(s.ledger, today)
    requires Stored(s.tasks, t.id).None?
    ensures Save(s, t, today).Some? && Consistent(Save(s, t, today).value)
  {
    SaveConsistency(s, t, today);
  }

  /** Any update of a task that is not DONE, staying on its board, keeps the ledger consistent. */
  lemma UpdateFromOutstandingPreserves(s: Store, t: Task, today: Day)
    requires Consistent(s) && NotAfter(s.ledger, today)
    requires Stored(s.tasks, t.id).Some?
    requires !IsDone(Stored(s.tasks, t.id).value.status)
    requires Stored(s.tasks, t.id).value.board == t.board
    ensures Save(s, t, today).Some? && Consistent(Save(s, t, today).value)
  {
    SaveConsistency(s, t, today);
  }

  /** Reopening a DONE task without re-estimating it keeps the ledger consistent. */
  lemma ReopenPreserves(s: Store, t: Task, today: Day)
    requires Consistent(s) && NotAfter(s.ledger, today)
    requires Stored(s.tasks, t.id).Some?
    requires IsDone(Stored(s.tasks, t.id).value.status) && !IsDone(t.status)
    requires Stored(s.tasks, t.id).value.board == t.board
    requires Stored(s.tasks, t.id).value.estimate == t.estimate
    ensures Save(s, t, today).Some? && Consistent(Save(s, t, today).value)
  {
    SaveConsistency(s, t, today);
  }

  // ---------------------------------------------------------------------
  // The cases that break it

  /**
   * Re-estimating a DONE task (whether it stays DONE or is reopened in the
   * same save) leaves today's row off by exactly the estimate change.
   */
  lemma DoneReestimateBreaks(s: Store, t: Task, today: Day)
    requires Consistent(s) && NotAfter(s.ledger, today)
    requires Stored(s.tasks, t.id).Some?
    requires IsDone(Stored(s.tasks, t.id).value.status)
    requires Stored(s.tasks, t.id).value.board == t.board
    requires Stored(s.tasks, t.id).value.estimate != t.estimate
    ensures Save(s, t, today).Some?
    ensures !Consistent(Save(s, t, today).value)
    ensures Recorded(Save(s, t, today).value.ledger, t.board) ==
              Outstanding(Save(s, t, today).value.tasks, t.board) + t.estimate - Stored(s.tasks, t.id).value.estimate
  {
    SaveConsistency(s, t, today);
  }

  /** Deleting a DONE task with a nonzero estimate drives today's row below the outstanding work. */
  lemma DeleteDoneBreaks(s: Store, t: Task, today: Day)
    requires Consistent(s) && NotAfter(s.ledger, today)
    requires Stored(s.tasks, t.id) == Some(t)
    requires IsDone(t.status) && t.estimate != 0
    ensures Delete(s, t, today).Some?
    ensures !Consistent(Delete(s, t, today).value)
  {
    DeleteConsistency(s, t, today);
  }

  /**
   * Moving a task to another board in a save adjusts only the new board's row:
   * the old board keeps counting the task. A concrete instance.
   */
  lemma BoardMoveBreaks()
    ensures var t := Task(1, "t", DEFAULT_STATUS, Stamp(0, 2024, 1, 1), None, 1, 5);
            var s := Store([t], [Row(1, 0, 5)]);
            && Consistent(s)
            && Save(s, t.(board := 2), 0).Some?
            && !Consistent(Save(s, t.(board := 2), 0).value)
  {
    var t := Task(1, "t", DEFAULT_STATUS, Stamp(0, 2024, 1, 1), None, 1, 5);
    var s := Store([t], [Row(1, 0, 5)]);
    forall b
      ensures Recorded(s.ledger, b) == Outstanding(s.tasks, b)
    {
      assert [t][1..] == [];
      if b != 1 {
        assert LastOfBoard(s.ledger, b) == LastOfBoard([], b);
      }
    }
    var t2 := t.(board := 2);
    assert IndexOf(s.tasks, 1) == Some(0);
    var r := Save(s, t2, 0);
    assert r.Some?;
    assert r.value.tasks == [t2];
    assert [t2][1..] == [];
    assert Outstanding(r.value.tasks, 1) == 0;
    assert r.value.ledger[..1] == s.ledger;
    assert LastOfBoard(r.value.ledger, 1) == LastOfBoard(r.value.ledger[..1], 1);
    assert Recorded(r.value.ledger, 1) == 5;
  }

  // ---------------------------------------------------------------------
  // Round trips

  /** Marking a task DONE and then saving it back as it was. */
  function Round(s: Store, t: Task, today: Day): Option<Store> {
    match Save(s, t.(status := DONE), today)
    case None => None
    case Some(s1) => Save(s1, t, today)
  }

  /** `n` successive applications of a step that may fail. */
  function Iterate(step: Store -> Option<Store>, s: Store, n: nat): Option<Store>
    decreases n
  {
    if n == 0 then Some(s)
    else
      match step(s)
      case None => None
      case Some(s2) => Iterate(step, s2, n - 1)
  }

  /** `n` rounds of `Round`. */
  function Toggle(s: Store, t: Task, n: nat, today: Day): Option<Store> {
    Iterate(x => Round(x, t, today), s, n)
  }

  lemma SameTasksSameRecorded(s: Store, s': Store)
    requires Consistent(s) && Consistent(s') && s'.tasks == s.tasks
    ensures forall b :: Recorded(s'.ledger, b) == Recorded(s.ledger, b)
  {
  }

  /**
   * One round of marking a task DONE and saving it back: the task table is
   * unchanged, the ledger consistent, and today's row of the board exists.
   */
  lemma ToggleOnce(s: Store, t: Task, today: Day) returns (s2: Store)
    requires Consistent(s) && NotAfter(s.ledger, today)
    requires Stored(s.tasks, t.id) == Some(t) && !IsDone(t.status)
    ensures Round(s, t, today) == Some(s2)
    ensures s2.tasks == s.tasks && Consistent(s2) && NotAfter(s2.ledger, today)
    ensures exists k :: 0 <= k < |s2.ledger| && Keyed(s2.ledger[k], t.board, today)
  {
    var done := t.(status := DONE);
    SaveConsistency(s, done, today);
    var s1 := Save(s, done, today).value;
    var i := IndexOf(s.tasks, t.id).value;
    IndexOfReplace(s.tasks, i, done);
    assert Stored(s1.tasks, t.id) == Some(done);
    SaveConsistency(s1, t, today);
    s2 := Save(s1, t, today).value;
    IndexOfReplace(s1.tasks, i, t);
    assert s2.tasks == s.tasks;
    AdjustedHasRow(s1.ledger, s2.ledger, t.board, today, SaveDelta(Stored(s1.tasks, t.id), t));
  }

  /** After an adjustment the (board, today) row exists. */
  lemma AdjustedHasRow(before: seq<Row>, after: seq<Row>, board: BoardId, today: Day, d: int)
    requires Adjusted(before, after, board, today, d)
    ensures exists k :: 0 <= k < |after| && Keyed(after[k], board, today)
  {
    if |after| == |before| {
      var i :| 0 <= i < |before| && Keyed(before[i], board, today) &&
               after[i] == before[i].(remaining := before[i].remaining + d);
      assert Keyed(after[i], board, today);
    } else {
      assert Keyed(after[|before|], board, today);
    }
  }

  /** A chronological ledger keeps at most one row per (board, day). */
  lemma ChronologicalUnique(rows: seq<Row>)
    requires Chronological(rows)
    ensures UniqueDays(rows)
  {
  }

  /**
   * `save` on a ledger that already holds exactly one row for the board and
   * today changes that row in place by the save's delta and persists the task.
   */
  lemma SaveInPlace(s: Store, t: Task, today: Day, k: nat)
    requires UniqueDays(s.ledger)
    requires k < |s.ledger| && Keyed(s.ledger[k], t.board, today)
    ensures Save(s, t, today) ==
              Some(Store(Persist(s.tasks, t),
                         s.ledger[k := s.ledger[k].(remaining := s.ledger[k].remaining + SaveDelta(Stored(s.tasks, t.id), t))]))
  {
    GetExisting(s.ledger, t.board, today, k);
  }

  /**
   * Once today's row of the board exists, a further round subtracts the
   * estimate from that row and adds it back: the store is left exactly as it was.
   */
  lemma RoundFixed(s: Store, t: Task, today: Day)
    requires UniqueIds(s.tasks) && Chronological(s.ledger)
    requires Stored(s.tasks, t.id) == Some(t) && !IsDone(t.status)
    requires exists k :: 0 <= k < |s.ledger| && Keyed(s.ledger[k], t.board, today)
    ensures Round(s, t, today) == Some(s)
  {
    var k :| 0 <= k < |s.ledger| && Keyed(s.ledger[k], t.board, today);
    ChronologicalUnique(s.ledger);
    RoundFixedAt(s, t, today, k, IndexOf(s.tasks, t.id).value);
  }

  /** `RoundFixed` with the ledger row and the table position named. */
  lemma RoundFixedAt(s: Store, t: Task, today: Day, k: nat, i: nat)
    requires UniqueDays(s.ledger) && k < |s.ledger| && Keyed(s.ledger[k], t.board, today)
    requires IndexOf(s.tasks, t.id) == Some(i) && s.tasks[i] == t && !IsDone(t.status)
    ensures Round(s, t, today) == Some(s)
  {
    RoundShape(s, t, today, k, i);
    ShiftBack(s.ledger, k, t.estimate);
    ReplaceBack(s.tasks, i, t.(status := DONE));
  }

  /** A round on a stored outstanding task whose board has today's row: down, then up, by its estimate. */
  lemma RoundShape(s: Store, t: Task, today: Day, k: nat, i: nat)
    requires UniqueDays(s.ledger) && k < |s.ledger| && Keyed(s.ledger[k], t.board, today)
    requires IndexOf(s.tasks, t.id) == Some(i) && s.tasks[i] == t && !IsDone(t.status)
    ensures Round(s, t, today) ==
              Some(Store(s.tasks[i := t.(status := DONE)][i := t], Shift(Shift(s.ledger, k, -t.estimate), k, t.estimate)))
  {
    var done := t.(status := DONE);
    var s1 := Store(s.tasks[i := done], Shift(s.ledger, k, -t.estimate));
    RoundFirstSave(s, t, today, k, i);
    IndexOfReplace(s.tasks, i, done);
    ShiftKeepsDays(s.ledger, k, -t.estimate);
    RoundSecondSave(s1, t, today, k, i);
    RoundOf(s, t, today, s1, Store(s1.tasks[i := t], Shift(s1.ledger, k, t.estimate)));
  }

  /** A round is its two saves. */
  lemma RoundOf(s: Store, t: Task, today: Day, s1: Store, s2: Store)
    requires Save(s, t.(status := DONE), today) == Some(s1) && Save(s1, t, today) == Some(s2)
    ensures Round(s, t, today) == Some(s2)
  {
  }

  /** The ledger with `d` added to the row at `k`. */
  function Shift(rows: seq<Row>, k: nat, d: int): (r: seq<Row>)
    requires k < |rows|
    ensures |r| == |rows|
  {
    rows[k := rows[k].(remaining := rows[k].remaining + d)]
  }

  /** Shifting a row's value keeps every row's board and date. */
  lemma ShiftKeepsDays(rows: seq<Row>, k: nat, d: int)
    requires k < |rows| && UniqueDays(rows)
    ensures UniqueDays(Shift(rows, k, d))
    ensures forall j :: 0 <= j < |rows| ==> Shift(rows, k, d)[j].board == rows[j].board && Shift(rows, k, d)[j].date == rows[j].date
  {
  }

  /** Shifting a row down and up by the same amount restores the ledger. */
  lemma ShiftBack(rows: seq<Row>, k: nat, d: int)
    requires k < |rows|
    ensures Shift(Shift(rows, k, -d), k, d) == rows
  {
    var back := Shift(Shift(rows, k, -d), k, d);
    assert back[k] == rows[k];
    assert forall j :: 0 <= j < |rows| ==> back[j] == rows[j];
  }

  /** Writing an element and then the original element back restores the sequence. */
  lemma ReplaceBack<T>(s: seq<T>, i: nat, x: T)
    requires i < |s|
    ensures s[i := x][i := s[i]] == s
  {
    assert forall j :: 0 <= j < |s| ==> s[i := x][i := s[i]][j] == s[j];
  }

  /** Marking an outstanding task DONE takes its estimate off today's row. */
  lemma RoundFirstSave(s: Store, t: Task, today: Day, k: nat, i: nat)
    requires UniqueDays(s.ledger) && k < |s.ledger| && Keyed(s.ledger[k], t.board, today)
    requires IndexOf(s.tasks, t.id) == Some(i) && s.tasks[i] == t && !IsDone(t.status)
    ensures Save(s, t.(status := DONE), today) == Some(Store(s.tasks[i := t.(status := DONE)], Shift(s.ledger, k, -t.estimate)))
  {
    var done := t.(status := DONE);
    SaveInPlace(s, done, today, k);
    assert SaveDelta(Stored(s.tasks, t.id), done) == -t.estimate;
  }

  /** Reopening a DONE task puts its estimate back on today's row. */
  lemma RoundSecondSave(s: Store, t: Task, today: Day, k: nat, i: nat)
    requires UniqueDays(s.ledger) && k < |s.ledger| && Keyed(s.ledger[k], t.board, today)
    requires IndexOf(s.tasks, t.id) == Some(i) && s.tasks[i] == t.(status := DONE) && !IsDone(t.status)
    ensures Save(s, t, today) == Some(Store(s.tasks[i := t], Shift(s.ledger, k, t.estimate)))
  {
    SaveInPlace(s, t, today, k);
    assert SaveDelta(Stored(s.tasks, t.id), t) == t.estimate;
  }

  /** Steps from a fixpoint of the step change nothing, however many there are. */
  lemma {:induction false} IterateFixed(step: Store -> Option<Store>, s: Store, n: nat)
    requires step(s) == Some(s)
    ensures Iterate(step, s, n) == Some(s)
    decreases n
  {
    if n > 0 {
      IterateFixed(step, s, n - 1);
    }
  }

  /** When the first step reaches a fixpoint, every later step is a no-op. */
  lemma IterateAfterFirst(step: Store -> Option<Store>, s: Store, n: nat, s2: Store)
    requires n > 0 && step(s) == Some(s2) && step(s2) == Some(s2)
    ensures Iterate(step, s, n) == Some(s2) && Iterate(step, s, 1) == Some(s2)
  {
    IterateFixed(step, s2, n - 1);
  }

  /**
   * TODO -> DONE -> TODO with a fixed estimate, repeated any number of times,
   * leaves the task table as it was and every board's recorded value where it
   * was; every round after the first leaves the store exactly as it found it.
   */
  lemma ToggleRestores(s: Store, t: Task, n: nat, today: Day)
    requires Consistent(s) && NotAfter(s.ledger, today)
    requires Stored(s.tasks, t.id) == Some(t) && !IsDone(t.status)
    ensures Toggle(s, t, n, today).Some?
    ensures Toggle(s, t, n, today).value.tasks == s.tasks
    ensures forall b :: Recorded(Toggle(s, t, n, today).value.ledger, b) == Recorded(s.ledger, b)
    ensures n >= 1 ==> Toggle(s, t, n, today) == Toggle(s, t, 1, today)
  {
    if n > 0 {
      var s2 := ToggleOnce(s, t, today);
      RoundFixed(s2, t, today);
      IterateAfterFirst(x => Round(x, t, today), s, n, s2);
      SameTasksSameRecorded(s, s2);
    }
  }

  /**
   * Creating a task that is not DONE and then deleting it returns the task
   * table and every board's recorded value to where they were.
   */
  lemma CreateThenDeleteRestores(s: Store, t: Task, today: Day)
    requires Consistent(s) && NotAfter(s.ledger, today)
    requires Stored(s.tasks, t.id).None? && !IsDone(t.status)
    ensures Save(s, t, today).Some?
    ensures Delete(Save(s, t, today).value, t, today).Some?
    ensures Delete(Save(s, t, today).value, t, today).value.tasks == s.tasks
    ensures forall b :: Recorded(Delete(Save(s, t, today).value, t, today).value.ledger, b) == Recorded(s.ledger, b)
  {
    CreatePreserves(s, t, today);
    SaveConsistency(s, t, today);
    var s1 := Save(s, t, today).value;
    PersistUnique(s.tasks, t);
    DeleteConsistency(s1, t, today);
    var s2 := Delete(s1, t, today).value;
    assert IndexOf(s1.tasks, t.id) == Some(|s.tasks|);
    assert s2.tasks == (s.tasks + [t])[..|s.tasks|];
    assert s2.tasks == s.tasks;
  }

  /**
   * A task created on a later day than any of its board's rows lands on a new
   * row: the previous value carried forward plus its estimate.
   */
  lemma LaterDayCreate(s: Store, t: Task, today: Day)
    requires Consistent(s)
    requires forall i :: 0 <= i < |s.ledger| ==> s.ledger[i].date < today
    requires Stored(s.tasks, t.id).None? && !IsDone(t.status)
    ensures Save(s, t, today).Some?
    ensures Save(s, t, today).value.ledger ==
              s.ledger + [Row(t.board, today, Outstanding(s.tasks, t.board) + t.estimate)]
  {
    var r := Save(s, t, today);
    assert r.Some?;
    var after := r.value.ledger;
    assert |after| == |s.ledger| + 1;
    assert after[..|s.ledger|] == s.ledger;
    assert after == after[..|s.ledger|] + [after[|s.ledger|]];
  }
}

=== FILE: profile.dfy ===
/**
 * The profile page's form handlers: a student adds or removes parents by
 * e-mail, a parent removes a child, a student toggles the A-level
 * permission, and anyone renames their displayed name. Every handler
 * answers with a redirect to the profile page and at most one flash
 * message; an exception the handler does not catch is `Failed`.
 */
module Profile {
  import opened Basics

  type UserId = nat

  /** An account: its e-mail (not necessarily unique) and its permission codenames. */
  datatype User = User(id: UserId, email: string, perms: set<string>)

  /** A student's profile, with the set of users linked to it as parents. */
  datatype StudentInfo = StudentInfo(user: UserId, displayedName: string, parents: set<UserId>)

  datatype ParentInfo = ParentInfo(user: UserId, displayedName: string)

  datatype Accounts = Accounts(users: seq<User>, students: seq<StudentInfo>, parentInfos: seq<ParentInfo>)

  /** The permission that marks a parent account. */
  const IS_PARENT: string := "is_parent"

  /** The permission that opens the A-level calculator. */
  const IS_TAKING_A_LEVELS: string := "is_taking_A_levels"

  const POST: string := "POST"

  /** A form submission: the HTTP method and the posted fields. */
  datatype Request = Request(verb: string, form: map<string, string>)

  datatype Flash = NoMessage | Success | Warning | Error

  datatype Outcome = Redirect(accounts: Accounts, flash: Flash) | Failed

  /** `User.objects.get(email=...)`. */
  function UserByEmail(acc: Accounts, email: string): Match {
    Lookup(acc.users, (u: User) => u.email == email)
  }

  /** `User.objects.get(pk=...)`. */
  function UserById(acc: Accounts, id: UserId): Match {
    Lookup(acc.users, (u: User) => u.id == id)
  }

  /** `StudentInfo.objects.get(user=...)`. */
  function StudentOf(acc: Accounts, id: UserId): Match {
    Lookup(acc.students, (s: StudentInfo) => s.user == id)
  }

  /** `ParentInfo.objects.get(user=...)`. */
  function ParentInfoOf(acc: Accounts, id: UserId): Match {
    Lookup(acc.parentInfos, (p: ParentInfo) => p.user == id)
  }

  /** Whether some user with that e-mail is among the student's parents. */
  predicate HasParentWithEmail(acc: Accounts, s: StudentInfo, email: string) {
    exists k :: 0 <= k < |acc.users| && acc.users[k].id in s.parents && acc.users[k].email == email
  }

  /** Whether the user has the parent permission. */
  predicate IsParent(acc: Accounts, id: UserId) {
    exists k :: 0 <= k < |acc.users| && acc.users[k].id == id && IS_PARENT in acc.users[k].perms
  }

  /** The accounts with the parents of the student profile at `i` replaced. */
  function WithParents(acc: Accounts, i: nat, parents: set<UserId>): (r: Accounts)
    requires i < |acc.students|
    ensures r.users == acc.users && r.parentInfos == acc.parentInfos
    ensures |r.students| == |acc.students|
    ensures r.students[i].parents == parents
    ensures r.students[i].user == acc.students[i].user && r.students[i].displayedName == acc.students[i].displayedName
    ensures forall k :: 0 <= k < |acc.students| && k != i ==> r.students[k] == acc.students[k]
  {
    acc.(students := acc.students[i := acc.students[i].(parents := parents)])
  }

  // ---------------------------------------------------------------------
  // add_parent

  /**
   * `add_parent`: links the user with the posted e-mail to the requesting
   * student as a parent, when that user exists, has the parent permission and
   * is not linked yet.
   */
  function AddParent(acc: Accounts, user: UserId, req: Request): (r: Outcome)
    ensures req.verb != POST ==> r == Redirect(acc, NoMessage)
    ensures r.Redirect? && r.flash != Success ==> r.accounts == acc
    ensures r.Redirect? && r.flash == Success <==>
              && req.verb == POST && "email" in req.form
              && StudentOf(acc, user).One?
              && UserByEmail(acc, req.form["email"]).One?
              && IS_PARENT in acc.users[UserByEmail(acc, req.form["email"]).index].perms
              && !HasParentWithEmail(acc, acc.students[StudentOf(acc, user).index], req.form["email"])
    ensures r.Redirect? && r.flash == Success ==>
              var i := StudentOf(acc, user).index;
              var p := acc.users[UserByEmail(acc, req.form["email"]).index];
              && p.email == req.form["email"]
              && p.id !in acc.students[i].parents
              && r.accounts == WithParents(acc, i, acc.students[i].parents + {p.id})
    ensures req.verb == POST && "email" in req.form && StudentOf(acc, user).One? ==>
              (UserByEmail(acc, req.form["email"]).NoMatch? ==> r == Redirect(acc, Error))
  {
    if req.verb != POST then Redirect(acc, NoMessage)
    else if "email" !in req.form then Failed
    else
      var email := req.form["email"];
      match StudentOf(acc, user)
      case NoMatch => Failed
      case Many => Failed
      case One(i) =>
        var info := acc.students[i];
        match UserByEmail(acc, email)
        case NoMatch => Redirect(acc, Error)
        case Many => Failed
        case One(p) =>
          if IS_PARENT !in acc.users[p].perms then Redirect(acc, Error)
          else if HasParentWithEmail(acc, info, email) then Redirect(acc, Warning)
          else Redirect(WithParents(acc, i, info.parents + {acc.users[p].id}), Success)
  }

  // ---------------------------------------------------------------------
  // remove_parent

  /**
   * `remove_parent`: unlinks the user with the posted e-mail from the
   * requesting student's parents; an unknown e-mail is reported instead.
   */
  function RemoveParent(acc: Accounts, user: UserId, req: Request): (r: Outcome)
    ensures req.verb != POST ==> r == Redirect(acc, NoMessage)
    ensures r.Redirect? && r.flash != Success ==> r.accounts == acc
    ensures r.Redirect? ==> r.flash in {NoMessage, Success, Error}
    ensures r.Redirect? && r.flash == Success ==>
              && req.verb == POST && "email" in req.form
              && UserByEmail(acc, req.form["email"]).One?
              && StudentOf(acc, user).One?
              && var i := StudentOf(acc, user).index;
                 var p := acc.users[UserByEmail(acc, req.form["email"]).index];
                 p.email == req.form["email"] && r.accounts == WithParents(acc, i, acc.students[i].parents - {p.id})
    ensures req.verb == POST && "email" in req.form && UserByEmail(acc, req.form["email"]).NoMatch? ==>
              r == Redirect(acc, Error)
    ensures (req.verb == POST && "email" in req.form && UserByEmail(acc, req.form["email"]).One? &&
             StudentOf(acc, user).One?) ==> r.Redirect? && r.flash == Success
    ensures r.Failed? <==>
              req.verb == POST &&
              ("email" !in req.form || UserByEmail(acc, req.form["email"]).Many? ||
               (UserByEmail(acc, req.form["email"]).One? && !StudentOf(acc, user).One?))
  {
    if req.verb != POST then Redirect(acc, NoMessage)
    else if "email" !in req.form then Failed
    else
      var email := req.form["email"];
      match UserByEmail(acc, email)
      case NoMatch => Redirect(acc, Error)
      case Many => Failed
      case One(p) =>
        match StudentOf(acc, user)
        case NoMatch => Failed
        case Many => Failed
        case One(i) => Redirect(WithParents(acc, i, acc.students[i].parents - {acc.users[p].id}), Success)
  }

  /** Removing the same parent twice is the same as removing it once. */
  lemma RemoveParentIdempotent(acc: Accounts, user: UserId, req: Request)
    requires RemoveParent(acc, user, req).Redirect?
    ensures var once := RemoveParent(acc, user, req).accounts;
            RemoveParent(once, user, req).Redirect? && RemoveParent(once, user, req).accounts == once
  {
    var once := RemoveParent(acc, user, req).accounts;
    if req.verb == POST && RemoveParent(acc, user, req).flash == Success {
      var email := req.form["email"];
      var i := StudentOf(acc, user).index;
      var p := UserByEmail(acc, email).index;
      assert once.users == acc.users;
      assert UserByEmail(once, email) == UserByEmail(acc, email);
      LookupUnique(once.students, (s: StudentInfo) => s.user == user, i);
      assert once.students[i].parents - {acc.users[p].id} == once.students[i].parents;
      assert once.students[i := once.students[i].(parents := once.students[i].parents)] == once.students;
    }
  }

  /**
   * Adding a parent and then removing the same e-mail returns the student's
   * parents to what they were.
   */
  lemma AddThenRemoveParent(acc: Accounts, user: UserId, req: Request)
    requires AddParent(acc, user, req).Redirect? && AddParent(acc, user, req).flash == Success
    ensures var added := AddParent(acc, user, req).accounts;
            RemoveParent(added, user, req) == Redirect(acc, Success)
  {
    var email := req.form["email"];
    var i := StudentOf(acc, user).index;
    var p := UserByEmail(acc, email).index;
    var added := AddParent(acc, user, req).accounts;
    assert UserByEmail(added, email) == UserByEmail(acc, email);
    LookupUnique(added.students, (s: StudentInfo) => s.user == user, i);
    assert acc.students[i].parents + {acc.users[p].id} - {acc.users[p].id} == acc.students[i].parents;
    assert added.students[i := added.students[i].(parents := acc.students[i].parents)] == acc.students;
  }

  // ---------------------------------------------------------------------
  // remove_child

  /** The student profile belongs to a user with that e-mail (`user__email=`). */
  predicate StudentHasEmail(acc: Accounts, s: StudentInfo, email: string) {
    exists k :: 0 <= k < |acc.users| && acc.users[k].id == s.user && acc.users[k].email == email
  }

  /**
   * `remove_child`: unlinks the requesting parent from the student profile
   * whose user has the posted e-mail; an unknown e-mail is reported instead.
   */
  function RemoveChild(acc: Accounts, user: UserId, req: Request): (r: Outcome)
    ensures req.verb != POST ==> r == Redirect(acc, NoMessage)
    ensures r.Redirect? && r.flash != Success ==> r.accounts == acc
    ensures r.Redirect? ==> r.flash in {NoMessage, Success, Error}
    ensures r.Redirect? && r.flash == Success ==> req.verb == POST && "email" in req.form
    ensures r.Redirect? && r.flash == Success ==>
              exists i :: 0 <= i < |acc.students| && StudentHasEmail(acc, acc.students[i], req.form["email"]) &&
                r.accounts == WithParents(acc, i, acc.students[i].parents - {user})
    ensures r.Redirect? && r.flash == Success ==> |r.accounts.students| == |acc.students|
    ensures r.Redirect? && r.flash == Success ==>
              forall k :: 0 <= k < |r.accounts.students| ==>
                (user in r.accounts.students[k].parents <==>
                   user in acc.students[k].parents && !StudentHasEmail(acc, acc.students[k], req.form["email"]))
    ensures req.verb == POST && "email" in req.form &&
            (forall k :: 0 <= k < |acc.students| ==> !StudentHasEmail(acc, acc.students[k], req.form["email"])) ==>
              r == Redirect(acc, Error)
    ensures req.verb == POST && "email" in req.form &&
            (exists i :: 0 <= i < |acc.students| && StudentHasEmail(acc, acc.students[i], req.form["email"]) &&
               forall k :: 0 <= k < |acc.students| && k != i ==> !StudentHasEmail(acc, acc.students[k], req.form["email"])) ==>
              r.Redirect? && r.flash == Success
  {
    if req.verb != POST then Redirect(acc, NoMessage)
    else if "email" !in req.form then Failed
    else
      var email := req.form["email"];
      match Lookup(acc.students, (s: StudentInfo) => StudentHasEmail(acc, s, email))
      case NoMatch => Redirect(acc, Error)
      case Many => Failed
      case One(i) => Redirect(WithParents(acc, i, acc.students[i].parents - {user}), Success)
  }

  // ---------------------------------------------------------------------
  // update_a_level_permission

  /** The accounts with the permissions of the user at `i` replaced. */
  function WithPerms(acc: Accounts, i: nat, perms: set<string>): (r: Accounts)
    requires i < |acc.users|
    ensures r.students == acc.students && r.parentInfos == acc.parentInfos
    ensures |r.users| == |acc.users| && r.users[i] == acc.users[i].(perms := perms)
    ensures forall k :: 0 <= k < |acc.users| && k != i ==> r.users[k] == acc.users[k]
  {
    acc.(users := acc.users[i := acc.users[i].(perms := perms)])
  }

  /**
   * `update_a_level_permission`: the choice "Yes" grants the A-level
   * permission, "No" revokes it, and any other choice changes nothing.
   */
  function UpdateALevel(acc: Accounts, user: UserId, req: Request): (r: Outcome)
    ensures req.verb != POST ==> r == Redirect(acc, NoMessage)
    ensures r.Redirect? && r.flash == NoMessage ==> r.accounts == acc
    ensures req.verb == POST && "choice" in req.form && UserById(acc, user).One? ==>
              var i := UserById(acc, user).index;
              var choice := req.form["choice"];
              && r.Redirect?
              && (choice == "Yes" ==> r == Redirect(WithPerms(acc, i, acc.users[i].perms + {IS_TAKING_A_LEVELS}), Success))
              && (choice == "No" ==> r == Redirect(WithPerms(acc, i, acc.users[i].perms - {IS_TAKING_A_LEVELS}), Success))
              && (choice != "Yes" && choice != "No" ==> r == Redirect(acc, NoMessage))
    ensures r.Redirect? && r.flash == Success ==>
              "choice" in req.form && UserById(acc, user).One? && |r.accounts.users| == |acc.users| &&
              (IS_TAKING_A_LEVELS in r.accounts.users[UserById(acc, user).index].perms <==> req.form["choice"] == "Yes")
  {
    if req.verb != POST then Redirect(acc, NoMessage)
    else if "choice" !in req.form then Failed
    else
      match UserById(acc, user)
      case NoMatch => Failed
      case Many => Failed
      case One(i) =>
        var choice := req.form["choice"];
        if choice == "Yes" then Redirect(WithPerms(acc, i, acc.users[i].perms + {IS_TAKING_A_LEVELS}), Success)
        else if choice == "No" then Redirect(WithPerms(acc, i, acc.users[i].perms - {IS_TAKING_A_LEVELS}), Success)
        else Redirect(acc, NoMessage)
  }

  /** Granting the A-level permission only changes that one permission of that one user. */
  lemma GrantTouchesOnlyThatPermission(acc: Accounts, user: UserId, req: Request, perm: string)
    requires req.verb == POST && "choice" in req.form && UserById(acc, user).One?
    requires perm != IS_TAKING_A_LEVELS
    ensures var r := UpdateALevel(acc, user, req);
            r.Redirect? && |r.accounts.users| == |acc.users| &&
            forall k :: 0 <= k < |acc.users| ==>
              r.accounts.users[k].id == acc.users[k].id &&
              (perm in r.accounts.users[k].perms <==> perm in acc.users[k].perms)
  {
  }

  // ---------------------------------------------------------------------
  // update_displayed_name

  /**
   * `update_displayed_name`: writes the posted name into the parent profile
   * of a parent, or into the student profile of anyone else, and nothing else.
   */
  function UpdateDisplayedName(acc: Accounts, user: UserId, req: Request): (r: Outcome)
    ensures req.verb != POST ==> r == Redirect(acc, NoMessage)
    ensures r.Redirect? ==> r.flash in {NoMessage, Success}
    ensures r.Redirect? && r.flash == Success ==>
              && "name" in req.form
              && r.accounts.users == acc.users
              && (IsParent(acc, user) ==>
                    ParentInfoOf(acc, user).One? && r.accounts.students == acc.students &&
                    var i := ParentInfoOf(acc, user).index;
                    r.accounts.parentInfos == acc.parentInfos[i := ParentInfo(user, req.form["name"])])
              && (!IsParent(acc, user) ==>
                    StudentOf(acc, user).One? && r.accounts.parentInfos == acc.parentInfos &&
                    var i := StudentOf(acc, user).index;
                    r.accounts.students == acc.students[i := acc.students[i].(displayedName := req.form["name"])])
    ensures req.verb == POST && "name" in req.form &&
            (if IsParent(acc, user) then ParentInfoOf(acc, user).One? else StudentOf(acc, user).One?) ==>
              r.Redirect? && r.flash == Success
  {
    if req.verb != POST then Redirect(acc, NoMessage)
    else if IsParent(acc, user) then
      match ParentInfoOf(acc, user)
      case NoMatch => Failed
      case Many => Failed
      case One(i) =>
        if "name" !in req.form then Failed
        else Redirect(acc.(parentInfos := acc.parentInfos[i := acc.parentInfos[i].(displayedName := req.form["name"])]), Success)
    else
      match StudentOf(acc, user)
      case NoMatch => Failed
      case Many => Failed
      case One(i) =>
        if "name" !in req.form then Failed
        else Redirect(acc.(students := acc.students[i := acc.students[i].(displayedName := req.form["name"])]), Success)
  }
}

=== FILE: score_history.dfy ===
/**
 * The score-history list endpoint: past admission scores filtered by
 * major or by criteria set, optionally narrowed to one year.
 */
module ScoreHistory {
  import opened Basics

  /** One past year's admission figures for a major under a criteria set. */
  datatype History = History(
    id: nat,
    major: nat,
    criteriaSet: nat,
    minScore: real,
    maxScore: real,
    register: int,
    maxSeat: int,
    admitted: int,
    year: int)

  /** `filter(major=…)` or `filter(criteria_set=…)`, plus `year=…` when given. */
  function ByMajor(major: nat, year: Option<int>): History -> bool {
    (h: History) => h.major == major && (year.Some? ==> h.year == year.value)
  }

  function ByCriteriaSet(cs: nat, year: Option<int>): History -> bool {
    (h: History) => h.criteriaSet == cs && (year.Some? ==> h.year == year.value)
  }

  /**
   * The value a present parameter filters with: a blank string is not a
   * number, so filtering an integer column by it fails (`None`).
   */
  function Numeric<T>(p: Param<T>): Option<T>
    requires !p.Absent?
  {
    if p.Given? then Some(p.value) else None
  }

  /**
   * `list`: a present `major` with a falsy `criteria_set` filters by major;
   * otherwise a present `criteria_set` filters by criteria set; otherwise
   * every row. `None` is the server error of filtering by a blank value.
   */
  function List(rows: seq<History>, criteriaSet: Param<nat>, major: Param<nat>, year: Param<int>): (r: Option<seq<History>>)
    ensures r.Some? ==> |r.value| <= |rows| && forall k :: 0 <= k < |r.value| ==> r.value[k] in rows
    ensures r.None? <==>
              (!criteriaSet.Truthy() && major.Blank?) ||
              (!criteriaSet.Truthy() && !major.Absent? && year.Blank?) ||
              (criteriaSet.Blank? && major.Absent?) ||
              (criteriaSet.Given? && year.Blank?)
    ensures r.Some? && !criteriaSet.Truthy() && major.Given? ==>
              forall h :: h in rows ==>
                (h in r.value <==> h.major == major.value && (year.Given? ==> h.year == year.value))
    ensures r.Some? && criteriaSet.Given? ==>
              forall h :: h in rows ==>
                (h in r.value <==> h.criteriaSet == criteriaSet.value && (year.Given? ==> h.year == year.value))
    ensures criteriaSet.Absent? && major.Absent? ==> r == Some(rows)
  {
    if !criteriaSet.Truthy() && !major.Absent? then
      match Numeric(major)
      case None => None
      case Some(m) =>
        if year.Absent? then Some(Filter(rows, ByMajor(m, None)))
        else
          match Numeric(year)
          case None => None
          case Some(y) => Some(Filter(rows, ByMajor(m, Some(y))))
    else if !criteriaSet.Absent? then
      match Numeric(criteriaSet)
      case None => None
      case Some(c) =>
        if year.Absent? then Some(Filter(rows, ByCriteriaSet(c, None)))
        else
          match Numeric(year)
          case None => None
          case Some(y) => Some(Filter(rows, ByCriteriaSet(c, Some(y))))
    else Some(rows)
  }

  /** A given criteria set takes precedence: the `major` parameter is ignored. */
  lemma CriteriaSetIgnoresMajor(rows: seq<History>, cs: nat, major: Param<nat>, other: Param<nat>, year: Param<int>)
    ensures List(rows, Given(cs), major, year) == List(rows, Given(cs), other, year)
  {
  }

  /** A year alone narrows nothing: every row is listed. */
  lemma YearAloneListsAll(rows: seq<History>, year: Param<int>)
    ensures List(rows, Absent, Absent, year) == Some(rows)
  {
  }

  /** A criteria set, major or year no row carries yields an empty list. */
  lemma UnknownIdIsEmpty(rows: seq<History>, criteriaSet: Param<nat>, major: Param<nat>, year: Param<int>)
    requires List(rows, criteriaSet, major, year).Some?
    requires criteriaSet.Given? || major.Given?
    requires forall k :: 0 <= k < |rows| ==>
               (criteriaSet.Given? && rows[k].criteriaSet != criteriaSet.value) ||
               (!criteriaSet.Given? && rows[k].major != major.value) ||
               (year.Given? && rows[k].year != year.value)
    ensures List(rows, criteriaSet, major, year) == Some([])
  {
    var y := if year.Given? then Some(year.value) else None;
    if !criteriaSet.Truthy() && !major.Absent? {
      FilterNone(rows, ByMajor(major.value, y));
    } else {
      FilterNone(rows, ByCriteriaSet(criteriaSet.value, y));
    }
  }

  /** Narrowing by a year lists a subset of the rows listed without it. */
  lemma YearNarrows(rows: seq<History>, criteriaSet: Param<nat>, major: Param<nat>, y: int)
    requires criteriaSet.Given? || major.Given?
    requires List(rows, criteriaSet, major, Absent).Some?
    ensures List(rows, criteriaSet, major, Given(y)).Some?
    ensures forall h :: h in List(rows, criteriaSet, major, Given(y)).value ==>
              h in List(rows, criteriaSet, major, Absent).value && h.year == y
  {
  }
}

=== FILE: student_exam_score.dfy ===
/**
 * The admission calculator's exam-score endpoints: posting a score creates
 * the (student, exam) row or updates the existing one, and the score
 * calculation sums each stored exam score weighted by the criteria posted,
 * warning about every exam the student has no score for.
 */
module StudentExamScore {
  import opened Basics

  type UserId = nat
  type ExamId = nat

  datatype ScoreRow = ScoreRow(id: nat, student: UserId, exam: ExamId, score: real)

  /** The rows the endpoints read and write, and the users and exams foreign keys may name. */
  datatype ScoreDb = ScoreDb(users: set<UserId>, exams: set<ExamId>, rows: seq<ScoreRow>)

  /** The posted fields; an absent field is `None`. */
  datatype ScorePayload = ScorePayload(student: Option<UserId>, exam: Option<ExamId>, score: Option<real>)

  datatype Response = Response(status: int, db: ScoreDb)

  /** The session key the calculated score is stored under. */
  const SCORE_KEY: string := "score"

  predicate IsRowOf(r: ScoreRow, user: UserId, exam: Option<ExamId>) {
    r.student == user && exam == Some(r.exam)
  }

  /** The filter of a single-row lookup by student and exam. */
  function RowOf(user: UserId, exam: Option<ExamId>): ScoreRow -> bool {
    (x: ScoreRow) => IsRowOf(x, user, exam)
  }

  /** At most one row per (student, exam). */
  ghost predicate UniquePairs(rows: seq<ScoreRow>) {
    forall i, j :: 0 <= i < j < |rows| ==> !(rows[i].student == rows[j].student && rows[i].exam == rows[j].exam)
  }

  /**
   * The serializer's check: foreign keys must name existing rows and the
   * score may not be negative; a full (non-partial) save needs every field.
   */
  predicate PayloadValid(db: ScoreDb, p: ScorePayload, partial: bool) {
    && (partial || (p.student.Some? && p.exam.Some? && p.score.Some?))
    && (p.student.Some? ==> p.student.value in db.users)
    && (p.exam.Some? ==> p.exam.value in db.exams)
    && (p.score.Some? ==> p.score.value >= 0.0)
  }

  /** A full save accepts exactly the partial-valid payloads that post every field. */
  lemma FullPayloadValid(db: ScoreDb, p: ScorePayload)
    ensures PayloadValid(db, p, false) <==>
              PayloadValid(db, p, true) && p.student.Some? && p.exam.Some? && p.score.Some?
  {
  }

  /** A partial update: each posted field replaces the stored one. */
  function Merge(r: ScoreRow, p: ScorePayload): (m: ScoreRow)
    ensures m.id == r.id
    ensures p == ScorePayload(None, None, None) ==> m == r
    ensures p.student.Some? && p.exam.Some? && p.score.Some? ==>
              m == ScoreRow(r.id, p.student.value, p.exam.value, p.score.value)
    ensures (p.student.None? ==> m.student == r.student) && (p.exam.None? ==> m.exam == r.exam) &&
            (p.score.None? ==> m.score == r.score)
  {
    ScoreRow(r.id, p.student.GetOr(r.student), p.exam.GetOr(r.exam), p.score.GetOr(r.score))
  }

  /** One more than every id in use. */
  function NextId(rows: seq<ScoreRow>): (n: nat)
    ensures forall k :: 0 <= k < |rows| ==> rows[k].id < n
  {
    if |rows| == 0 then 1
    else
      var m := NextId(rows[..|rows| - 1]);
      if rows[|rows| - 1].id < m then m else rows[|rows| - 1].id + 1
  }

  /**
   * `create`: looks up the requesting user's row for the posted exam; when
   * there is one, the posted fields update it (200), otherwise a full payload
   * makes a new row (201). An invalid payload answers 400 and saves nothing;
   * several matching rows raise an uncaught error.
   */
  function Create(db: ScoreDb, user: UserId, p: ScorePayload): (r: Response)
    ensures r.status in {HTTP_200_OK, HTTP_201_CREATED, HTTP_400_BAD_REQUEST, HTTP_500_SERVER_ERROR}
    ensures r.status != HTTP_200_OK && r.status != HTTP_201_CREATED ==> r.db == db
    ensures r.db.users == db.users && r.db.exams == db.exams
    ensures r.status == HTTP_200_OK <==>
              (exists i :: 0 <= i < |db.rows| && IsRowOf(db.rows[i], user, p.exam) &&
                 forall j :: 0 <= j < |db.rows| && j != i ==> !IsRowOf(db.rows[j], user, p.exam)) &&
              PayloadValid(db, p, true)
    ensures r.status == HTTP_200_OK ==>
              exists i :: 0 <= i < |db.rows| && IsRowOf(db.rows[i], user, p.exam) &&
                r.db.rows == db.rows[i := Merge(db.rows[i], p)]
    ensures r.status == HTTP_201_CREATED <==>
              (forall i :: 0 <= i < |db.rows| ==> !IsRowOf(db.rows[i], user, p.exam)) && PayloadValid(db, p, false)
    ensures r.status == HTTP_201_CREATED ==>
              r.db.rows == db.rows + [ScoreRow(NextId(db.rows), p.student.value, p.exam.value, p.score.value)]
    ensures r.status == HTTP_500_SERVER_ERROR <==>
              exists i, j :: 0 <= i < j < |db.rows| && IsRowOf(db.rows[i], user, p.exam) && IsRowOf(db.rows[j], user, p.exam)
  {
    match Lookup(db.rows, RowOf(user, p.exam))
    case Many => Response(HTTP_500_SERVER_ERROR, db)
    case One(i) =>
      if PayloadValid(db, p, true) then Response(HTTP_200_OK, db.(rows := db.rows[i := Merge(db.rows[i], p)]))
      else Response(HTTP_400_BAD_REQUEST, db)
    case NoMatch =>
      if PayloadValid(db, p, false) then
        Response(HTTP_201_CREATED, db.(rows := db.rows + [ScoreRow(NextId(db.rows), p.student.value, p.exam.value, p.score.value)]))
      else Response(HTTP_400_BAD_REQUEST, db)
  }

  /**
   * When the payload names the requesting user (or no student), the upsert
   * keeps one row per (student, exam).
   */
  lemma CreateKeepsUnique(db: ScoreDb, user: UserId, p: ScorePayload)
    requires UniquePairs(db.rows)
    requires p.student.None? || p.student == Some(user)
    ensures UniquePairs(Create(db, user, p).db.rows)
  {
    var r := Create(db, user, p);
    if r.status == HTTP_200_OK {
      var i :| 0 <= i < |db.rows| && IsRowOf(db.rows[i], user, p.exam) &&
                r.db.rows == db.rows[i := Merge(db.rows[i], p)];
      assert Merge(db.rows[i], p).student == db.rows[i].student;
      assert Merge(db.rows[i], p).exam == db.rows[i].exam;
    }
  }

  /** Posting the same complete score twice updates in place the second time: nothing further changes. */
  lemma CreateIdempotent(db: ScoreDb, user: UserId, p: ScorePayload)
    requires UniquePairs(db.rows)
    requires p.student == Some(user) && PayloadValid(db, p, false)
    ensures var once := Create(db, user, p);
            var twice := Create(once.db, user, p);
            twice.status == HTTP_200_OK && twice.db == once.db
  {
    CreateKeepsUnique(db, user, p);
    var once := Create(db, user, p);
    var k: nat;
    if once.status == HTTP_200_OK {
      var i :| 0 <= i < |db.rows| && IsRowOf(db.rows[i], user, p.exam) &&
                once.db.rows == db.rows[i := Merge(db.rows[i], p)];
      k := i;
    } else {
      k := |db.rows|;
    }
    assert IsRowOf(once.db.rows[k], user, p.exam);
    LookupUnique(once.db.rows, RowOf(user, p.exam), k);
    assert Merge(once.db.rows[k], p) == once.db.rows[k];
  }

  /**
   * A payload naming another student is saved for that student even when
   * they already have a row for the exam, leaving two rows for one
   * (student, exam).
   */
  lemma CreateForOtherStudentDuplicates()
    ensures var db := ScoreDb({1, 2}, {7}, [ScoreRow(1, 2, 7, 50.0)]);
            var r := Create(db, 1, ScorePayload(Some(2), Some(7), Some(60.0)));
            r.status == HTTP_201_CREATED && !UniquePairs(r.db.rows)
  {
    var db := ScoreDb({1, 2}, {7}, [ScoreRow(1, 2, 7, 50.0)]);
    var r := Create(db, 1, ScorePayload(Some(2), Some(7), Some(60.0)));
    assert r.db.rows[0].student == r.db.rows[1].student && r.db.rows[0].exam == r.db.rows[1].exam;
  }

  // ---------------------------------------------------------------------
  // calculate_score

  /** One posted criterion: the exam, its weight in percent, and the unused minimum score. */
  datatype CriterionIn = CriterionIn(exam: Option<ExamId>, weight: Option<real>, minScore: Option<real>)

  /** A criterion after validation. */
  datatype Criterion = Criterion(exam: ExamId, weight: real, minScore: real)

  /** The criterion serializer: the exam must exist and the weight be at most 100; `min_score` defaults to 0. */
  predicate CriterionValid(db: ScoreDb, c: CriterionIn) {
    c.exam.Some? && c.exam.value in db.exams && c.weight.Some? && c.weight.value <= 100.0
  }

  /** The validated criteria, or `None` when any is invalid. */
  function Validate(db: ScoreDb, cs: seq<CriterionIn>): (r: Option<seq<Criterion>>)
    ensures r.None? <==> exists k :: 0 <= k < |cs| && !CriterionValid(db, cs[k])
    ensures r.Some? ==> |r.value| == |cs|
    ensures r.Some? ==> forall k :: 0 <= k < |cs| ==>
              r.value[k] == Criterion(cs[k].exam.value, cs[k].weight.value, cs[k].minScore.GetOr(0.0))
    decreases |cs|
  {
    if |cs| == 0 then Some([])
    else
      var c := cs[|cs| - 1];
      match Validate(db, cs[..|cs| - 1])
      case None => None
      case Some(vs) =>
        if CriterionValid(db, c) then Some(vs + [Criterion(c.exam.value, c.weight.value, c.minScore.GetOr(0.0))])
        else None
  }

  /** A user's score per exam, as a map (later rows win; with unique pairs there is one per exam). */
  function Scores(rows: seq<ScoreRow>, user: UserId): (m: map<ExamId, real>)
    ensures forall e :: e in m <==> exists k :: 0 <= k < |rows| && rows[k].student == user && rows[k].exam == e
    decreases |rows|
  {
    if |rows| == 0 then map[]
    else
      var m := Scores(rows[..|rows| - 1], user);
      var r := rows[|rows| - 1];
      if r.student == user then m[r.exam := r.score] else m
  }

  /**
   * The user has at most one row for exam `e`: the view's `get` for that
   * exam cannot raise. Other students' rows play no part.
   */
  ghost predicate OwnRowUnique(rows: seq<ScoreRow>, user: UserId, e: ExamId) {
    forall i, j :: 0 <= i < j < |rows| ==> !(IsRowOf(rows[i], user, Some(e)) && IsRowOf(rows[j], user, Some(e)))
  }

  /** The user has at most one row for each exam the criteria name. */
  ghost predicate CriteriaRowsUnique(rows: seq<ScoreRow>, user: UserId, vs: seq<Criterion>) {
    forall k :: 0 <= k < |vs| ==> OwnRowUnique(rows, user, vs[k].exam)
  }

  /** Unique pairs make every user's rows unique per exam. */
  lemma UniquePairsOwnRowUnique(rows: seq<ScoreRow>, user: UserId, e: ExamId)
    requires UniquePairs(rows)
    ensures OwnRowUnique(rows, user, e)
  {
  }

  /** With one row of the user for an exam, the map holds that row's score. */
  lemma {:induction false} ScoresOfUnique(rows: seq<ScoreRow>, user: UserId, k: nat)
    requires k < |rows| && rows[k].student == user
    requires OwnRowUnique(rows, user, rows[k].exam)
    ensures rows[k].exam in Scores(rows, user) && Scores(rows, user)[rows[k].exam] == rows[k].score
    decreases |rows|
  {
    var n := |rows|;
    if k < n - 1 {
      ScoresOfUnique(rows[..n - 1], user, k);
      assert !(IsRowOf(rows[k], user, Some(rows[k].exam)) && IsRowOf(rows[n - 1], user, Some(rows[k].exam)));
    }
  }

  /**
   * The view's per-criterion lookup finds several rows exactly when the user
   * has two rows for the exam, finds none exactly when the score map has no
   * entry, and otherwise finds the row whose score the map holds.
   */
  lemma LookupAgreesWithScores(rows: seq<ScoreRow>, user: UserId, e: ExamId)
    ensures Lookup(rows, RowOf(user, Some(e))).Many? <==> !OwnRowUnique(rows, user, e)
    ensures UniquePairs(rows) ==> !Lookup(rows, RowOf(user, Some(e))).Many?
    ensures Lookup(rows, RowOf(user, Some(e))).NoMatch? <==> e !in Scores(rows, user)
    ensures Lookup(rows, RowOf(user, Some(e))).One? ==>
              e in Scores(rows, user) && Scores(rows, user)[e] == rows[Lookup(rows, RowOf(user, Some(e))).index].score
    ensures UniquePairs(rows) && Lookup(rows, RowOf(user, Some(e))).One? ==>
              e in Scores(rows, user) && Scores(rows, user)[e] == rows[Lookup(rows, RowOf(user, Some(e))).index].score
  {
    var l := Lookup(rows, RowOf(user, Some(e)));
    LookupManyIff(rows, user, e);
    if UniquePairs(rows) {
      UniquePairsOwnRowUnique(rows, user, e);
    }
    if l.One? {
      assert OwnRowUnique(rows, user, e) by {
        forall i, j | 0 <= i < j < |rows|
          ensures !(IsRowOf(rows[i], user, Some(e)) && IsRowOf(rows[j], user, Some(e)))
        {
          assert RowOf(user, Some(e))(rows[i]) == IsRowOf(rows[i], user, Some(e));
          assert RowOf(user, Some(e))(rows[j]) == IsRowOf(rows[j], user, Some(e));
        }
      }
      ScoresOfUnique(rows, user, l.index);
    }
  }

  /** The lookup raises exactly when the user has two rows for the exam. */
  lemma LookupManyIff(rows: seq<ScoreRow>, user: UserId, e: ExamId)
    ensures Lookup(rows, RowOf(user, Some(e))).Many? <==> !OwnRowUnique(rows, user, e)
  {
    var p := RowOf(user, Some(e));
    var l := Lookup(rows, p);
    if l.Many? {
      var i, j :| 0 <= i < j < |rows| && p(rows[i]) && p(rows[j]);
      assert IsRowOf(rows[i], user, Some(e)) && IsRowOf(rows[j], user, Some(e));
    }
    if !OwnRowUnique(rows, user, e) {
      var i, j :| 0 <= i < j < |rows| && IsRowOf(rows[i], user, Some(e)) && IsRowOf(rows[j], user, Some(e));
      assert p(rows[i]) && p(rows[j]);
    }
  }

  /** A score's share under a weight given in percent. */
  function Weighted(score: real, weight: real): real {
    score * weight / 100.0
  }

  /** The weighted sum of the scores the criteria name, in percent of each weight; missing exams add 0. */
  function WeightedSum(vs: seq<Criterion>, m: map<ExamId, real>): real
    decreases |vs|
  {
    if |vs| == 0 then 0.0
    else
      var c := vs[|vs| - 1];
      WeightedSum(vs[..|vs| - 1], m) + (if c.exam in m then Weighted(m[c.exam], c.weight) else 0.0)
  }

  /** A criterion whose exam the user has no score for. */
  function Unscored(m: map<ExamId, real>): Criterion -> bool {
    (c: Criterion) => c.exam !in m
  }

  /** The exams the criteria name, in order. */
  function ExamsOf(cs: seq<Criterion>): (r: seq<ExamId>)
    ensures |r| == |cs| && forall k :: 0 <= k < |cs| ==> r[k] == cs[k].exam
  {
    seq(|cs|, k requires 0 <= k < |cs| => cs[k].exam)
  }

  /** The exams, in criteria order, the user has no score for: one warning each. */
  function Missing(vs: seq<Criterion>, m: map<ExamId, real>): (r: seq<ExamId>)
    ensures |r| <= |vs|
    ensures forall k :: 0 <= k < |r| ==> r[k] !in m
    ensures forall k :: 0 <= k < |vs| && vs[k].exam !in m ==> vs[k].exam in r
    decreases |vs|
  {
    if |vs| == 0 then []
    else
      var c := vs[|vs| - 1];
      Missing(vs[..|vs| - 1], m) + (if c.exam in m then [] else [c.exam])
  }

  /**
   * The warnings are exactly the exams of the criteria the user has no score
   * for, one per such criterion and in criteria order.
   */
  lemma {:induction false} MissingIsUnscoredExams(vs: seq<Criterion>, m: map<ExamId, real>)
    ensures Missing(vs, m) == ExamsOf(Filter(vs, Unscored(m)))
    ensures |Missing(vs, m)| == Count(vs, Unscored(m))
    decreases |vs|
  {
    CountIsFilterLength(vs, Unscored(m));
    if |vs| == 0 {
      assert ExamsOf([]) == [];
    } else {
      var init := vs[..|vs| - 1];
      var c := vs[|vs| - 1];
      MissingIsUnscoredExams(init, m);
      var f := Filter(init, Unscored(m));
      SplitLast(vs);
      FilterAppend(init, Unscored(m), c);
      if c.exam in m {
        assert Missing(vs, m) == Missing(init, m) + [];
        assert Missing(vs, m) == ExamsOf(f);
      } else {
        assert Missing(vs, m) == Missing(init, m) + [c.exam];
        ExamsOfAppend(f, [c]);
        assert ExamsOf([c]) == [c.exam];
        assert Missing(vs, m) == ExamsOf(f + [c]);
      }
    }
  }

  lemma ExamsOfAppend(a: seq<Criterion>, b: seq<Criterion>)
    ensures ExamsOf(a + b) == ExamsOf(a) + ExamsOf(b)
  {
    assert forall k :: 0 <= k < |a + b| ==> (a + b)[k] == if k < |a| then a[k] else b[k - |a|];
  }

  /** One more criterion adds its weighted score, or its warning, at the end. */
  lemma TallyStep(vs: seq<Criterion>, i: nat, m: map<ExamId, real>)
    requires i < |vs|
    ensures WeightedSum(vs[..i + 1], m) ==
              WeightedSum(vs[..i], m) + (if vs[i].exam in m then Weighted(m[vs[i].exam], vs[i].weight) else 0.0)
    ensures Missing(vs[..i + 1], m) == Missing(vs[..i], m) + (if vs[i].exam in m then [] else [vs[i].exam])
  {
    assert vs[..i + 1][..i] == vs[..i];
  }

  /**
   * One criterion of the view's loop in terms of its lookup: the row found
   * adds its weighted score, no row adds a warning.
   */
  lemma TallyAdvance(rows: seq<ScoreRow>, user: UserId, vs: seq<Criterion>, i: nat)
    requires i < |vs|
    ensures var m := Scores(rows, user);
            var l := Lookup(rows, RowOf(user, Some(vs[i].exam)));
            && (l.Many? <==> !OwnRowUnique(rows, user, vs[i].exam))
            && (l.One? ==>
                  && WeightedSum(vs[..i + 1], m) == WeightedSum(vs[..i], m) + Weighted(rows[l.index].score, vs[i].weight)
                  && Missing(vs[..i + 1], m) == Missing(vs[..i], m))
            && (l.NoMatch? ==>
                  && WeightedSum(vs[..i + 1], m) == WeightedSum(vs[..i], m)
                  && Missing(vs[..i + 1], m) == Missing(vs[..i], m) + [vs[i].exam])
  {
    LookupAgreesWithScores(rows, user, vs[i].exam);
    TallyStep(vs, i, Scores(rows, user));
  }

  /** A lookup that finds several rows shows two rows for one (student, exam). */
  lemma ManyIsDuplicate(rows: seq<ScoreRow>, user: UserId, e: ExamId)
    requires Lookup(rows, RowOf(user, Some(e))).Many?
    ensures exists i, j :: 0 <= i < j < |rows| && rows[i].student == rows[j].student && rows[i].exam == rows[j].exam
  {
    var i, j :| 0 <= i < j < |rows| && RowOf(user, Some(e))(rows[i]) && RowOf(user, Some(e))(rows[j]);
    assert rows[i].student == rows[j].student && rows[i].exam == rows[j].exam;
  }

  datatype Scored =
    | ScoreServerError
    | ScoreNotFound
    | ScoreRedirect(session: map<string, real>, warnings: seq<ExamId>)

  /**
   * The loop of `calculate_score` over the validated criteria: the running
   * total and the warnings, or `ok == false` when some lookup finds several
   * rows of the user for one exam.
   */
  method Tally(rows: seq<ScoreRow>, user: UserId, vs: seq<Criterion>) returns (ok: bool, result: real, warnings: seq<ExamId>)
    ensures ok <==> CriteriaRowsUnique(rows, user, vs)
    ensures ok ==> result == WeightedSum(vs, Scores(rows, user)) && warnings == Missing(vs, Scores(rows, user))
    ensures UniquePairs(rows) ==> ok && result == WeightedSum(vs, Scores(rows, user)) && warnings == Missing(vs, Scores(rows, user))
    ensures !ok ==> exists i, j :: 0 <= i < j < |rows| && rows[i].student == rows[j].student && rows[i].exam == rows[j].exam
  {
    ghost var m := Scores(rows, user);
    result := 0.0;
    warnings := [];
    var i := 0;
    while i < |vs|
      invariant 0 <= i <= |vs|
      invariant forall k :: 0 <= k < i ==> OwnRowUnique(rows, user, vs[k].exam)
      invariant result == WeightedSum(vs[..i], m)
      invariant warnings == Missing(vs[..i], m)
    {
      var c := vs[i];
      var l := Lookup(rows, RowOf(user, Some(c.exam)));
      TallyAdvance(rows, user, vs, i);
      if l.Many? {
        ManyIsDuplicate(rows, user, c.exam);
        return false, result, warnings;
      } else if l.One? {
        result := result + Weighted(rows[l.index].score, c.weight);
      } else {
        warnings := warnings + [c.exam];
      }
      UniqueUpTo(rows, user, vs, i);
      i := i + 1;
    }
    assert vs[..|vs|] == vs;
    ok := true;
    if UniquePairs(rows) {
      forall k | 0 <= k < |vs| ensures OwnRowUnique(rows, user, vs[k].exam) {
        UniquePairsOwnRowUnique(rows, user, vs[k].exam);
      }
    }
  }

  /** One more criterion whose exam the user has at most one row for. */
  lemma UniqueUpTo(rows: seq<ScoreRow>, user: UserId, vs: seq<Criterion>, i: nat)
    requires i < |vs|
    requires forall k :: 0 <= k < i ==> OwnRowUnique(rows, user, vs[k].exam)
    requires OwnRowUnique(rows, user, vs[i].exam)
    ensures forall k :: 0 <= k < i + 1 ==> OwnRowUnique(rows, user, vs[k].exam)
  {
  }

  /**
   * `calculate_score`: a missing `criteria` field fails; invalid criteria
   * answer 404; a user with two rows for a criterion's exam makes the
   * lookup raise; otherwise each criterion adds the user's score for its
   * exam times its weight over 100, or a warning when there is none, and the
   * total is stored in the session before redirecting to the score page.
   */
  method CalculateScore(db: ScoreDb, user: UserId, criteria: Option<seq<CriterionIn>>, session: map<string, real>)
    returns (out: Scored)
    ensures criteria.None? ==> out == ScoreServerError
    ensures criteria.Some? && Validate(db, criteria.value).None? ==> out == ScoreNotFound
    ensures criteria.Some? && Validate(db, criteria.value).Some? ==>
              var vs := Validate(db, criteria.value).value;
              var m := Scores(db.rows, user);
              && (CriteriaRowsUnique(db.rows, user, vs) ==>
                    out == ScoreRedirect(session[SCORE_KEY := WeightedSum(vs, m)], Missing(vs, m)))
              && (!CriteriaRowsUnique(db.rows, user, vs) ==> out == ScoreServerError)
    ensures criteria.Some? && Validate(db, criteria.value).Some? && UniquePairs(db.rows) ==>
              var vs := Validate(db, criteria.value).value;
              var m := Scores(db.rows, user);
              out == ScoreRedirect(session[SCORE_KEY := WeightedSum(vs, m)], Missing(vs, m))
    ensures out == ScoreServerError && criteria.Some? ==>
              exists i, j :: 0 <= i < j < |db.rows| && db.rows[i].student == db.rows[j].student &&
                             db.rows[i].exam == db.rows[j].exam
  {
    if criteria.None? {
      return ScoreServerError;
    }
    var valid := Validate(db, criteria.value);
    if valid.None? {
      return ScoreNotFound;
    }
    var ok, result, warnings := Tally(db.rows, user, valid.value);
    if !ok {
      return ScoreServerError;
    }
    return ScoreRedirect(session[SCORE_KEY := result], warnings);
  }

  /** The minimum score of a criterion never enters the calculation. */
  lemma {:induction false} MinScoreIrrelevant(vs: seq<Criterion>, ws: seq<Criterion>, m: map<ExamId, real>)
    requires |vs| == |ws|
    requires forall k :: 0 <= k < |vs| ==> vs[k].exam == ws[k].exam && vs[k].weight == ws[k].weight
    ensures WeightedSum(vs, m) == WeightedSum(ws, m) && Missing(vs, m) == Missing(ws, m)
    decreases |vs|
  {
    if |vs| > 0 {
      MinScoreIrrelevant(vs[..|vs| - 1], ws[..|ws| - 1], m);
    }
  }

  /** Changing or adding a row of another student leaves a user's scores as they were. */
  lemma {:induction false} ScoresIgnoreOthers(rows: seq<ScoreRow>, i: nat, r: ScoreRow, user: UserId)
    requires i < |rows| && rows[i].student != user && r.student != user
    ensures Scores(rows[i := r], user) == Scores(rows, user)
    ensures Scores(rows + [r], user) == Scores(rows, user)
    decreases |rows|
  {
    var n := |rows|;
    assert (rows + [r])[..n] == rows;
    if i < n - 1 {
      ScoresIgnoreOthers(rows[..n - 1], i, r, user);
      assert rows[i := r][..n - 1] == rows[..n - 1][i := r];
    } else {
      assert rows[i := r][..n - 1] == rows[..n - 1];
    }
  }

  /**
   * Another student's score upsert, naming that student, never changes a
   * user's scores, and so never changes the user's calculated score.
   */
  lemma OtherUpsertIrrelevant(db: ScoreDb, other: UserId, p: ScorePayload, user: UserId)
    requires other != user && p.student == Some(other)
    ensures Scores(Create(db, other, p).db.rows, user) == Scores(db.rows, user)
  {
    var r := Create(db, other, p);
    if r.status == HTTP_200_OK {
      var i :| 0 <= i < |db.rows| && IsRowOf(db.rows[i], other, p.exam) &&
                r.db.rows == db.rows[i := Merge(db.rows[i], p)];
      ScoresIgnoreOthers(db.rows, i, Merge(db.rows[i], p), user);
    } else if r.status == HTTP_201_CREATED {
      var row := ScoreRow(NextId(db.rows), p.student.value, p.exam.value, p.score.value);
      assert (db.rows + [row])[..|db.rows|] == db.rows;
    }
  }
}

=== FILE: task.dfy ===
/**
 * The Task model and its two overridden persistence hooks, `save` and
 * `delete`, which keep today's estimate-history row of the task's board up to
 * date by adding a delta computed from the stored (pre-save) version of the
 * task.
 */
module TaskModel {
  import opened Basics
  import opened EstimateHistory

  /** A task's end date: its instant plus the calendar fields the dashboard compares. */
  datatype Stamp = Stamp(instant: int, year: int, month: int, day: int)

  datatype Task = Task(
    id: nat,
    title: string,
    status: string,
    end: Stamp,
    details: Option<string>,
    board: BoardId,
    estimate: int)

  /** The only terminal status; any other string counts as outstanding work. */
  const DONE: string := "DONE"

  /** Default of the `status` column. */
  const DEFAULT_STATUS: string := "TODO"

  /** Default of the `time_estimate` column. */
  const DEFAULT_ESTIMATE: int := 0

  predicate IsDone(status: string) {
    status == DONE
  }

  /** The persisted state the hooks read and write: the task table and the ledger. */
  datatype Store = Store(tasks: seq<Task>, ledger: seq<Row>)

  /** Position of the row with primary key `id`; keys are unique, so the first match is the row. */
  function IndexOf(tasks: seq<Task>, id: nat): (r: Option<nat>)
    ensures r.Some? ==> r.value < |tasks| && tasks[r.value].id == id
    ensures r.Some? ==> forall k :: 0 <= k < r.value ==> tasks[k].id != id
    ensures r.None? <==> forall k :: 0 <= k < |tasks| ==> tasks[k].id != id
  {
    FirstFrom(tasks, (x: Task) => x.id == id, 0)
  }

  /** `Task.objects.get(pk=id)` as the hooks read it before writing. */
  function Stored(tasks: seq<Task>, id: nat): (r: Option<Task>)
    ensures r.Some? ==> r.value in tasks && r.value.id == id
    ensures r.None? <==> forall k :: 0 <= k < |tasks| ==> tasks[k].id != id
  {
    match IndexOf(tasks, id)
    case Some(i) => Some(tasks[i])
    case None => None
  }

  /** `__compute_time_diff`: a new task counts its whole estimate. */
  function TimeDiff(stored: Option<Task>, t: Task): (d: int)
    ensures d == t.estimate - (if stored.Some? then stored.value.estimate else 0)
  {
    match stored
    case Some(prev) => t.estimate - prev.estimate
    case None => t.estimate
  }

  /** `__status_changed_to_done`: true also for a task created already DONE. */
  predicate ChangedToDone(stored: Option<Task>, t: Task)
    ensures ChangedToDone(stored, t) <==>
              IsDone(t.status) && !(stored.Some? && IsDone(stored.value.status))
  {
    match stored
    case Some(prev) => if t.status == prev.status then false else IsDone(t.status)
    case None => IsDone(t.status)
  }

  /** `__status_changed_from_done`: never true for a new task. */
  predicate ChangedFromDone(stored: Option<Task>, t: Task)
    ensures ChangedFromDone(stored, t) <==>
              stored.Some? && IsDone(stored.value.status) && !IsDone(t.status)
  {
    match stored
    case Some(prev) => if t.status == prev.status then false else IsDone(prev.status)
    case None => false
  }

  /**
   * The amount `save` adds to today's row: the estimate difference, then minus
   * the new estimate on a move to DONE or plus it on a move away from DONE.
   */
  function SaveDelta(stored: Option<Task>, t: Task): (d: int)
    ensures stored.None? && !IsDone(t.status) ==> d == t.estimate
    ensures stored.None? && IsDone(t.status) ==> d == 0
    ensures stored.Some? && !IsDone(stored.value.status) && !IsDone(t.status) ==>
              d == t.estimate - stored.value.estimate
    ensures stored.Some? && !IsDone(stored.value.status) && IsDone(t.status) ==>
              d == -stored.value.estimate
    ensures stored.Some? && IsDone(stored.value.status) && !IsDone(t.status) ==>
              d == 2 * t.estimate - stored.value.estimate
    ensures stored.Some? && IsDone(stored.value.status) && IsDone(t.status) ==>
              d == t.estimate - stored.value.estimate
  {
    var diff := TimeDiff(stored, t);
    if ChangedToDone(stored, t) then diff - t.estimate
    else if ChangedFromDone(stored, t) then diff + t.estimate
    else diff
  }

  /**
   * `after` is `before` with `delta` added to the (board, today) row: the
   * existing one, or a new one carrying the board's recorded value forward;
   * every other row is left as it was.
   */
  ghost predicate Adjusted(before: seq<Row>, after: seq<Row>, board: BoardId, today: Day, delta: int) {
    && |before| <= |after| <= |before| + 1
    && (forall i :: 0 <= i < |before| && !Keyed(before[i], board, today) ==> after[i] == before[i])
    && (|after| == |before| ==>
          exists i :: 0 <= i < |before| && Keyed(before[i], board, today) &&
                      after[i] == before[i].(remaining := before[i].remaining + delta))
    && (|after| == |before| + 1 ==>
          (forall i :: 0 <= i < |before| ==> !Keyed(before[i], board, today)) &&
          after[|before|] == Row(board, today, Recorded(before, board) + delta))
  }

  /** Fetches (or creates) the (board, today) row and adds `delta` to it. */
  function Adjust(rows: seq<Row>, board: BoardId, today: Day, delta: int): (r: Option<seq<Row>>)
    ensures r.None? <==>
              exists i, j :: 0 <= i < j < |rows| && Keyed(rows[i], board, today) && Keyed(rows[j], board, today)
    ensures r.Some? ==> Adjusted(rows, r.value, board, today, delta)
  {
    match Get(rows, board, today)
    case MultipleObjects => None
    case Fetched(rows', i) =>
      assert |rows'| == |rows| ==> rows' == rows;
      Some(rows'[i := rows'[i].(remaining := rows'[i].remaining + delta)])
  }

  /** The task table after `super().save()`: the row replaced in place, or appended. */
  function Persist(tasks: seq<Task>, t: Task): (r: seq<Task>)
    ensures Stored(tasks, t.id).None? ==> r == tasks + [t]
    ensures Stored(tasks, t.id).Some? ==> |r| == |tasks| && t in r
    ensures IndexOf(tasks, t.id).Some? ==>
              var i := IndexOf(tasks, t.id).value;
              r[i] == t && forall k :: 0 <= k < |tasks| && k != i ==> r[k] == tasks[k]
  {
    match IndexOf(tasks, t.id)
    case Some(i) => assert tasks[i := t][i] == t; tasks[i := t]
    case None => tasks + [t]
  }

  /** The task table after `super().delete()`: the row with that primary key is gone. */
  function Remove(tasks: seq<Task>, id: nat): (r: seq<Task>)
    ensures Stored(tasks, id).None? ==> r == tasks
    ensures Stored(tasks, id).Some? ==> |r| == |tasks| - 1
    ensures IndexOf(tasks, id).Some? ==>
              var i := IndexOf(tasks, id).value;
              && (forall k :: 0 <= k < i ==> r[k] == tasks[k])
              && (forall k :: i <= k < |r| ==> r[k] == tasks[k + 1])
    ensures forall k :: 0 <= k < |r| ==> r[k] in tasks
  {
    match IndexOf(tasks, id)
    case Some(i) => tasks[..i] + tasks[i + 1..]
    case None => tasks
  }

  /**
   * `Task.save`: adjusts today's row of the task's board by `SaveDelta`
   * (read against the stored version), then persists the task. `None` is the
   * `MultipleObjectsReturned` raised when the ledger holds duplicate rows.
   */
  function Save(s: Store, t: Task, today: Day): (r: Option<Store>)
    ensures r.None? <==>
              exists i, j :: 0 <= i < j < |s.ledger| && Keyed(s.ledger[i], t.board, today) && Keyed(s.ledger[j], t.board, today)
    ensures r.Some? ==> r.value.tasks == Persist(s.tasks, t)
    ensures r.Some? ==> Adjusted(s.ledger, r.value.ledger, t.board, today, SaveDelta(Stored(s.tasks, t.id), t))
  {
    match Adjust(s.ledger, t.board, today, SaveDelta(Stored(s.tasks, t.id), t))
    case None => None
    case Some(ledger) => Some(Store(Persist(s.tasks, t), ledger))
  }

  /**
   * `Task.delete`: subtracts the task's estimate from today's row of its board,
   * whatever its status, then deletes it.
   */
  function Delete(s: Store, t: Task, today: Day): (r: Option<Store>)
    ensures r.None? <==>
              exists i, j :: 0 <= i < j < |s.ledger| && Keyed(s.ledger[i], t.board, today) && Keyed(s.ledger[j], t.board, today)
    ensures r.Some? ==> r.value.tasks == Remove(s.tasks, t.id)
    ensures r.Some? ==> Adjusted(s.ledger, r.value.ledger, t.board, today, -t.estimate)
  {
    match Adjust(s.ledger, t.board, today, -t.estimate)
    case None => None
    case Some(ledger) => Some(Store(Remove(s.tasks, t.id), ledger))
  }
}

=== FILE: tasks_view.dfy ===
/**
 * The task REST endpoint: a list whose query parameters pick one of five
 * selections, and create / retrieve / update / destroy on single tasks,
 * with the serializer's field checks and the 400 / 404 answers. Writes go
 * through the Task model's `save` and `delete` hooks.
 */
module TasksView {
  import opened Basics
  import opened EstimateHistory
  import opened TaskModel
  import opened LedgerInvariant

  /** Length limits of the `title` and `status` columns. */
  const TITLE_MAX: nat := 300
  const STATUS_MAX: nat := 20

  /** Which user owns each existing task board. */
  type Owners = map<BoardId, UserId>
  type UserId = nat

  // ---------------------------------------------------------------------
  // list

  /** The list query parameters; the range bounds are already-parsed instants. */
  datatype ListQuery = ListQuery(taskboard: Param<BoardId>, exclude: Param<string>, start: Param<int>, end: Param<int>)

  /** Tasks sorted by end instant (`order_by("end_date")`). */
  ghost predicate ByEnd(s: seq<Task>) {
    forall i, j :: 0 <= i < j < |s| ==> s[i].end.instant <= s[j].end.instant
  }

  /** Inserts `t` before the first task that ends later. */
  function InsertByEnd(t: Task, s: seq<Task>): (r: seq<Task>)
    requires ByEnd(s)
    ensures ByEnd(r)
    ensures multiset(r) == multiset(s) + multiset{t}
    ensures |r| == |s| + 1
  {
    if |s| == 0 then [t]
    else if t.end.instant <= s[0].end.instant then [t] + s
    else
      var rest := InsertByEnd(t, s[1..]);
      MultisetOfCons(s);
      BoundedBelow(s[0], t, s[1..], rest);
      ConsByEnd(s[0], rest);
      [s[0]] + rest
  }

  lemma MultisetOfCons<T>(s: seq<T>)
    requires |s| > 0
    ensures multiset(s) == multiset{s[0]} + multiset(s[1..])
  {
    assert s == [s[0]] + s[1..];
  }

  /** Every task of a sorted tail, plus one ending later, ends no earlier than the head. */
  lemma BoundedBelow(x: Task, t: Task, tail: seq<Task>, rest: seq<Task>)
    requires ByEnd([x] + tail)
    requires x.end.instant < t.end.instant
    requires multiset(rest) == multiset(tail) + multiset{t}
    ensures forall k :: 0 <= k < |rest| ==> x.end.instant <= rest[k].end.instant
  {
    forall k | 0 <= k < |rest| ensures x.end.instant <= rest[k].end.instant {
      assert rest[k] in multiset(rest);
      if rest[k] != t {
        assert rest[k] in multiset(tail);
        var j :| 0 <= j < |tail| && tail[j] == rest[k];
        assert ([x] + tail)[0] == x && ([x] + tail)[j + 1] == tail[j];
      }
    }
  }

  lemma ConsByEnd(x: Task, rest: seq<Task>)
    requires ByEnd(rest)
    requires forall k :: 0 <= k < |rest| ==> x.end.instant <= rest[k].end.instant
    ensures ByEnd([x] + rest)
  {
  }

  /** All tasks ordered by end instant. */
  function SortByEnd(s: seq<Task>): (r: seq<Task>)
    ensures ByEnd(r)
    ensures multiset(r) == multiset(s)
  {
    if |s| == 0 then []
    else
      assert s == s[..|s| - 1] + [s[|s| - 1]];
      InsertByEnd(s[|s| - 1], SortByEnd(s[..|s| - 1]))
  }

  /** `end_date__gte=start, end_date__lte=end`, both bounds included. */
  function InRange(start: int, end: int, board: Param<BoardId>): Task -> bool {
    (t: Task) => start <= t.end.instant <= end && (board.Truthy() ==> t.board == board.value)
  }

  /** `~Q(status=exclude), taskboard=board`. */
  function OpenOnBoard(exclude: string, board: BoardId): Task -> bool {
    (t: Task) => t.status != exclude && t.board == board
  }

  /** `taskboard=board`. */
  function OnBoard(board: BoardId): Task -> bool {
    (t: Task) => t.board == board
  }

  /** `~Q(status=exclude), taskboard__user=user`. */
  function OpenOfUser(exclude: string, owners: Owners, user: UserId): Task -> bool {
    (t: Task) => t.status != exclude && t.board in owners && owners[t.board] == user
  }

  /**
   * `list`: a full range wins, then exclude-with-board, then board, then
   * exclude alone (the user's own boards); with none of them every task
   * is listed by end instant.
   */
  function List(tasks: seq<Task>, owners: Owners, user: UserId, q: ListQuery): (r: seq<Task>)
    ensures forall k :: 0 <= k < |r| ==> r[k] in tasks
    ensures q.start.Truthy() && q.end.Truthy() ==>
              forall t :: t in tasks ==>
                (t in r <==> q.start.value <= t.end.instant <= q.end.value &&
                             (q.taskboard.Truthy() ==> t.board == q.taskboard.value))
    ensures !(q.start.Truthy() && q.end.Truthy()) && q.exclude.Truthy() && q.taskboard.Truthy() ==>
              forall t :: t in tasks ==> (t in r <==> t.status != q.exclude.value && t.board == q.taskboard.value)
    ensures !(q.start.Truthy() && q.end.Truthy()) && !q.exclude.Truthy() && q.taskboard.Truthy() ==>
              forall t :: t in tasks ==> (t in r <==> t.board == q.taskboard.value)
    ensures !(q.start.Truthy() && q.end.Truthy()) && q.exclude.Truthy() && !q.taskboard.Truthy() ==>
              forall t :: t in tasks ==>
                (t in r <==> t.status != q.exclude.value && t.board in owners && owners[t.board] == user)
    ensures !(q.start.Truthy() && q.end.Truthy()) && !q.exclude.Truthy() && !q.taskboard.Truthy() ==>
              ByEnd(r) && multiset(r) == multiset(tasks)
  {
    if q.start.Truthy() && q.end.Truthy() then Filter(tasks, InRange(q.start.value, q.end.value, q.taskboard))
    else if q.exclude.Truthy() && q.taskboard.Truthy() then Filter(tasks, OpenOnBoard(q.exclude.value, q.taskboard.value))
    else if q.taskboard.Truthy() then Filter(tasks, OnBoard(q.taskboard.value))
    else if q.exclude.Truthy() then Filter(tasks, OpenOfUser(q.exclude.value, owners, user))
    else
      var r := SortByEnd(tasks);
      assert forall k :: 0 <= k < |r| ==> r[k] in tasks by {
        forall k | 0 <= k < |r| ensures r[k] in tasks {
          assert r[k] in multiset(r);
        }
      }
      r
  }

  /** A full date range makes the `exclude` parameter irrelevant. */
  lemma RangeOverridesExclude(tasks: seq<Task>, owners: Owners, user: UserId, q: ListQuery, other: Param<string>)
    requires q.start.Truthy() && q.end.Truthy()
    ensures List(tasks, owners, user, q) == List(tasks, owners, user, q.(exclude := other))
  {
  }

  /** One range bound alone is ignored: the list is every task by end instant. */
  lemma HalfRangeIgnored(tasks: seq<Task>, owners: Owners, user: UserId, q: ListQuery)
    requires !q.end.Truthy() && !q.exclude.Truthy() && !q.taskboard.Truthy()
    ensures var r := List(tasks, owners, user, q);
            ByEnd(r) && multiset(r) == multiset(tasks)
  {
  }

  /** Excluding DONE on a board lists exactly that board's outstanding tasks. */
  lemma ExcludeDoneIsOutstanding(tasks: seq<Task>, owners: Owners, user: UserId, q: ListQuery)
    requires !(q.start.Truthy() && q.end.Truthy())
    requires q.exclude == Given(DONE) && q.taskboard.Truthy()
    ensures forall t :: t in List(tasks, owners, user, q) <==> t in tasks && !IsDone(t.status) && t.board == q.taskboard.value
  {
  }

  // ---------------------------------------------------------------------
  // create / retrieve / update / destroy

  /**
   * A request body as the serializer sees it: every field may be missing;
   * `details` may be given as null.
   */
  datatype TaskData = TaskData(
    title: Option<string>,
    status: Option<string>,
    end: Option<Stamp>,
    details: Option<Option<string>>,
    board: Option<BoardId>,
    estimate: Option<int>)

  /** What an endpoint answers and the store it leaves behind. */
  datatype Response = Response(status: int, store: Store, body: Option<Task>)

  // ---------------------------------------------------------------------
  // the serializer's string fields

  /**
   * The characters Python's `str.isspace` accepts, which `str.strip()`
   * removes: the Unicode white space and the separators U+001C..U+001F.
   */
  predicate IsSpace(c: char) {
    || c == ' ' || '\U{9}' <= c <= '\U{D}' || '\U{1C}' <= c <= '\U{1F}'
    || c == '\U{85}' || c == '\U{A0}' || c == '\U{1680}' || '\U{2000}' <= c <= '\U{200A}'
    || c == '\U{2028}' || c == '\U{2029}' || c == '\U{202F}' || c == '\U{205F}' || c == '\U{3000}'
  }

  predicate AllSpace(s: string) {
    forall k :: 0 <= k < |s| ==> IsSpace(s[k])
  }

  /** The number of white-space characters `s` starts with. */
  function Lead(s: string): (n: nat)
    ensures n <= |s|
    ensures forall k :: 0 <= k < n ==> IsSpace(s[k])
    ensures n == |s| || !IsSpace(s[n])
  {
    if |s| > 0 && IsSpace(s[0]) then 1 + Lead(s[1..]) else 0
  }

  /** The number of white-space characters `s` ends with. */
  function Trail(s: string): (n: nat)
    ensures n <= |s|
    ensures forall k :: |s| - n <= k < |s| ==> IsSpace(s[k])
    ensures n == |s| || !IsSpace(s[|s| - n - 1])
  {
    if |s| > 0 && IsSpace(s[|s| - 1]) then 1 + Trail(s[..|s| - 1]) else 0
  }

  /**
   * `s.strip()`: `s` is `Lead(s)` white-space characters, then the result,
   * then white space, and the result neither starts nor ends with white
   * space.
   */
  function Trim(s: string): (r: string)
    ensures Lead(s) + |r| <= |s| && r == s[Lead(s)..Lead(s) + |r|]
    ensures forall k :: Lead(s) + |r| <= k < |s| ==> IsSpace(s[k])
    ensures r == [] || (!IsSpace(r[0]) && !IsSpace(r[|r| - 1]))
  {
    if Lead(s) == |s| then [] else s[Lead(s)..|s| - Trail(s)]
  }

  /** A value is blank once trimmed exactly when it is all white space. */
  lemma TrimBlank(s: string)
    ensures Trim(s) == [] <==> AllSpace(s)
  {
    var r := Trim(s);
    if r != [] {
      assert r[0] == s[Lead(s)..Lead(s) + |r|][0] == s[Lead(s)];
    }
  }

  /**
   * `Trim` agrees with its definition by padding: white space, then a core
   * that neither starts nor ends with white space, then white space trims
   * to that core.
   */
  lemma TrimUnique(p: string, m: string, q: string)
    requires AllSpace(p) && AllSpace(q)
    requires m == [] || (!IsSpace(m[0]) && !IsSpace(m[|m| - 1]))
    ensures Trim(p + m + q) == m
  {
    var s := p + m + q;
    assert forall k :: 0 <= k < |p| ==> s[k] == p[k];
    assert forall k :: |p| + |m| <= k < |s| ==> s[k] == q[k - |p| - |m|];
    if m == [] {
      TrimBlank(s);
    } else {
      assert s[|p|] == m[0] && s[|p| + |m| - 1] == m[|m| - 1];
      CoreAt(s, |p|, |m|);
      assert s[|p|..|p| + |m|] == m;
    }
  }

  /** A string that is white space, a core with no white space at its ends, and white space trims to the core. */
  lemma CoreAt(s: string, a: nat, n: nat)
    requires 0 < n && a + n <= |s|
    requires forall k :: 0 <= k < a ==> IsSpace(s[k])
    requires forall k :: a + n <= k < |s| ==> IsSpace(s[k])
    requires !IsSpace(s[a]) && !IsSpace(s[a + n - 1])
    ensures Trim(s) == s[a..a + n]
  {
    var r := Trim(s);
    var i := Lead(s);
    TrimBlank(s);
    assert r != [];
    assert r[0] == s[i..i + |r|][0] == s[i];
    assert r[|r| - 1] == s[i..i + |r|][|r| - 1] == s[i + |r| - 1];
    SameStart(s, i, a);
    SameEnd(s, i + |r|, a + n);
  }

  /** Two positions that are each the first without white space coincide. */
  lemma SameStart(s: string, a: nat, b: nat)
    requires a < |s| && b < |s| && !IsSpace(s[a]) && !IsSpace(s[b])
    requires forall k :: 0 <= k < a ==> IsSpace(s[k])
    requires forall k :: 0 <= k < b ==> IsSpace(s[k])
    ensures a == b
  {
  }

  /** Two ends that are each followed only by white space coincide. */
  lemma SameEnd(s: string, a: nat, b: nat)
    requires 0 < a <= |s| && 0 < b <= |s| && !IsSpace(s[a - 1]) && !IsSpace(s[b - 1])
    requires forall k :: a <= k < |s| ==> IsSpace(s[k])
    requires forall k :: b <= k < |s| ==> IsSpace(s[k])
    ensures a == b
  {
  }

  /** Trimming twice is trimming once. */
  lemma TrimIdempotent(s: string)
    ensures Trim(Trim(s)) == Trim(s)
  {
    var m := Trim(s);
    assert [] + m + [] == m;
    TrimUnique([], m, []);
  }

  /**
   * White space around a value without white space at its ends is dropped
   * before storing and does not count towards the column's length.
   */
  lemma PaddingIgnored(p: string, v: string, q: string, max: Option<nat>, allowBlank: bool)
    requires AllSpace(p) && AllSpace(q)
    requires v == [] || (!IsSpace(v[0]) && !IsSpace(v[|v| - 1]))
    ensures Trim(p + v + q) == v
    ensures FieldValid(p + v + q, max, allowBlank) == FieldValid(v, max, allowBlank)
  {
    TrimUnique(p, v, q);
    assert [] + v + [] == v;
    TrimUnique([], v, []);
  }

  /** The NUL character, which the serializer's string fields refuse. */
  const NUL: char := '\0'

  /**
   * A string field of the serializer (`CharField` with `trim_whitespace`):
   * the value is trimmed first; a blank value is accepted only where the
   * column allows blanks; any other value must fit the column's
   * `max_length`, when it has one, and hold no NUL character.
   */
  predicate FieldValid(s: string, max: Option<nat>, allowBlank: bool) {
    var v := Trim(s);
    if v == [] then allowBlank else (max.None? || |v| <= max.value) && NUL !in v
  }

  /**
   * The serializer's field checks: on create, `title` and `taskboard` are
   * required; a present title or status must be non-blank once trimmed and
   * fit its column; present details may be null or blank; a present board
   * must exist.
   */
  predicate DataValid(data: TaskData, owners: Owners, partial: bool) {
    && (data.title.Some? ==> FieldValid(data.title.value, Some(TITLE_MAX), false))
    && (data.status.Some? ==> FieldValid(data.status.value, Some(STATUS_MAX), false))
    && (data.details.Some? && data.details.value.Some? ==> FieldValid(data.details.value.value, None, true))
    && (data.board.Some? ==> data.board.value in owners)
    && (!partial ==> data.title.Some? && data.board.Some?)
  }

  /** Creating accepts exactly the update-valid bodies that carry a title and a board. */
  lemma CreateNeedsTitleAndBoard(data: TaskData, owners: Owners)
    ensures DataValid(data, owners, false) <==>
              DataValid(data, owners, true) && data.title.Some? && data.board.Some?
  {
  }

  /** A primary key above every existing one. */
  function NextId(tasks: seq<Task>): (r: nat)
    ensures forall k :: 0 <= k < |tasks| ==> tasks[k].id < r
  {
    if |tasks| == 0 then 1
    else
      var rest := NextId(tasks[1..]);
      if tasks[0].id < rest then rest else tasks[0].id + 1
  }

  /** A given string as the serializer stores it: trimmed; null details stay null. */
  function Cleaned(d: Option<string>): (r: Option<string>)
    ensures r.None? <==> d.None?
    ensures d.Some? ==> r.value == Trim(d.value)
  {
    if d.None? then None else Some(Trim(d.value))
  }

  /** The cleaned fields of `data` laid over `t`. */
  function Patch(t: Task, data: TaskData): (r: Task)
    ensures r.id == t.id
    ensures r.title == (if data.title.Some? then Trim(data.title.value) else t.title)
    ensures r.status == (if data.status.Some? then Trim(data.status.value) else t.status)
    ensures r.details == (if data.details.Some? then Cleaned(data.details.value) else t.details)
    ensures r.end == data.end.GetOr(t.end)
    ensures r.board == data.board.GetOr(t.board) && r.estimate == data.estimate.GetOr(t.estimate)
  {
    Task(t.id,
         if data.title.Some? then Trim(data.title.value) else t.title,
         if data.status.Some? then Trim(data.status.value) else t.status,
         data.end.GetOr(t.end),
         if data.details.Some? then Cleaned(data.details.value) else t.details,
         data.board.GetOr(t.board),
         data.estimate.GetOr(t.estimate))
  }

  /** A new task with every column at its default. */
  function Blank(id: nat, defaultEnd: Stamp): Task {
    Task(id, "", DEFAULT_STATUS, defaultEnd, None, 0, DEFAULT_ESTIMATE)
  }

  /**
   * `create`: 400 on invalid data; otherwise the task, with defaults for the
   * missing columns, is saved through the model hook under a fresh key (201).
   */
  function Create(s: Store, owners: Owners, data: TaskData, defaultEnd: Stamp, today: Day): (r: Response)
    ensures r.status in {HTTP_201_CREATED, HTTP_400_BAD_REQUEST, HTTP_500_SERVER_ERROR}
    ensures r.status == HTTP_400_BAD_REQUEST <==> !DataValid(data, owners, false)
    ensures r.status == HTTP_500_SERVER_ERROR <==>
              DataValid(data, owners, false) && Duplicated(s.ledger, data.board.value, today)
    ensures r.status != HTTP_201_CREATED ==> r.store == s
    ensures r.status == HTTP_201_CREATED ==>
              && r.body.Some?
              && var t := r.body.value;
                 && Stored(s.tasks, t.id).None?
                 && t.title == Trim(data.title.value) && t.board == data.board.value
                 && t.status == (if data.status.Some? then Trim(data.status.value) else DEFAULT_STATUS)
                 && t.estimate == data.estimate.GetOr(DEFAULT_ESTIMATE)
                 && t.details == (if data.details.Some? then Cleaned(data.details.value) else None)
                 && t.end == data.end.GetOr(defaultEnd)
                 && Save(s, t, today) == Some(r.store)
  {
    if !DataValid(data, owners, false) then Response(HTTP_400_BAD_REQUEST, s, None)
    else
      var t := Patch(Blank(NextId(s.tasks), defaultEnd), data);
      match Save(s, t, today)
      case None => Response(HTTP_500_SERVER_ERROR, s, None)
      case Some(s') => Response(HTTP_201_CREATED, s', Some(t))
  }

  /** `retrieve`: the task with that key, or 404. */
  function Retrieve(s: Store, id: nat): (r: Response)
    ensures r.store == s
    ensures r.status == HTTP_404_NOT_FOUND <==> forall k :: 0 <= k < |s.tasks| ==> s.tasks[k].id != id
    ensures r.status != HTTP_404_NOT_FOUND ==> r.status == HTTP_200_OK && r.body.Some? && r.body.value in s.tasks && r.body.value.id == id
  {
    match Stored(s.tasks, id)
    case None => Response(HTTP_404_NOT_FOUND, s, None)
    case Some(t) => Response(HTTP_200_OK, s, Some(t))
  }

  /**
   * `update`: 404 for an unknown key, 400 for an invalid partial body, and
   * otherwise the patched task saved through the model hook (200).
   */
  function Update(s: Store, owners: Owners, id: nat, data: TaskData, today: Day): (r: Response)
    ensures r.status in {HTTP_200_OK, HTTP_400_BAD_REQUEST, HTTP_404_NOT_FOUND, HTTP_500_SERVER_ERROR}
    ensures r.status == HTTP_404_NOT_FOUND <==> Stored(s.tasks, id).None?
    ensures r.status == HTTP_400_BAD_REQUEST <==> Stored(s.tasks, id).Some? && !DataValid(data, owners, true)
    ensures r.status == HTTP_500_SERVER_ERROR <==>
              && Stored(s.tasks, id).Some? && DataValid(data, owners, true)
              && Duplicated(s.ledger, Patch(Stored(s.tasks, id).value, data).board, today)
    ensures r.status != HTTP_200_OK ==> r.store == s
    ensures r.status == HTTP_200_OK ==>
              var t := Patch(Stored(s.tasks, id).value, data);
              r.body == Some(t) && Save(s, t, today) == Some(r.store)
  {
    match Stored(s.tasks, id)
    case None => Response(HTTP_404_NOT_FOUND, s, None)
    case Some(prev) =>
      if !DataValid(data, owners, true) then Response(HTTP_400_BAD_REQUEST, s, None)
      else
        var t := Patch(prev, data);
        match Save(s, t, today)
        case None => Response(HTTP_500_SERVER_ERROR, s, None)
        case Some(s') => Response(HTTP_200_OK, s', Some(t))
  }

  /** `destroy`: 404 for an unknown key, otherwise the model's delete hook (204). */
  function Destroy(s: Store, id: nat, today: Day): (r: Response)
    ensures r.status in {HTTP_204_NO_CONTENT, HTTP_404_NOT_FOUND, HTTP_500_SERVER_ERROR}
    ensures r.status == HTTP_404_NOT_FOUND <==> Stored(s.tasks, id).None?
    ensures r.status == HTTP_500_SERVER_ERROR <==>
              Stored(s.tasks, id).Some? && Duplicated(s.ledger, Stored(s.tasks, id).value.board, today)
    ensures r.status != HTTP_204_NO_CONTENT ==> r.store == s
    ensures r.status == HTTP_204_NO_CONTENT ==>
              Delete(s, Stored(s.tasks, id).value, today) == Some(r.store) && |r.store.tasks| == |s.tasks| - 1
  {
    match Stored(s.tasks, id)
    case None => Response(HTTP_404_NOT_FOUND, s, None)
    case Some(t) =>
      match Delete(s, t, today)
      case None => Response(HTTP_500_SERVER_ERROR, s, None)
      case Some(s') => Response(HTTP_204_NO_CONTENT, s', None)
  }

  /**
   * With the ledger's rows in date order per board, no `get` of today's row
   * raises: a valid body is created, a valid patch of a known key is saved,
   * and a known key is destroyed.
   */
  lemma OrderedLedgerSucceeds(s: Store, owners: Owners, data: TaskData, defaultEnd: Stamp, today: Day, id: nat)
    requires Chronological(s.ledger)
    ensures DataValid(data, owners, false) ==> Create(s, owners, data, defaultEnd, today).status == HTTP_201_CREATED
    ensures Stored(s.tasks, id).Some? && DataValid(data, owners, true) ==>
              Update(s, owners, id, data, today).status == HTTP_200_OK
    ensures Stored(s.tasks, id).Some? ==> Destroy(s, id, today).status == HTTP_204_NO_CONTENT
  {
    if DataValid(data, owners, false) {
      ChronologicalNotDuplicated(s.ledger, data.board.value, today);
    }
    if Stored(s.tasks, id).Some? {
      var t := Stored(s.tasks, id).value;
      ChronologicalNotDuplicated(s.ledger, Patch(t, data).board, today);
      ChronologicalNotDuplicated(s.ledger, t.board, today);
    }
  }

  /** A created task can be retrieved under its new key, as it was created. */
  lemma CreateThenRetrieve(s: Store, owners: Owners, data: TaskData, defaultEnd: Stamp, today: Day)
    requires Create(s, owners, data, defaultEnd, today).status == HTTP_201_CREATED
    ensures var c := Create(s, owners, data, defaultEnd, today);
            Retrieve(c.store, c.body.value.id) == Response(HTTP_200_OK, c.store, c.body)
  {
    var c := Create(s, owners, data, defaultEnd, today);
    var t := c.body.value;
    assert c.store.tasks == s.tasks + [t];
    AppendedFound(s.tasks, t);
  }

  /** A task appended under a key no row carries is the one found under that key. */
  lemma AppendedFound(tasks: seq<Task>, t: Task)
    requires forall k :: 0 <= k < |tasks| ==> tasks[k].id != t.id
    ensures IndexOf(tasks + [t], t.id) == Some(|tasks|)
    ensures Stored(tasks + [t], t.id) == Some(t)
  {
    assert (tasks + [t])[|tasks|] == t;
    assert forall k :: 0 <= k < |tasks| ==> (tasks + [t])[k].id != t.id;
  }

  /** An updated task reads back as patched. */
  lemma UpdateThenRetrieve(s: Store, owners: Owners, id: nat, data: TaskData, today: Day)
    requires UniqueIds(s.tasks)
    requires Update(s, owners, id, data, today).status == HTTP_200_OK
    ensures var u := Update(s, owners, id, data, today);
            Retrieve(u.store, id) == Response(HTTP_200_OK, u.store, u.body)
  {
    var t := Patch(Stored(s.tasks, id).value, data);
    PersistUnique(s.tasks, t);
  }

  /** After a destroy the key is gone and every other task is untouched. */
  lemma DestroyThenRetrieve(s: Store, id: nat, today: Day, other: nat)
    requires UniqueIds(s.tasks)
    requires Destroy(s, id, today).status == HTTP_204_NO_CONTENT
    requires other != id
    ensures var d := Destroy(s, id, today);
            Retrieve(d.store, id).status == HTTP_404_NOT_FOUND &&
            Stored(d.store.tasks, other) == Stored(s.tasks, other)
  {
    var d := Destroy(s, id, today);
    var i := IndexOf(s.tasks, id).value;
    var rest := d.store.tasks;
    RemoveShifts(s.tasks, id, i);
    RemoveForgets(s.tasks, rest, i, id);
    match IndexOf(s.tasks, other)
    case None =>
      RemoveForgets(s.tasks, rest, i, other);
    case Some(j) =>
      RemoveFinds(s.tasks, rest, i, j, other);
  }

  /** Removing the row at `i` shifts every later row one place down. */
  lemma RemoveShifts(tasks: seq<Task>, id: nat, i: nat)
    requires IndexOf(tasks, id) == Some(i)
    ensures |Remove(tasks, id)| == |tasks| - 1
    ensures forall k :: 0 <= k < |tasks| - 1 ==> Remove(tasks, id)[k] == tasks[if k < i then k else k + 1]
  {
  }

  /** A key no row but the removed one carries is gone after the removal. */
  lemma RemoveForgets(tasks: seq<Task>, rest: seq<Task>, i: nat, key: nat)
    requires i < |tasks| && |rest| == |tasks| - 1
    requires forall k :: 0 <= k < |rest| ==> rest[k] == tasks[if k < i then k else k + 1]
    requires forall k :: 0 <= k < |tasks| && k != i ==> tasks[k].id != key
    ensures IndexOf(rest, key).None?
  {
    forall k | 0 <= k < |rest| ensures rest[k].id != key {
      assert rest[k] == tasks[if k < i then k else k + 1];
    }
  }

  /** The first row with another key keeps its place, shifted down when it came after the removed one. */
  lemma RemoveFinds(tasks: seq<Task>, rest: seq<Task>, i: nat, j: nat, key: nat)
    requires i < |tasks| && |rest| == |tasks| - 1 && j != i
    requires forall k :: 0 <= k < |rest| ==> rest[k] == tasks[if k < i then k else k + 1]
    requires IndexOf(tasks, key) == Some(j)
    ensures IndexOf(rest, key) == Some(if j < i then j else j - 1) && Stored(rest, key) == Some(tasks[j])
  {
    var j' := if j < i then j else j - 1;
    assert rest[j'] == tasks[j];
    forall k | 0 <= k < j' ensures rest[k].id != key {
      assert rest[k] == tasks[if k < i then k else k + 1];
    }
  }

  /** A title of white space alone is blank to the serializer: create and update answer 400 and change nothing. */
  lemma BlankTitleRejected(s: Store, owners: Owners, data: TaskData, defaultEnd: Stamp, today: Day, id: nat)
    requires data.title.Some? && AllSpace(data.title.value)
    ensures Create(s, owners, data, defaultEnd, today) == Response(HTTP_400_BAD_REQUEST, s, None)
    ensures Stored(s.tasks, id).Some? ==> Update(s, owners, id, data, today) == Response(HTTP_400_BAD_REQUEST, s, None)
  {
    TrimBlank(data.title.value);
  }

  /**
   * A status sent with white space around `"DONE"` is stored as `"DONE"`,
   * so the save hook treats the task as done.
   */
  lemma PaddedDoneIsDone(t: Task, data: TaskData, p: string, q: string)
    requires AllSpace(p) && AllSpace(q) && data.status == Some(p + DONE + q)
    ensures Patch(t, data).status == DONE && IsDone(Patch(t, data).status)
  {
    TrimUnique(p, DONE, q);
  }

  /** A body rejected on create leaves the store as it was, whatever the table holds. */
  lemma MissingBoardRejected(s: Store, owners: Owners, data: TaskData, defaultEnd: Stamp, today: Day)
    requires data.board.None? || data.board.value !in owners
    ensures Create(s, owners, data, defaultEnd, today) == Response(HTTP_400_BAD_REQUEST, s, None)
  {
  }
}

=== FILE: utils.dfy ===
/**
 * The small client-side helpers the task pages share: whether a task is
 * near or past its due instant, the estimate read from a form field, and
 * the default due date used when none is typed. Instants are milliseconds
 * on the local clock; the current instant is a parameter.
 */
module Utils {
  import opened Basics

  /** Milliseconds in one day. */
  const MS_PER_DAY: int := 1000 * 60 * 60 * 24

  /** How many days before its due instant a task counts as near. */
  const NEAR_DAYS: int := 3

  /** `getTimeDiff`: days (fractional) from `now` until `due`. */
  function DaysUntil(due: int, now: int): real {
    (due - now) as real / (MS_PER_DAY as real)
  }

  /** `taskNearDueDate`: due in more than zero and at most three days. */
  function NearDue(due: int, now: int): (r: bool)
    ensures r <==> 0 < due - now <= NEAR_DAYS * MS_PER_DAY
  {
    var diff := DaysUntil(due, now);
    0.0 < diff && diff <= NEAR_DAYS as real
  }

  /** `taskPassedDueDate`: the due instant has been reached. */
  function PassedDue(due: int, now: int): (r: bool)
    ensures r <==> due <= now
  {
    0.0 >= DaysUntil(due, now)
  }

  /**
   * Every task is exactly one of: past due, near its due instant, or more
   * than three days away; at the due instant itself it is past due and not near.
   */
  lemma DueClassification(due: int, now: int)
    ensures PassedDue(due, now) ==> !NearDue(due, now)
    ensures !PassedDue(due, now) && !NearDue(due, now) <==> due - now > NEAR_DAYS * MS_PER_DAY
    ensures PassedDue(now, now) && !NearDue(now, now)
  {
  }

  // ---------------------------------------------------------------------
  // getValidEstimatedTime

  predicate IsDigit(c: char) {
    '0' <= c <= '9'
  }

  /** A non-empty string of decimal digits. */
  predicate IsDigits(s: string) {
    |s| > 0 && forall i :: 0 <= i < |s| ==> IsDigit(s[i])
  }

  /** The number a string of decimal digits denotes. */
  function DigitsValue(s: string): (n: nat)
    requires forall i :: 0 <= i < |s| ==> IsDigit(s[i])
    decreases |s|
  {
    if |s| == 0 then 0
    else
      assert IsDigit(s[|s| - 1]);
      DigitsValue(s[..|s| - 1]) * 10 + (s[|s| - 1] as int - '0' as int)
  }

  /**
   * `getValidEstimatedTime`: an empty field counts as no time; a field of
   * decimal digits is the number it spells. `None` marks every other string,
   * whose reading by `Number` is not modelled.
   */
  function EstimatedTime(s: string): (r: Option<nat>)
    ensures s == "" ==> r == Some(0)
    ensures IsDigits(s) ==> r.Some?
    ensures r.None? <==> s != "" && !IsDigits(s)
  {
    if s == "" then Some(0)
    else if IsDigits(s) then Some(DigitsValue(s))
    else None
  }

  /** The decimal spelling of a number, without leading zeros. */
  function Render(n: nat): (s: string)
    ensures IsDigits(s)
    ensures |s| > 1 ==> s[0] != '0'
    decreases n
  {
    if n < 10 then [('0' as int + n) as char]
    else Render(n / 10) + [('0' as int + n % 10) as char]
  }

  /** Reading back the decimal spelling of a number gives the number. */
  lemma {:induction false} DigitsValueRender(n: nat)
    ensures DigitsValue(Render(n)) == n
    decreases n
  {
    if n >= 10 {
      DigitsValueRender(n / 10);
      var s := Render(n);
      assert s[..|s| - 1] == Render(n / 10);
    }
  }

  /** Typing a number into the estimate field yields that number. */
  lemma EstimatedTimeRoundTrip(n: nat)
    ensures EstimatedTime(Render(n)) == Some(n)
  {
    DigitsValueRender(n);
  }

  /** A run of `z` zero digits. */
  function Zeros(z: nat): (s: string)
    ensures |s| == z && forall i :: 0 <= i < z ==> s[i] == '0'
  {
    seq(z, _ => '0')
  }

  /** Leading zeros do not change the estimate read from the field. */
  lemma LeadingZeros(z: nat, s: string)
    requires IsDigits(s)
    ensures IsDigits(Zeros(z) + s)
    ensures EstimatedTime(Zeros(z) + s) == EstimatedTime(s)
  {
    ZerosValue(z, s);
  }

  /** The value of zero digits followed by `s` is the value of `s`. */
  lemma {:induction false} ZerosValue(z: nat, s: string)
    requires forall i :: 0 <= i < |s| ==> IsDigit(s[i])
    ensures forall i :: 0 <= i < |Zeros(z) + s| ==> IsDigit((Zeros(z) + s)[i])
    ensures DigitsValue(Zeros(z) + s) == DigitsValue(s)
    decreases |s|
  {
    var t := Zeros(z) + s;
    assert forall i :: 0 <= i < |t| ==> IsDigit(t[i]);
    if |s| == 0 {
      assert t == Zeros(z);
      AllZeros(z);
    } else {
      ZerosValue(z, s[..|s| - 1]);
      assert t[..|t| - 1] == Zeros(z) + s[..|s| - 1];
    }
  }

  /** A string of zeros is worth zero. */
  lemma {:induction false} AllZeros(z: nat)
    ensures forall i :: 0 <= i < z ==> IsDigit(Zeros(z)[i])
    ensures DigitsValue(Zeros(z)) == 0
    decreases z
  {
    if z > 0 {
      AllZeros(z - 1);
      assert Zeros(z)[..z - 1] == Zeros(z - 1);
    }
  }

  // ---------------------------------------------------------------------
  // getValidDateISOString

  /**
   * `getValidDateISOString`: a typed date is used as parsed (`parsed` is its
   * instant); an empty field defaults to midnight at the start of the next day.
   */
  function ValidDateInstant(typed: string, parsed: int, now: int): (r: int)
    ensures typed != "" ==> r == parsed
    ensures typed == "" ==> r % MS_PER_DAY == 0 && now < r <= now + MS_PER_DAY
  {
    if typed != "" then parsed
    else
      var midnight := now - now % MS_PER_DAY;
      midnight + MS_PER_DAY
  }

  /** The default is the first midnight after `now`: no day boundary lies strictly between them. */
  lemma DefaultIsNextMidnight(now: int, m: int)
    requires m % MS_PER_DAY == 0 && m > now
    ensures ValidDateInstant("", 0, now) <= m
  {
  }
}
